=== FILE: README.md ===
# notester, modelled in Dafny

notester is a browser note-taking app. A note's content is a JSON document tree
of `{type, text?, content?}` nodes. The app's deterministic logic lies between
the React UI, the local database and the built-in AI model. This project models
that logic and proves properties about it:

- the note's content tree: validation, sanitising, creation from text, preview
  extraction, the load rule, and the UPDATE statement builder;
- the prompt that carries a note to the chat model;
- the inline autocomplete: its plugin state machine, key handling, enable
  toggle, and the text processing around the model call;
- the Markdown table recogniser and parser used on paste;
- the PDF pipeline: file checks, page cap, per-page text assembly, result
  messages, prompt assembly, and the test for a usable metadata title;
- the slash menu's YouTube and x.com link validators, written out as
  character tests;
- the file-icon table and the image-note handler of the image upload panel;
- prompt selection in both AI selector menus;
- the state rules of the home chat box, the sidebar, the dock footer and the
  recording dialog.

Foreign calls are replaced by parameters: the AI model, PDF.js, the database,
the file reader, the router and the browser's URL parser. Code that updates
state step by step is modelled as classes and methods: the autocomplete
editor, the selectors' panels, the home chat box, the sidebar, the dock and
the recording dialog. The same goes for the loops of the PDF page reader, the
table builder, the update builder and the chunk accumulation. Pure code is
modelled as functions with lemmas.

Files:

- `wrappers.dfy`: `Option` and `Outcome`.
- `text.dfy`: JavaScript string behaviour. It covers `trim` over the
  ECMAScript whitespace set, `split`/`join`, `startsWith`/`endsWith`/
  `includes`, number rendering, and the round-trip lemmas these need.
- `prompts.dfy`: the prompt constants.
- One file per source module, each named after it.

## Model

| member | source | states |
|---|---|---|
| `NoteContent.CreateEmptyContent` | lib/utils.ts:53-55 | the result is a `doc` with no blocks |
| `NoteContent.CreateContentFromText` | lib/utils.ts:58-68 | empty text gives a `doc` with no blocks; other text gives exactly one paragraph holding one text node equal to the text |
| `NoteContent.CreatedContentText` | app/hooks/useNotes.ts:21-29 | for the hook's copy of the same builder, reading back the block texts gives `[text]`, or nothing for empty text |
| `NoteContent.ValidateAndSanitize` | lib/utils.ts:23-50 | always a `doc`. Anything that is not an object of type `doc` with an array `content` gives the empty doc. Otherwise the children map one to one: a text node whose text is an object gets empty text, every other node is kept. No unsafe text node remains |
| `NoteContent.SanitizeNode` | lib/utils.ts:35-44 | the result is never an unsafe text node: an unsafe one becomes an empty text node, anything else is kept |
| `NoteContent.NodeText` | app/hooks/useNotes.ts:35-41 | a node contributes nothing only when it has no non-empty string text and no object text; a node with neither and no children contributes nothing |
| `NoteContent.ValidateIdempotent` | lib/utils.ts:23-50 | validating the validated content changes nothing |
| `NoteContent.ValidateKeepsSafeDocument` | lib/utils.ts:35-44 | a `doc` with no object-text children passes through unchanged |
| `NoteContent.GenerateTransformationPrompt` | lib/utils.ts:9-20 | the prompt starts with "Please " and ends with ":\n\n" followed by the content |
| `NoteContent.UnknownTransformationPrompt` | lib/utils.ts:19 | a type outside the seven known ones gives the fallback "Please <type> the following text:\n\n<content>" |
| `NoteContent.PromptIsInstructionThenContent` | lib/utils.ts:10-19 | the prompt is an instruction chosen by the type alone, followed by the content |
| `NoteContent.TransformationPromptContent` | lib/utils.ts:9-20 | under one type, equal prompts imply equal contents |
| `NoteStore.Preview` | app/hooks/useNotes.ts:32-45 | a doc with no blocks, or with no text, gives "New note...". Text up to 80 characters is kept whole; longer text is cut to its first 80 characters plus "...". The result is never empty and at most 83 long |
| `NoteStore.PreviewOfText` | app/hooks/useNotes.ts:32-45 | a note made from text previews as that text, cut at 80, or as the placeholder when the text is empty |
| `NoteStore.PreviewOfEmptyParagraphs` | app/hooks/useNotes.ts:43-44 | two empty paragraphs preview as the joining space " ", not as the placeholder |
| `NoteStore.LoadContent` | app/hooks/useNotes.ts:72-86 | a parsed object of type `doc` is kept as it is; anything else, and a parse failure, gives the empty doc |
| `NoteStore.LoadStoredContent` | app/hooks/useNotes.ts:72-86 | content that went through the validator is loaded back unchanged |
| `NoteStore.AddField` | app/hooks/useNotes.ts:228-231 | one builder step appends the `column = $n` entry with the next number, appends its value, and advances the counter |
| `NoteStore.AddContent` | app/hooks/useNotes.ts:233-242 | a content update appends the validated content and the preview derived from it, numbered consecutively |
| `NoteStore.AddPart` | app/hooks/useNotes.ts:244-252 | an optional single field appends its numbered entry and value, or nothing |
| `NoteStore.BuildUpdate` | app/hooks/useNotes.ts:220-257 | no statement exactly when no field is given. Otherwise the SET entries are numbered from $1 in assignment order, the values follow the same order, and the id is bound to the next placeholder |
| `NoteStore.Assignments` | app/hooks/useNotes.ts:228-251 | at most four assignments, and no column is assigned twice (an explicit preview is dropped when content is given) |
| `NoteStore.PushAssignment` | app/hooks/useNotes.ts:229-230 | appending an assignment appends its entry numbered one past the existing ones, and its value |
| `NoteStore.PartRanks` | app/hooks/useNotes.ts:228-252 | the title, content+preview, preview and timestamp blocks contribute columns in ranks 0, 1-2, 2 and 3 |
| `NoteStore.PartRanksIncrease` | app/hooks/useNotes.ts:228-252 | those blocks, concatenated, give strictly increasing ranks |
| `NoteStore.RanksOrderColumns` | app/hooks/useNotes.ts:228-252 | strictly increasing ranks mean no column appears twice |
| `NoteStore.AssignmentsOrdered` | app/hooks/useNotes.ts:228-252 | the assignments follow the fixed column order, so no column is assigned twice |
| `NoteStore.NoFieldsNoStatement` | app/hooks/useNotes.ts:254 | nothing is written exactly when title, content, preview and timestamp are all undefined |
| `NoteStore.ContentDerivesPreview` | app/hooks/useNotes.ts:238-247 | when content is given, a preview is written, and it is the one derived from the validated content, whatever preview was supplied |
| `ChatTransport.ExtractTextFromContent` | app/note/util/client-side-chat-transport.ts:31-43 | a document without blocks gives the empty string |
| `ChatTransport.ExtractedLines` | app/note/util/client-side-chat-transport.ts:31-43 | when no block text contains a line break, splitting the result at line breaks gives each block's text, in order |
| `ChatTransport.ExtractCreatedText` | app/note/util/client-side-chat-transport.ts:31-43 | the text of a note created from text is that text |
| `ChatTransport.CreateSystemPrompt` | app/note/util/client-side-chat-transport.ts:46-57 | the prompt is the fixed header, the note's extracted text, then the fixed footer |
| `ChatTransport.SystemPromptDeterminedByText` | app/note/util/client-side-chat-transport.ts:46-57 | two notes get the same system prompt exactly when their extracted texts agree |
| `Autocomplete.CreateDecorations` | app/note/components/editor/ai/ai-autocomplete-extension.ts:53-80 | a widget is shown exactly when the suggestion's position lies within the document; it carries that position, text and streaming flag |
| `Autocomplete.Apply` | app/note/components/editor/ai/ai-autocomplete-extension.ts:94-131 | a set meta installs its suggestion and a clear meta removes it. Without either, a document change removes the suggestion and anything else keeps it. The decorations always match the suggestion |
| `Autocomplete.ClearThenChange` | app/note/components/editor/ai/ai-autocomplete-extension.ts:94-131 | a clear then an edit, or an edit then a clear, both leave the initial state: no suggestion and no decoration |
| `Autocomplete.SplitSentences` | app/note/components/editor/ai/ai-autocomplete-extension.ts:222 | there is at least one piece, and no piece contains `.`, `!` or `?` |
| `Autocomplete.SplitSentencesLeadingRun` | app/note/components/editor/ai/ai-autocomplete-extension.ts:222 | a leading run of `.!?` gives an empty first piece, then splitting goes on after the run |
| `Autocomplete.SplitSentencesAfterPiece` | app/note/components/editor/ai/ai-autocomplete-extension.ts:222 | a punctuation-free piece followed by a maximal run of `.!?` is one piece, and splitting goes on after the run |
| `Autocomplete.SplitSentencesTrailingRun` | app/note/components/editor/ai/ai-autocomplete-extension.ts:222 | text that ends in a run of `.!?` ends with an empty piece |
| `Autocomplete.SplitSentencesNone` | app/note/components/editor/ai/ai-autocomplete-extension.ts:222-223 | text without sentence ends is one piece |
| `Autocomplete.NonBlank` | app/note/components/editor/ai/ai-autocomplete-extension.ts:222 | no kept piece is blank, and no more pieces come out than went in |
| `Autocomplete.NonBlankAppend` | app/note/components/editor/ai/ai-autocomplete-extension.ts:222 | filtering a concatenation filters each half, so the kept pieces stay in order |
| `Autocomplete.NonBlankOne` | app/note/components/editor/ai/ai-autocomplete-extension.ts:222 | one piece is kept exactly when it is not blank |
| `Autocomplete.NonBlankKeeps` | app/note/components/editor/ai/ai-autocomplete-extension.ts:222 | a list without blank pieces passes the filter whole |
| `Autocomplete.LastThreeSentencesContext` | app/note/components/editor/ai/ai-autocomplete-extension.ts:222-223 | for `a`, a run, `b`, a run, `c`, a run, `d` and optional closing punctuation, with `b`, `c`, `d` non-blank, the context is `b. c. d` trimmed |
| `Autocomplete.LastThree` | app/note/components/editor/ai/ai-autocomplete-extension.ts:222-223 | the result is the last three pieces, or all of them when fewer |
| `Autocomplete.NoPunctuationContext` | app/note/components/editor/ai/ai-autocomplete-extension.ts:222-227 | text without sentence ends is sent as its trimmed self |
| `Autocomplete.SuggestionContext` | app/note/components/editor/ai/ai-autocomplete-extension.ts:222-223 | the context sent is trimmed: empty, or starting and ending with a visible character |
| `Autocomplete.AutocompletePrompt` | app/note/components/editor/ai/ai-autocomplete-extension.ts:254-256 | `Context: "`, the context at offset 10, then `"`, a blank line, the template's indentation and "Provide a natural continuation for this text:"; its length is the sum of the three |
| `Autocomplete.AutocompletePromptInjective` | app/note/components/editor/ai/ai-autocomplete-extension.ts:254-256 | different contexts give different prompts |
| `Autocomplete.ShownSuggestion` | app/note/components/editor/ai/ai-autocomplete-extension.ts:265-270 | the reply is trimmed and cut to 250 characters: a prefix of the trimmed reply, whole when short enough |
| `Autocomplete.SuggestionMeta` | app/note/components/editor/ai/ai-autocomplete-extension.ts:206-308 | nothing without support, below `minChars` trimmed characters (5 by default; the app configures 10 at app/note/components/editor/extensions.ts:227-232), or with an empty context. Without a request sent it never sets a suggestion. Once past those: a model that is unavailable or still to be downloaded clears; an abort gives nothing, and only an abort does; any other failure clears. A reply gives the trimmed suggestion (at most 250 characters) at the cursor, or clears when that is empty or the request was aborted. A set meta always has a non-empty, non-streaming suggestion |
| `Autocomplete.SuggestionRequest` | app/note/components/editor/ai/ai-autocomplete-extension.ts:206-263 | a prompt is sent exactly when the early returns are passed and the model is available or downloading; it opens with `Context: "`, carries the sentence context at offset 10, and closes with the continuation cue |
| `Autocomplete.SuggestionRequestDeterminesContext` | app/note/components/editor/ai/ai-autocomplete-extension.ts:222-256 | two sent requests that are equal carry the same context |
| `Autocomplete.ShortReplyShown` | app/note/components/editor/ai/ai-autocomplete-extension.ts:265-293 | a short non-blank reply is shown as its trimmed text at the cursor |
| `Autocomplete.AutocompleteEditor.constructor` | app/note/components/editor/extensions.ts:227-232 | the extension starts enabled, with the configured `minChars` and no suggestion |
| `Autocomplete.AutocompleteEditor.Dispatch` | app/note/components/editor/ai/ai-autocomplete-extension.ts:94-131 | the plugin state becomes `Apply` of the transaction; nothing else changes |
| `Autocomplete.AutocompleteEditor.HandleKeyDown` | app/note/components/editor/ai/ai-autocomplete-extension.ts:139-176 | with a finished suggestion, Tab and ArrowRight insert it at its position and clear it, and Escape only clears it. Everything else is not handled and changes nothing |
| `Autocomplete.AutocompleteEditor.HandleTextInput` | app/note/components/editor/ai/ai-autocomplete-extension.ts:178-201 | never handled. When enabled, it clears the suggestion and schedules a request at the end of the typed text; when disabled, nothing happens |
| `Autocomplete.AutocompleteEditor.GenerateSuggestion` | app/note/components/editor/ai/ai-autocomplete-extension.ts:206-308 | with the editor's configured `minChars`: the request sent is `SuggestionRequest`, the prompt built from the sentence context; the plugin applies the meta `SuggestionMeta` gives, or stays as it is; the other fields are unchanged |
| `Autocomplete.AutocompleteEditor.Toggle` | app/note/components/editor/ai/ai-autocomplete-extension.ts:313-316 | flips `enabled`, returns true and changes nothing else |
| `Autocomplete.AutocompleteEditor.ToggleTwice` | app/note/components/editor/ai/ai-autocomplete-extension.ts:313-316 | two toggles restore the state |
| `Autocomplete.AutocompleteEditor.ClearSuggestionCommand` | app/note/components/editor/ai/ai-autocomplete-extension.ts:318-326 | returns true, and clears the suggestion when the command may dispatch |
| `MarkdownTable.Lines` | app/note/components/editor/markdown-table-paste.ts:6 | the trimmed text splits into one line more than it has line breaks |
| `MarkdownTable.TrimAll` | app/note/components/editor/markdown-table-paste.ts:14 | cell k of the result is the trim of cell k of the input, so it has no whitespace at either end, and the count is kept |
| `MarkdownTable.NonEmpty` | app/note/components/editor/markdown-table-paste.ts:14 | only non-empty cells, all taken from the input |
| `MarkdownTable.NonEmptyAppend` | app/note/components/editor/markdown-table-paste.ts:14 | filtering a concatenation filters each half, so the kept cells stay in order |
| `MarkdownTable.NonEmptyOne` | app/note/components/editor/markdown-table-paste.ts:14 | one cell is kept exactly when it is non-empty |
| `MarkdownTable.SingleLineIsNotTable` | app/note/components/editor/markdown-table-paste.ts:6-7 | text whose trimmed form has no line break is never a table |
| `MarkdownTable.IsMarkdownTable` | app/note/components/editor/markdown-table-paste.ts:5-19 | a recognised table has at least one line break in its trimmed text |
| `MarkdownTable.RecognisedTableShape` | app/note/components/editor/markdown-table-paste.ts:5-19 | a recognised table has two or more lines, every line is pipe-framed, and some line is a separator line |
| `MarkdownTable.ParseRow` | app/note/components/editor/markdown-table-paste.ts:25-32 | a row has one cell more than there are pipes left after trimming and stripping one leading and one trailing pipe; cell k is the trim of the k-th piece between those pipes, so every cell is trimmed and holds no pipe |
| `MarkdownTable.ParseRowOfCells` | app/note/components/editor/markdown-table-paste.ts:25-32 | a row written as `|` + cells joined by `|` + `|`, with trimmed pipe-free cells, parses back into those cells |
| `MarkdownTable.Rows` | app/note/components/editor/markdown-table-paste.ts:23-32 | one row per line |
| `MarkdownTable.FindSeparator` | app/note/components/editor/markdown-table-paste.ts:35-37 | an index of the rows, or -1 |
| `MarkdownTable.FindSeparatorFirst` | app/note/components/editor/markdown-table-paste.ts:35-37 | the index found is a separator row and no earlier row is one; with -1, no row is |
| `MarkdownTable.RowNode` | app/note/components/editor/markdown-table-paste.ts:49-60 | a row node has one cell per cell text |
| `MarkdownTable.DataRowNodes` | app/note/components/editor/markdown-table-paste.ts:64-77 | one row node per data row |
| `MarkdownTable.DataRowNodesPush` | app/note/components/editor/markdown-table-paste.ts:64-77 | each iteration appends the next row's node |
| `MarkdownTable.ParseMarkdownTable` | app/note/components/editor/markdown-table-paste.ts:22-83 | the table holds the rows `TableRows` gives for the parsed lines |
| `MarkdownTable.TableFromRows` | app/note/components/editor/markdown-table-paste.ts:39-77 | the header push and the data loop build exactly `TableRows` |
| `MarkdownTable.TableRowCount` | app/note/components/editor/markdown-table-paste.ts:39-77 | the output has 1+(n-s-1) rows with a header, n-1 when s = 0, and n when there is no separator |
| `MarkdownTable.TableRowSources` | app/note/components/editor/markdown-table-paste.ts:39-77 | each output row comes from its source row; the separator row and rows 1..s-1 never appear |
| `MarkdownTable.HeaderTableSources` | app/note/components/editor/markdown-table-paste.ts:39-61 | with s > 0, row 0 becomes the header row of `tableHeader` cells, and rows s+1.. become `tableCell` rows |
| `MarkdownTable.HeaderlessTableSources` | app/note/components/editor/markdown-table-paste.ts:39-43 | with s = 0 every row but the first is a data row; with no separator every row is |
| `MarkdownTable.CellContent` | app/note/components/editor/markdown-table-paste.ts:49-55 | a cell holds one paragraph: empty for empty text, otherwise one text node equal to the cell text |
| `PdfProcessing.Present` | app/hooks/usePDFProcessing.ts:124-126 | no more blocks are kept than there are pages |
| `PdfProcessing.PresentAppend` | app/hooks/usePDFProcessing.ts:124-126 | the blocks kept from a concatenation are those of each half, in order |
| `PdfProcessing.PresentOne` | app/hooks/usePDFProcessing.ts:124-126 | one page gives its block, or nothing |
| `PdfProcessing.ContributionsPush` | app/hooks/usePDFProcessing.ts:107-130 | reading one more page appends its header and trimmed text when it has text and otherwise skips it, so the kept blocks follow page order even when pages are skipped |
| `PdfProcessing.Contributions` | app/hooks/usePDFProcessing.ts:107-130 | at most one block per page read |
| `PdfProcessing.PageContributions` | app/hooks/usePDFProcessing.ts:105-130 | one entry per page read |
| `PdfProcessing.PageContributionsPush` | app/hooks/usePDFProcessing.ts:105-130 | each loop iteration appends the next page's contribution |
| `PdfProcessing.ExtractTextFromPdf` | app/hooks/usePDFProcessing.ts:44-161 | the errors come in order: library, file type, size (over 50 MiB), opening. Otherwise the pages up to the cap (100 when none is given) are joined with blank lines. Blank text is an error; else the result carries the text, the metadata, a warning exactly when the document has more pages than the cap, and the success message |
| `PdfProcessing.IsPdfFile` | app/hooks/usePDFProcessing.ts:64 | a file whose name ends in ".pdf" or ".PDF" passes the type check, whatever its MIME type |
| `PdfProcessing.TotalPages` | app/hooks/usePDFProcessing.ts:86 | the pages read are the smaller of the page count and the cap |
| `PdfProcessing.ReadMetadata` | app/hooks/usePDFProcessing.ts:86-99 | the page count, and the title, author, subject and creator entries that are present and non-empty |
| `PdfProcessing.CollectPages` | app/hooks/usePDFProcessing.ts:105-130 | the loop collects the contribution of each page up to the total, in order |
| `PdfProcessing.BlankIffNoContributions` | app/hooks/usePDFProcessing.ts:132-138 | the joined text is blank exactly when no page contributed |
| `PdfProcessing.BlankIffNonePresent` | app/hooks/usePDFProcessing.ts:132-138 | a join of page blocks, each with its visible header, is blank exactly when there are none |
| `PdfProcessing.JoinOfVisibleFirst` | app/hooks/usePDFProcessing.ts:132 | a join whose first part has a visible second character is not blank |
| `PdfProcessing.ContributionHeader` | app/hooks/usePDFProcessing.ts:124-126 | every contribution starts with a header whose second character is `=` |
| `PdfProcessing.PageHeaderStart` | app/hooks/usePDFProcessing.ts:125 | the page header starts "\n=" |
| `PdfProcessing.PresentFrom` | app/hooks/usePDFProcessing.ts:124-126 | every kept block comes from some page |
| `PdfProcessing.PresentAll` | app/hooks/usePDFProcessing.ts:124-126 | when every page contributes, all are kept in order |
| `PdfProcessing.JoinStartsWithFirst` | app/hooks/usePDFProcessing.ts:132 | the join starts with its first part |
| `PdfProcessing.ContributionsOnlyReadPrefix` | app/hooks/usePDFProcessing.ts:86-107 | pages past the cap do not affect the text |
| `PdfProcessing.TextPageContributes` | app/hooks/usePDFProcessing.ts:115-126 | a page with visible text contributes its header and its trimmed text |
| `PdfProcessing.EveryTextPageContributes` | app/hooks/usePDFProcessing.ts:105-130 | when every page has text, each contributes, in page order |
| `PdfProcessing.SuccessMessagePlural` | app/hooks/usePDFProcessing.ts:145 | the message says "pages." for more than one page, else "page." |
| `PdfNoteGeneration.Truncate` | app/hooks/usePDFNoteGeneration.ts:84-87 | text up to 20000 characters is kept. Longer text is cut to 20000 characters and gets the continuation marker. The result always starts with the first min(n, 20000) characters |
| `PdfNoteGeneration.TruncateIdempotent` | app/hooks/usePDFNoteGeneration.ts:84-87 | truncating twice gives the same result as once |
| `PdfNoteGeneration.MetadataHeader` | app/hooks/usePDFNoteGeneration.ts:101-103 | the header is empty exactly when there is no non-empty title. Otherwise it starts with the title line; right after it stands "Author: " exactly when there is an author, and then the author and a line break; it ends with "Pages: ", the page count and a blank line; and its length leaves room for nothing else |
| `PdfNoteGeneration.TitleLine` | app/hooks/usePDFNoteGeneration.ts:102 | `Document Title: "`, then the title at offset 17, then a closing quote and a line break, and nothing else |
| `PdfNoteGeneration.Prompt` | app/hooks/usePDFNoteGeneration.ts:90-103 | in order and with nothing between them: the metadata header, the lead-in, the truncated text, then the custom or automatic instruction |
| `PdfNoteGeneration.PromptDeterminesDocument` | app/hooks/usePDFNoteGeneration.ts:90-103 | equal prompts under the same options imply equal truncated texts |
| `PdfNoteGeneration.TitlePrompt` | app/hooks/usePDFNoteGeneration.ts:130-137 | the title request opens with the fixed request text and "Content: ", then carries the first 1000 characters of the content, and closes with "Only return the title, nothing else, no explanation, and no quotes."; its length is the sum of the three |
| `PdfNoteGeneration.PlainVersionIsVersion` | app/hooks/usePDFNoteGeneration.ts:123 | "1.2.3"-shaped titles match the version pattern |
| `PdfNoteGeneration.DottedLabelIsNoVersion` | app/hooks/usePDFNoteGeneration.ts:123 | "R.2.14.0" does not match the version pattern |
| `PdfNoteGeneration.DottedLabelIsReferenceCode` | app/hooks/usePDFNoteGeneration.ts:124 | "R.2.14.0" matches the reference-code pattern |
| `PdfNoteGeneration.HyphenatedCodeIsReferenceCode` | app/hooks/usePDFNoteGeneration.ts:124 | "AB-123"-shaped titles match the reference-code pattern |
| `PdfNoteGeneration.CodeIsNoTitle` | app/hooks/usePDFNoteGeneration.ts:120-124 | a title without whitespace that is a version number or a reference code is not used |
| `PdfNoteGeneration.DottedLabelIsNoTitle` | app/hooks/usePDFNoteGeneration.ts:120-124 | the metadata title "R.2.14.0" is not used |
| `PdfNoteGeneration.HyphenatedCodeIsNoTitle` | app/hooks/usePDFNoteGeneration.ts:120-124 | a hyphenated reference code title is not used |
| `PdfNoteGeneration.PlainVersionIsNoTitle` | app/hooks/usePDFNoteGeneration.ts:120-124 | a plain version-number title is not used |
| `PdfNoteGeneration.CapitalisedWordIsNoCode` | app/hooks/usePDFNoteGeneration.ts:123-124 | a capitalised word with a lower-case letter matches neither pattern |
| `PdfNoteGeneration.WordIsTitle` | app/hooks/usePDFNoteGeneration.ts:120-124 | such a word of 5 to 80 characters is kept as the title |
| `PdfNoteGeneration.DotGroupsCount` | app/hooks/usePDFNoteGeneration.ts:123 | a run of `.digits` groups has one dot per group |
| `PdfNoteGeneration.CountAfterDigits` | app/hooks/usePDFNoteGeneration.ts:123 | a leading digit run has no dots |
| `PdfNoteGeneration.VersionNumberDots` | app/hooks/usePDFNoteGeneration.ts:123 | a version number has one to three dots |
| `PdfNoteGeneration.IsVersionNumber` | app/hooks/usePDFNoteGeneration.ts:123 | a version number has at least three characters and starts with a capital or a digit |
| `PdfNoteGeneration.IsReferenceCode` | app/hooks/usePDFNoteGeneration.ts:124 | a reference code has at least two characters, starts with a capital, and holds only capitals, digits, dots and hyphens |
| `PdfNoteGeneration.HasValidMetadataTitle` | app/hooks/usePDFNoteGeneration.ts:120-124 | a kept title has 5 to 80 characters; every such title whose trimmed form is empty or starts with neither a capital nor a digit is kept |
| `PdfNoteGeneration.GenerateNoteFromPdf` | app/hooks/usePDFNoteGeneration.ts:31-162 | no support, then an unavailable model, are errors. A failed download, then a failed note reply, then a failed title reply (when a title has to be generated) throw their own message. A blank reply is the empty-content error. Otherwise a note is produced: its content is the reply, a title exists exactly when one was asked for, a usable metadata title is kept verbatim, and otherwise the model's title is trimmed |
| `PdfNoteGeneration.NoteTitleShape` | app/hooks/usePDFNoteGeneration.ts:114-140 | a title is 5 to 80 characters long, or has no whitespace at either end |
| `SlashCommand.AfterSchemeOf` | app/note/components/editor/slash-command.tsx:138 | the scheme is stripped from `http://` and `https://` links |
| `SlashCommand.AfterWwwOf` | app/note/components/editor/slash-command.tsx:138 | an optional "www." is stripped |
| `SlashCommand.AfterVideoPathOf` | app/note/components/editor/slash-command.tsx:138 | each of the three video paths is stripped |
| `SlashCommand.YouTubeUrlOfParts` | app/note/components/editor/slash-command.tsx:138 | a scheme, an optional "www.", a video path and 11 id characters, followed by anything, make a YouTube link |
| `SlashCommand.YouTubeUrlParts` | app/note/components/editor/slash-command.tsx:138 | every accepted link splits into exactly those parts: the converse |
| `SlashCommand.IsYouTubeUrl` | app/note/components/editor/slash-command.tsx:138 | an accepted link starts with "http" and has at least 27 characters (scheme, shortest path, 11 id characters) |
| `SlashCommand.VideoIdThenRest` | app/note/components/editor/slash-command.tsx:138 | an 11-character id starts the text whatever follows it |
| `SlashCommand.HandleRun` | app/note/components/editor/slash-command.tsx:161 | the longest prefix of handle characters |
| `SlashCommand.TweetTailIsSlashRest` | app/note/components/editor/slash-command.tsx:161 | the optional status part adds nothing: the tail is accepted exactly when it is empty or a slash followed by non-whitespace |
| `SlashCommand.StatusLinkOfParts` | app/note/components/editor/slash-command.tsx:161 | a scheme, "x.com/", a handle of 1 to 15 characters and "/status/" with digits make a link |
| `SlashCommand.TweetLinkOfPath` | app/note/components/editor/slash-command.tsx:161 | a scheme, optional "www.", "x.com/" and an accepted path make a link |
| `SlashCommand.IsTweetLink` | app/note/components/editor/slash-command.tsx:161 | an accepted link starts with "http" and has at least 14 characters (scheme, "x.com/", one handle character) |
| `SlashCommand.TweetPathOfParts` | app/note/components/editor/slash-command.tsx:161 | a 1-15 character handle followed by a tail that does not continue it is accepted |
| `SlashCommand.LongHandleRejected` | app/note/components/editor/slash-command.tsx:161 | a handle of 16 characters is rejected, whatever follows |
| `SlashCommand.NullIsNoLink` | app/note/components/editor/slash-command.tsx:163 | the text "null" is not a link |
| `SlashCommand.YouTubeCommand` | app/note/components/editor/slash-command.tsx:134-152 | a cancelled or empty answer does nothing; an accepted link is embedded as typed; anything else is the YouTube alert |
| `SlashCommand.TweetCommand` | app/note/components/editor/slash-command.tsx:159-177 | an accepted link is embedded; a cancelled prompt does nothing; every other answer, the empty one included, is the Twitter alert |
| `SlashCommand.ImageCommand` | app/note/components/editor/slash-command.tsx:111-127 | a cancelled or empty answer does nothing; otherwise the image is set when the URL parses, else the image alert |
| `ImageUpload.GetFileIcon` | components/image-upload.tsx:86-92 | the icon of the first category in table order whose condition holds, or the generic icon exactly when none does |
| `ImageUpload.Matches` | components/image-upload.tsx:48-83 | a file with neither a MIME type nor a name matches no category |
| `ImageUpload.DocumentBeforeArchive` | components/image-upload.tsx:47-64 | a PDF named `.zip` meets two conditions, and the document one comes first |
| `ImageUpload.ImageFiles` | components/image-upload.tsx:169-171 | exactly the picked files with an `image/` type are kept |
| `ImageUpload.ImageFilesAppend` | components/image-upload.tsx:169-171 | filtering a concatenation filters each half, so the images keep the upload order |
| `ImageUpload.ImageFilesOne` | components/image-upload.tsx:169-171 | one entry is kept exactly when it is an image file |
| `ImageUpload.NoImagesKept` | components/image-upload.tsx:173-176 | nothing is kept exactly when no entry is an image file |
| `ImageUpload.ImageNodes` | components/image-upload.tsx:183-202 | one image node per file, with its data URL as `src`, or a failure when any read fails |
| `ImageUpload.InitialNoteContent` | components/image-upload.tsx:191-219 | the images, then an empty paragraph, then the "Analyzing images..." paragraph |
| `ImageUpload.AnalysisParams` | components/image-upload.tsx:229-237 | `streamAnalysis` and `imageCount` always, and `customPrompt` exactly when the message has visible text, trimmed |
| `ImageUpload.ImageUploadPanel.HandleCreateNote` | components/image-upload.tsx:168-249 | no image leaves the panel alone. Otherwise the flags are cleared on every exit, and the note is created with the images and the link parameters |
| `ImageUpload.CreatedNoteCountsImages` | components/image-upload.tsx:191-232 | a created note starts with one image per kept file, and the link counts exactly those |
| `AiSelector.UserPrompt` | app/note/components/editor/ai/ai-selector.tsx:63-91 | the text itself for "continue" and unknown options; "The existing text is: " plus the text for the four rewrites; for "zap", "For this text: ", the text, then ". You have to respect the command: " and the command, with nothing between them |
| `AiSelector.SelectPrompts` | app/note/components/editor/ai/ai-selector.tsx:60-96 | the text worked on always appears in the user prompt (at 0, after "The existing text is: ", or after the "zap" lead-in), and is the whole user prompt for "continue" and unknown options |
| `AiSelector.UserPromptInjective` | app/note/components/editor/ai/ai-selector.tsx:63-91 | under one option and command, different texts give different prompts |
| `AiSelector.ZapSource` | app/note/components/editor/ai/ai-selector.tsx:145-150 | a command works on the completion when there is one, else on the selection |
| `AiSelector.ConcatAppend` | app/note/components/editor/ai/ai-selector.tsx:99-103 | concatenating the chunks splits at any point of the stream |
| `AiSelector.Concat` | app/note/components/editor/ai/ai-selector.tsx:99-103 | a stream of empty chunks leaves the completion empty |
| `AiSelector.ConcatPrefix` | app/note/components/editor/ai/ai-selector.tsx:99-103 | every completion shown is a prefix of the final one |
| `AiSelector.AiSelectorPanel.HandleComplete` | app/note/components/editor/ai/ai-selector.tsx:34-110 | nothing without support or model. Otherwise it sends the option's system and user prompts, and the completion ends as the in-order concatenation of the chunks |
| `AiSelector.AiSelectorPanel.Submit` | app/note/components/editor/ai/ai-selector.tsx:158-167 | a "zap" on the zap source with the typed command; with the model usable the completion is the chunks in order and loading has ended, otherwise nothing is sent and both are unchanged; the input is emptied |
| `AiSelector.AiSelectorPanel.HandleKeyDown` | app/note/components/editor/ai/ai-selector.tsx:142-153 | Enter submits only without Shift and with non-blank input, with the completion and loading flag `Submit` gives; any other key changes nothing |
| `AiSelector.KeySubmits` | app/note/components/editor/ai/ai-selector.tsx:143 | a submitting key press has an input with some visible character |
| `AiSelectorLegacy.KnownOptionsAgree` | app/notes/components/editor/ai/ai-selector.tsx:64-104 | for the six known options, both menus' system prompts are the same role text, the "only output" sentence and the Markdown sentence |
| `AiSelectorLegacy.DefaultOptionDiffers` | app/notes/components/editor/ai/ai-selector.tsx:105-109 | the older default prompt stops after the "only output" sentence, because the delete instruction is a discarded statement; it is shorter than the newer default |
| `AiSelectorLegacy.FullPromptParts` | app/notes/components/editor/ai/ai-selector.tsx:112 | the single prompt is the system prompt, "\n\nUser: ", the user prompt, then "\n\nAssistant:" |
| `AiSelectorLegacy.LegacyRequestInjective` | app/notes/components/editor/ai/ai-selector.tsx:64-112 | under one option and command, different texts give different prompts |
| `AiSelectorLegacy.LegacyRequest` | app/notes/components/editor/ai/ai-selector.tsx:61-112 | the string sent opens with the option's system prompt and "\n\nUser: ", carries the user prompt right after, and ends with "\n\nAssistant:" |
| `AiSelectorLegacy.FullPrompt` | app/notes/components/editor/ai/ai-selector.tsx:112 | the single prompt is exactly as long as its four parts together |
| `AiSelectorLegacy.LegacyAiSelectorPanel.HandleComplete` | app/notes/components/editor/ai/ai-selector.tsx:33-130 | nothing without support or model. Otherwise it sends the single combined prompt, and the completion ends as the in-order concatenation of the chunks |
| `AiSelectorLegacy.LegacyAiSelectorPanel.Submit` | app/notes/components/editor/ai/ai-selector.tsx:166-175 | a "zap" on the zap source with the typed command; with the model usable the completion is the chunks in order and loading has ended, otherwise nothing is sent and both are unchanged; the input is emptied |
| `HomeChat.AutoPromptMessage` | components/home-chat.tsx:481-486 | PDF, image and audio give their constants; nothing and a recording give none |
| `HomeChat.KeepImages` | components/home-chat.tsx:166 | exactly the files with an `image/` type are kept |
| `HomeChat.KeepImagesAppend` | components/home-chat.tsx:166 | filtering a concatenation filters each half, so the kept images stay in order |
| `HomeChat.KeepImagesOne` | components/home-chat.tsx:166 | one file is kept exactly when it is an image |
| `HomeChat.NoImagesPicked` | components/home-chat.tsx:166-170 | nothing is kept exactly when no file is an image |
| `HomeChat.WithoutName` | components/home-chat.tsx:460 | the files left are those not named like the removed attachment |
| `HomeChat.WithoutNameAppend` | components/home-chat.tsx:460 | removing from a concatenation removes from each half, so the files left stay in order |
| `HomeChat.WithoutNameOne` | components/home-chat.tsx:460 | one file stays exactly when its name differs |
| `HomeChat.WithoutId` | components/home-chat.tsx:452 | the attachments left are those with another id |
| `HomeChat.WithoutIdAppend` | components/home-chat.tsx:452 | removing from a concatenation removes from each half, so the attachments left stay in order |
| `HomeChat.WithoutIdOne` | components/home-chat.tsx:452 | one attachment stays exactly when its id differs |
| `HomeChat.FindById` | components/home-chat.tsx:447 | an attachment with that id, or none exactly when no attachment has it |
| `HomeChat.FindByIdFirst` | components/home-chat.tsx:447 | the attachment found is the first one with the id |
| `HomeChat.CustomPrompt` | components/home-chat.tsx:296 | a non-empty prompt is kept, an empty one becomes null |
| `HomeChat.SubmitRoute` | components/home-chat.tsx:210-221 | routing by priority: a processed PDF, kept images, an audio file, a non-empty prompt, each exactly when the earlier ones fail |
| `HomeChat.TypedTextOnlyWithoutAttachment` | components/home-chat.tsx:204-221 | with no attachment, the typed text is submitted exactly when it has visible text |
| `HomeChat.HomeChatBox.ResetState` | components/home-chat.tsx:437-444 | every file field, the status and the input are cleared |
| `HomeChat.HomeChatBox.HandlePdfSelected` | components/home-chat.tsx:129-163 | no file changes nothing. Otherwise the state is reset and, on success, the PDF's text and metadata are held; a failure leaves no file type |
| `HomeChat.HomeChatBox.HandleImagesSelected` | components/home-chat.tsx:165-184 | without an image nothing changes; otherwise the state is reset and exactly the images are held |
| `HomeChat.HomeChatBox.HandleAudioSelected` | components/home-chat.tsx:186-202 | no file changes nothing; otherwise the state is reset and the first file is held as audio |
| `HomeChat.HomeChatBox.HandleSubmit` | components/home-chat.tsx:204-435 | the input is always cleared. With nothing to submit nothing else changes. Otherwise the state is reset and the note opens with the route's title and generation record |
| `HomeChat.HomeChatBox.HandleRemoveAttachment` | components/home-chat.tsx:446-464 | removing the last attachment resets everything. Otherwise, in image mode, the images named like the removed attachment are dropped, and nothing else changes |
| `Sidebar.ThemeIndex` | components/sidebar.tsx:106 | the theme's position in the list, or -1 exactly when it is not there |
| `Sidebar.CycleTheme` | components/sidebar.tsx:104-109 | the next theme is always one of the three |
| `Sidebar.CycleOrder` | components/sidebar.tsx:104-109 | light goes to dark, dark to system, system to light, and anything else to light |
| `Sidebar.ThreeCyclesReturn` | components/sidebar.tsx:105-108 | three presses return to any listed theme, and one press always changes it |
| `Sidebar.GetThemeIcon` | components/sidebar.tsx:111-120 | the sun exactly for light, the moon exactly for dark |
| `Sidebar.LastSegmentEndsPath` | components/sidebar.tsx:70 | the last segment holds no slash and ends the path |
| `Sidebar.LastSegment` | components/sidebar.tsx:70 | a path without a slash is its own last segment |
| `Sidebar.IsActive` | components/sidebar.tsx:285-287 | a note is marked active only when its id holds no slash and ends the path |
| `Sidebar.NotePageSegment` | components/sidebar.tsx:70 | the last segment of a note page's path is the note's id |
| `Sidebar.DeleteNavigation` | components/sidebar.tsx:68-86 | the app goes home exactly after a successful delete of the note shown on a `/note/` page |
| `Sidebar.DeleteShownNote` | components/sidebar.tsx:68-86 | deleting the note on show goes home; deleting another stays |
| `Sidebar.NoteSidebar.HandleTitleKeyDown` | components/sidebar.tsx:210-216 | Escape closes the form and forgets the title; other keys change nothing |
| `Sidebar.NoteSidebar.HandleCreateNote` | components/sidebar.tsx:88-102 | a blank title creates nothing. Otherwise the trimmed title is saved; on success the form closes and the note's page opens, and a failure leaves the form as it was |
| `Clock.ParseTime` | components/dock-footer.tsx:78-82 | a read-back rendering has exactly one colon |
| `Clock.PadKeepsValue` | components/dock-footer.tsx:81 | padding a number below 100 gives two digits with the same value |
| `Clock.FormatTimeParts` | components/dock-footer.tsx:78-82 | the rendering splits at its one colon into the minutes and the padded seconds |
| `Clock.FormatTime` | components/dock-footer.tsx:78-82 | the rendering has at least four characters, a colon third from the end, and two digits after it whose value is the seconds past the minute |
| `Clock.FormatTimeRoundTrip` | components/dock-footer.tsx:79-81 | reading back gives minutes times 60 plus seconds, which is the duration |
| `Clock.FormatTimeInjective` | components/recording-modal.tsx:47-51 | different durations render differently |
| `DockFooter.Dock.HandleRecordingAction` | components/dock-footer.tsx:118-126 | when idle, it opens the popover and starts recording; when recording, it stops and asks for a transcription |
| `DockFooter.Dock.HandleTranscribe` | components/dock-footer.tsx:84-108 | without audio or a callback nothing is attempted. The callback gets the text exactly when it is not blank, and then the popover closes and the recording resets |
| `DockFooter.Dock.TranscribeOnStopEffect` | components/dock-footer.tsx:111-116 | it fires only when asked, with audio and not recording, and clears the request first; otherwise nothing changes. Once fired, a delivered transcription leaves the popover closed, recording off and no audio; no delivery leaves those as they were; with a callback the processing flag ends cleared |
| `DockFooter.StopThenTranscribe` | components/dock-footer.tsx:111-126 | a stop followed by the audio transcribes once; the effect running again does nothing |
| `RecordingModal.TranscriptionContent` | components/recording-modal.tsx:115-128 | the note is one paragraph holding the transcription |
| `RecordingModal.RecordingDialog.MainButton` | components/recording-modal.tsx:228-236 | usable only while nothing is being processed; while recording it stops and marks a save as pending; otherwise it starts recording |
| `RecordingModal.RecordingDialog.HandleSaveRecording` | components/recording-modal.tsx:53-148 | without audio, only an error. Past that check, every exit clears the processing flag and closes the dialog once. A note is saved exactly when support, the model, both replies and both non-blank texts are there |
| `RecordingModal.RecordingDialog.PendingSaveEffect` | components/recording-modal.tsx:150-155 | a pending save with audio clears the flag and runs the save: the processing flag ends cleared, the dialog closes once, and a note is saved exactly under the save conditions of `HandleSaveRecording`, with its title and transcription; otherwise nothing changes |
| `RecordingModal.StopThenSave` | components/recording-modal.tsx:150-155 | a stop followed by the audio saves once, making the note when both replies have visible text; the effect running again does nothing |

## Left out

- Lengths are counted in Unicode code points (Dafny `char`), not in JavaScript's UTF-16 code units. The 80-, 250-, 1000- and 20000-character cuts therefore differ from the app's for text outside the Basic Multilingual Plane.
- The file-name check in the PDF type test lower-cases ASCII letters only.
- The transformation prompt table is looked up as a plain JavaScript object. A type naming an `Object.prototype` member such as "constructor" would find that member there; the model treats every unknown type as missing.
- A node's `text` can be a string, a plain object, null or absent. Arrays and other non-string values are modelled as plain objects. A `content` that is not an array is modelled as missing.
- Every element of a `content` array is modelled as a node object. A `null` element makes `validateAndSanitizeContent` throw when it reads `node.type` (lib/utils.ts:36). A string or number element passes through unchanged (lib/utils.ts:43). The model has neither kind of element, so it captures neither the throw nor the pass-through.
- URLSearchParams percent-encoding of the link parameters is not modelled: the parameters are kept as name/value pairs.
- Toasts, `console` output, progress callbacks (`onProgress`), `showToasts` and progress percentages are left out; the progress status shown last is a parameter.
- The ProseMirror document is reduced to its size and to positions. Decoration sets are reduced to the one widget. `dispatch` becomes the `Dispatch` method, and transactions carry only their meta, whether the document changed, and the new size.
- The debounce timer, the abort controller, React effects' scheduling and asynchronous interleaving are not modelled. Effects run when the model calls them. The autocomplete's `debounceMs` option (500 by default, 1000 as the app configures it) therefore has no counterpart in the model.
- `useAudioRecording` is not part of this model. Starting a recording is assumed to succeed, and the reset is modelled as clearing the recording flag and the audio.
- The AI model, PDF.js, the database's SQL execution, the file reader and the browser's `new URL` parser are foreign. Their answers are parameters: availability, replies, chunks, page reads, saved ids, or whether a URL parses.
- A model download that fails in the two AI selector menus throws before their `try`. That rejection is not modelled; the menus behave as if the download succeeded.
- The PDF size error message says "10MB", but the limit checked is 50 MiB. The model follows the code: the limit is 50 MiB and the message is kept as written.
- app/hooks/useNotes.ts:21-29 repeats `createContentFromText` from lib/utils.ts. The model defines it once, and `NoteContent.CreatedContentText` is cited for both.
- `formatTime` is modelled on natural numbers; non-integer and negative durations are not modelled.
- The home chat's submit handlers also build the first note content and read the audio file as base64. Only the note's title and the generation record the handlers store are modelled.
- The `/notes/` route pushed after a recording is saved is not modelled. The attachment widget's own list is a parameter, not state.
- The category and suggestion handlers of the home chat box only set UI state, and are left out.
- `MarkdownTable.StripPipes`: its contract gives only a length bound. Its behaviour on framed rows is fixed through `MarkdownTable.ParseRowOfCells`.
- `MarkdownTable.FindSeparator`: its own contract gives only the range of the index. That the index is the first separator row is `MarkdownTable.FindSeparatorFirst`.
- `ChatTransport.ExtractTextFromContent`: its own contract covers only the document without blocks. The line structure is `ChatTransport.ExtractedLines`, and the round trip is `ChatTransport.ExtractCreatedText`.
- `AiSelector.SystemPrompt` and `AiSelectorLegacy.LegacySystemPrompt` have no contracts of their own. The prompt texts are compared by `AiSelectorLegacy.KnownOptionsAgree` and `AiSelectorLegacy.DefaultOptionDiffers`.
- `Sidebar.NoteSidebar.StartCreating` and `Sidebar.NoteSidebar.SetTitle` only set a field each. The cancel button has the same effect as Escape in `Sidebar.NoteSidebar.HandleTitleKeyDown`.

=== FILE: ai_selector.dfy ===
/** The AI menu of the note editor, app/note/components/editor/ai/ai-selector.tsx:
    the system and user prompts chosen for each option, the rule that
    decides what a typed command works on, and the completion built from
    the streamed chunks. The model is replaced by its availability and the
    chunks it streams. */
module AiSelector {
  import opened Wrappers
  import opened Text
  import opened Prompts
  import Autocomplete

  /** The two prompts sent to the model. */
  datatype PromptPair = PromptPair(system: string, user: string)

  /** The options that rewrite the given text. */
  predicate IsRewrite(option: string) {
    option == "improve" || option == "shorter" || option == "longer" || option == "fix"
  }

  const ExistingTextLead: string := "The existing text is: "
  const ZapLead: string := "For this text: "

  /** What follows the text in the "zap" prompt. */
  function ZapTail(command: Option<string>): string {
    ". You have to respect the command: " + CommandText(command)
  }

  /** A template literal's rendering of an optional command: the text, or
      "undefined" when none was passed. */
  function CommandText(command: Option<string>): string {
    if command.Some? then command.value else "undefined"
  }

  /** The user prompt for an option: the text for "continue" and any
      unknown option, the text after a lead for the rewrites, and the text
      with the command for "zap". */
  function UserPrompt(option: string, prompt: string, command: Option<string>): (r: string)
    ensures !IsRewrite(option) && option != "zap" ==> r == prompt
    ensures IsRewrite(option) ==> StartsWith(r, ExistingTextLead) && r[|ExistingTextLead|..] == prompt
    ensures option == "zap" ==> StartsWith(r, ZapLead)
    ensures option == "zap" ==> OccursAt(r, prompt, |ZapLead|)
    ensures option == "zap" ==> EndsWith(r, ZapTail(command))
    ensures option == "zap" ==> |r| == |ZapLead| + |prompt| + |ZapTail(command)|
  {
    if IsRewrite(option) then
      StartsWithConcat(ExistingTextLead, prompt);
      ExistingTextLead + prompt
    else if option == "zap" then
      ThreeParts(ZapLead, prompt, ZapTail(command));
      ZapLead + prompt + ZapTail(command)
    else prompt
  }

  /** The text worked on can be read back from the user prompt, so different
      texts give different prompts under the same option and command. */
  lemma UserPromptInjective(option: string, p: string, q: string, command: Option<string>)
    requires UserPrompt(option, p, command) == UserPrompt(option, q, command)
    ensures p == q
  {
    if option == "zap" {
      assert |p| == |q|;
    }
  }

  /** The system prompt for an option: its own constant for the six known
      options, the default one otherwise. */
  function SystemPrompt(option: string): string {
    if option == "continue" then ContinueSystemPrompt
    else if option == "improve" then ImproveSystemPrompt
    else if option == "shorter" then ShorterSystemPrompt
    else if option == "longer" then LongerSystemPrompt
    else if option == "fix" then FixSystemPrompt
    else if option == "zap" then ZapSystemPrompt
    else DefaultSystemPrompt
  }

  /** The pair sent to the model; the text worked on always appears in the
      user prompt, at `PromptOffset(option)`. */
  function SelectPrompts(option: string, prompt: string, command: Option<string>): (r: PromptPair)
    ensures OccursAt(r.user, prompt, PromptOffset(option))
    ensures !IsRewrite(option) && option != "zap" ==> r.user == prompt
  {
    var user := UserPrompt(option, prompt, command);
    assert OccursAt(user, prompt, PromptOffset(option));
    PromptPair(SystemPrompt(option), user)
  }

  /** Where the text worked on starts in the user prompt. */
  function PromptOffset(option: string): nat {
    if IsRewrite(option) then |ExistingTextLead| else if option == "zap" then |ZapLead| else 0
  }

  /** Enter submits the command only without Shift and with some visible
      input. */
  predicate KeySubmits(key: string, shift: bool, input: string)
    ensures KeySubmits(key, shift, input) ==> exists i :: 0 <= i < |input| && !IsWhitespace(input[i])
  {
    BlankIffAllWhitespace(input);
    key == "Enter" && !shift && !IsBlank(input)
  }

  /** A command works on the completion shown, or, before there is one, on
      the selected text. */
  function ZapSource(completion: string, selection: string): (r: string)
    ensures completion != "" ==> r == completion
    ensures completion == "" ==> r == selection
  {
    if completion != "" then completion else selection
  }

  /** The chunks of a stream concatenated in order. */
  function Concat(chunks: seq<string>): (r: string)
    ensures (forall i :: 0 <= i < |chunks| ==> chunks[i] == "") ==> r == ""
  {
    if chunks == [] then "" else Concat(chunks[..|chunks| - 1]) + chunks[|chunks| - 1]
  }

  /** Concatenation splits at any point of the stream. */
  lemma {:induction false} ConcatAppend(a: seq<string>, b: seq<string>)
    ensures Concat(a + b) == Concat(a) + Concat(b)
    decreases |b|
  {
    if b == [] {
      assert a + b == a;
    } else {
      ConcatAppend(a, b[..|b| - 1]);
      assert (a + b)[..|a + b| - 1] == a + b[..|b| - 1];
    }
  }

  /** The completion never loses what was shown: each chunk only extends
      it. */
  lemma ConcatPrefix(chunks: seq<string>, i: nat)
    requires i <= |chunks|
    ensures StartsWith(Concat(chunks), Concat(chunks[..i]))
  {
    ConcatAppend(chunks[..i], chunks[i..]);
    assert chunks[..i] + chunks[i..] == chunks;
    StartsWithConcat(Concat(chunks[..i]), Concat(chunks[i..]));
  }

  class AiSelectorPanel {
    var inputValue: string
    var completion: string
    var isLoading: bool

    constructor ()
      ensures inputValue == "" && completion == "" && !isLoading
    {
      inputValue := "";
      completion := "";
      isLoading := false;
    }

    /** `handleComplete`: nothing happens without support or with the model
        unavailable; otherwise the completion is cleared and grows chunk by
        chunk, and the prompts sent are returned. `chunks` are those the
        stream delivers before it ends or fails. */
    method HandleComplete(prompt: string, option: string, command: Option<string>, supported: bool,
                          availability: Autocomplete.Availability, chunks: seq<string>)
      returns (request: Option<PromptPair>)
      modifies this
      ensures !supported || availability.Unavailable? ==>
        request.None? && completion == old(completion) && isLoading == old(isLoading)
      ensures supported && !availability.Unavailable? ==>
        request == Some(SelectPrompts(option, prompt, command)) && completion == Concat(chunks) && !isLoading
      ensures inputValue == old(inputValue)
    {
      if !supported || availability.Unavailable? {
        return None;
      }
      isLoading := true;
      completion := "";
      request := Some(SelectPrompts(option, prompt, command));
      var fullCompletion := "";
      for i := 0 to |chunks|
        invariant fullCompletion == Concat(chunks[..i])
        invariant completion == fullCompletion
        invariant inputValue == old(inputValue)
      {
        assert chunks[..i + 1][..i] == chunks[..i];
        fullCompletion := fullCompletion + chunks[i];
        completion := fullCompletion;
      }
      assert chunks[..|chunks|] == chunks;
      isLoading := false;
    }

    /** The send button: a "zap" on the completion or the selection with the
        typed command, after which the input is emptied. */
    method Submit(selection: string, supported: bool, availability: Autocomplete.Availability, chunks: seq<string>)
      returns (request: Option<PromptPair>)
      modifies this
      ensures supported && !availability.Unavailable? ==>
        request == Some(SelectPrompts("zap", ZapSource(old(completion), selection), Some(old(inputValue))))
        && completion == Concat(chunks) && !isLoading
      ensures !supported || availability.Unavailable? ==>
        request.None? && completion == old(completion) && isLoading == old(isLoading)
      ensures inputValue == ""
    {
      var source := ZapSource(completion, selection);
      request := HandleComplete(source, "zap", Some(inputValue), supported, availability, chunks);
      inputValue := "";
    }

    /** The input's key handler: Enter submits as the button does. */
    method HandleKeyDown(key: string, shift: bool, selection: string, supported: bool,
                         availability: Autocomplete.Availability, chunks: seq<string>)
      returns (request: Option<PromptPair>)
      modifies this
      ensures !KeySubmits(key, shift, old(inputValue)) ==>
        request.None? && inputValue == old(inputValue) && completion == old(completion) && isLoading == old(isLoading)
      ensures KeySubmits(key, shift, old(inputValue)) ==> inputValue == ""
      ensures KeySubmits(key, shift, old(inputValue)) && supported && !availability.Unavailable? ==>
        request == Some(SelectPrompts("zap", ZapSource(old(completion), selection), Some(old(inputValue))))
        && completion == Concat(chunks) && !isLoading
      ensures KeySubmits(key, shift, old(inputValue)) && (!supported || availability.Unavailable?) ==>
        request.None? && completion == old(completion) && isLoading == old(isLoading)
    {
      if KeySubmits(key, shift, inputValue) {
        request := Submit(selection, supported, availability, chunks);
      } else {
        request := None;
      }
    }
  }
}

=== FILE: ai_selector_legacy.dfy ===
/** The older AI menu, app/notes/components/editor/ai/ai-selector.tsx. It
    chooses the user prompt as the newer menu does, but writes its own system
    prompts inline and sends the model one string that joins the system
    prompt, the user prompt and an "Assistant:" cue. */
module AiSelectorLegacy {
  import opened Wrappers
  import opened Text
  import opened Prompts
  import opened AiSelector
  import Autocomplete

  /** The inline sentence, with "Only" where the shared constant has "ONLY". */
  const LegacyOnlyGeneration: string := "Only output the generation itself, with no introductions, explanations, or extra commentary."

  /** The inline system prompts of the `switch`, one per option. */
  const LegacyContinuePrompt: string :=
    "You are an AI writing assistant that continues existing text based on context from prior text. "
    + "Limit your response to no more than 200 characters, but make sure to construct complete sentences."
    + "Only output the generation itself, with no introductions, explanations, or extra commentary."
    + "Use Markdown formatting when appropriate."
  const LegacyImprovePrompt: string :=
    "You are an AI writing assistant that improves existing text. "
    + "Limit your response to no more than 200 characters, but make sure to construct complete sentences."
    + "Only output the generation itself, with no introductions, explanations, or extra commentary."
    + "Use Markdown formatting when appropriate."
  const LegacyShorterPrompt: string :=
    "You are an AI writing assistant that shortens existing text. "
    + "Only output the generation itself, with no introductions, explanations, or extra commentary."
    + "Use Markdown formatting when appropriate."
  const LegacyLongerPrompt: string :=
    "You are an AI writing assistant that lengthens existing text. "
    + "Only output the generation itself, with no introductions, explanations, or extra commentary."
    + "Use Markdown formatting when appropriate."
  const LegacyFixPrompt: string :=
    "You are an AI writing assistant that fixes grammar and spelling errors in existing text. "
    + "Limit your response to no more than 200 characters, but make sure to construct complete sentences."
    + "Only output the generation itself, with no introductions, explanations, or extra commentary."
    + "Use Markdown formatting when appropriate."
  const LegacyZapPrompt: string :=
    "You are an AI writing assistant that generates text based on a prompt. "
    + "You take an input from the user and a command for manipulating the text"
    + "Only output the generation itself, with no introductions, explanations, or extra commentary."
    + "Use Markdown formatting when appropriate."
  /** In the default branch the sentence about deleting text is an
      expression statement of its own, so it never reaches the prompt. */
  const LegacyDefaultPrompt: string :=
    "You are an AI writing assistant."
    + "Only output the generation itself, with no introductions, explanations, or extra commentary."

  function LegacySystemPrompt(option: string): string {
    if option == "continue" then LegacyContinuePrompt
    else if option == "improve" then LegacyImprovePrompt
    else if option == "shorter" then LegacyShorterPrompt
    else if option == "longer" then LegacyLongerPrompt
    else if option == "fix" then LegacyFixPrompt
    else if option == "zap" then LegacyZapPrompt
    else LegacyDefaultPrompt
  }

  /** What a system prompt says before its "only output" sentence; the same
      in both menus. */
  function RoleText(option: string): string {
    if option == "continue" then
      "You are an AI writing assistant that continues existing text based on context from prior text. " + Limit200
    else if option == "improve" then
      "You are an AI writing assistant that improves existing text. " + Limit200
    else if option == "shorter" then
      "You are an AI writing assistant that shortens existing text. "
    else if option == "longer" then
      "You are an AI writing assistant that lengthens existing text. "
    else if option == "fix" then
      "You are an AI writing assistant that fixes grammar and spelling errors in existing text. " + Limit200
    else if option == "zap" then
      "You are an AI writing assistant that generates text based on a prompt. "
      + "You take an input from the user and a command for manipulating the text"
    else
      "You are an AI writing assistant."
  }

  predicate IsKnownOption(option: string) {
    option == "continue" || IsRewrite(option) || option == "zap"
  }

  /** For the six known options the two menus send the same system prompt but
      for the casing of "Only". */
  lemma KnownOptionsAgree(option: string)
    requires IsKnownOption(option)
    ensures LegacySystemPrompt(option) == RoleText(option) + LegacyOnlyGeneration + UseMarkdown
    ensures SystemPrompt(option) == RoleText(option) + OnlyGeneration + UseMarkdown
  {
  }

  /** For any other option the older prompt stops after the "only output"
      sentence: it has neither the delete instruction nor the Markdown
      sentence that the newer default carries. */
  lemma DefaultOptionDiffers(option: string)
    requires !IsKnownOption(option)
    ensures LegacySystemPrompt(option) == RoleText(option) + LegacyOnlyGeneration
    ensures EndsWith(LegacySystemPrompt(option), LegacyOnlyGeneration)
    ensures SystemPrompt(option) == RoleText(option) + OnlyGeneration
      + "If user asks to delete text, just return an empty string." + UseMarkdown
    ensures |LegacySystemPrompt(option)| < |SystemPrompt(option)|
  {
    EndsWithConcat(RoleText(option), LegacyOnlyGeneration);
  }

  const UserCue: string := "\n\nUser: "
  const AssistantCue: string := "\n\nAssistant:"

  /** The single string sent to the model. */
  function FullPrompt(system: string, user: string): (r: string)
    ensures |r| == |system| + |UserCue| + |user| + |AssistantCue|
  {
    system + UserCue + user + AssistantCue
  }

  /** The system prompt opens the string, the user prompt follows the user
      cue, and the assistant cue closes it. */
  lemma FullPromptParts(system: string, user: string)
    ensures StartsWith(FullPrompt(system, user), system + UserCue)
    ensures OccursAt(FullPrompt(system, user), user, |system| + |UserCue|)
    ensures EndsWith(FullPrompt(system, user), AssistantCue)
  {
    ThreeParts(system + UserCue, user, AssistantCue);
  }

  /** The string sent for an option, the text worked on and the command. */
  function LegacyRequest(option: string, prompt: string, command: Option<string>): (r: string)
    ensures StartsWith(r, LegacySystemPrompt(option) + UserCue)
    ensures OccursAt(r, UserPrompt(option, prompt, command), |LegacySystemPrompt(option)| + |UserCue|)
    ensures EndsWith(r, AssistantCue)
  {
    FullPromptParts(LegacySystemPrompt(option), UserPrompt(option, prompt, command));
    FullPrompt(LegacySystemPrompt(option), UserPrompt(option, prompt, command))
  }

  /** Under one option and command, different texts give different strings:
      the text can be read back from what the model receives. */
  lemma LegacyRequestInjective(option: string, p: string, q: string, command: Option<string>)
    requires LegacyRequest(option, p, command) == LegacyRequest(option, q, command)
    ensures p == q
  {
    var system := LegacySystemPrompt(option);
    var u, v := UserPrompt(option, p, command), UserPrompt(option, q, command);
    FullPromptParts(system, u);
    FullPromptParts(system, v);
    assert |u| == |v|;
    assert u == LegacyRequest(option, p, command)[|system| + |UserCue|..|system| + |UserCue| + |u|];
    UserPromptInjective(option, p, q, command);
  }

  class LegacyAiSelectorPanel {
    var inputValue: string
    var completion: string
    var isLoading: bool

    constructor ()
      ensures inputValue == "" && completion == "" && !isLoading
    {
      inputValue := "";
      completion := "";
      isLoading := false;
    }

    /** `handleComplete`: nothing happens without support or with the model
        unavailable; otherwise the completion is cleared and grows chunk by
        chunk, and the string sent is returned. `chunks` are those the stream
        delivers before it ends or fails. */
    method HandleComplete(prompt: string, option: string, command: Option<string>, supported: bool,
                          availability: Autocomplete.Availability, chunks: seq<string>)
      returns (request: Option<string>)
      modifies this
      ensures !supported || availability.Unavailable? ==>
        request.None? && completion == old(completion) && isLoading == old(isLoading)
      ensures supported && !availability.Unavailable? ==>
        request == Some(LegacyRequest(option, prompt, command)) && completion == Concat(chunks) && !isLoading
      ensures inputValue == old(inputValue)
    {
      if !supported || availability.Unavailable? {
        return None;
      }
      isLoading := true;
      completion := "";
      var fullCompletion := "";
      for i := 0 to |chunks|
        invariant fullCompletion == Concat(chunks[..i])
        invariant completion == fullCompletion
        invariant inputValue == old(inputValue)
      {
        assert chunks[..i + 1][..i] == chunks[..i];
        fullCompletion := fullCompletion + chunks[i];
        completion := fullCompletion;
      }
      assert chunks[..|chunks|] == chunks;
      isLoading := false;
      request := Some(LegacyRequest(option, prompt, command));
    }

    /** The send button: a "zap" on the completion or the selection with the
        typed command, after which the input is emptied. */
    method Submit(selection: string, supported: bool, availability: Autocomplete.Availability, chunks: seq<string>)
      returns (request: Option<string>)
      modifies this
      ensures supported && !availability.Unavailable? ==>
        request == Some(LegacyRequest("zap", ZapSource(old(completion), selection), Some(old(inputValue))))
        && completion == Concat(chunks) && !isLoading
      ensures !supported || availability.Unavailable? ==>
        request.None? && completion == old(completion) && isLoading == old(isLoading)
      ensures inputValue == ""
    {
      var source := ZapSource(completion, selection);
      request := HandleComplete(source, "zap", Some(inputValue), supported, availability, chunks);
      inputValue := "";
    }
  }
}

=== FILE: autocomplete.dfy ===
/** The inline AI autocomplete of
    app/note/components/editor/ai/ai-autocomplete-extension.ts: the plugin's
    suggestion state and its transitions, the key and text-input handlers,
    the enable toggle, and the text processing around the model call. The
    editor view is reduced to the transactions dispatched to the plugin and
    the insertions they make; the model, the timers and the abort
    controller are parameters. */
module Autocomplete {
  import opened Wrappers
  import opened Text

  /** `minChars` as the extension defaults it and as the editor's
      extension list (app/note/components/editor/extensions.ts) configures
      it; both set `maxSuggestionLength` to 250. */
  const DefaultMinChars: nat := 5
  const AppMinChars: nat := 10
  const MaxSuggestionLength: nat := 250

  datatype Suggestion = Suggestion(text: string, position: int, isStreaming: bool)

  /** The decoration set: empty, or one widget showing a suggestion. */
  datatype Decorations = NoDecorations | Widget(position: int, text: string, streaming: bool)

  datatype PluginState = PluginState(suggestion: Option<Suggestion>, decorations: Decorations)

  /** The plugin's meta on a transaction: none, a set or clear request, or
      some other truthy value. */
  datatype Meta = NoMeta | SetSuggestion(suggestion: Option<Suggestion>) | ClearSuggestion | OtherMeta

  /** What `apply` looks at in a transaction; `docSize` is the size of the
      document the transaction produces. */
  datatype Transaction = Transaction(meta: Meta, docChanged: bool, docSize: int)

  /** A text insertion made by accepting a suggestion. */
  datatype Insertion = Insertion(text: string, position: int)

  const InitialState: PluginState := PluginState(None, NoDecorations)

  /** `createDecorations`: a widget at the suggestion's position, unless that
      position lies beyond the document. */
  function CreateDecorations(docSize: int, s: Suggestion): (r: Decorations)
    ensures r.Widget? <==> s.position <= docSize
    ensures r.Widget? ==> r.position == s.position && r.text == s.text && r.streaming == s.isStreaming
  {
    if s.position > docSize then NoDecorations
    else Widget(s.position, s.text, s.isStreaming)
  }

  function DecorationsFor(docSize: int, s: Option<Suggestion>): Decorations {
    if s.Some? then CreateDecorations(docSize, s.value) else NoDecorations
  }

  /** The decorations show exactly the held suggestion. */
  predicate Consistent(st: PluginState, docSize: int) {
    st.decorations == DecorationsFor(docSize, st.suggestion)
  }

  /** The plugin's `apply`: meta first (set replaces, clear empties), then a
      document change clears, and anything else keeps the suggestion. */
  function Apply(tr: Transaction, previous: PluginState): (r: PluginState)
    ensures tr.meta.SetSuggestion? ==> r.suggestion == tr.meta.suggestion
    ensures tr.meta.ClearSuggestion? ==> r.suggestion.None?
    ensures (tr.meta.NoMeta? || tr.meta.OtherMeta?) && tr.docChanged ==> r.suggestion.None?
    ensures (tr.meta.NoMeta? || tr.meta.OtherMeta?) && !tr.docChanged ==> r.suggestion == previous.suggestion
    ensures Consistent(r, tr.docSize)
  {
    match tr.meta
    case SetSuggestion(s) =>
      PluginState(s, if s.Some? then CreateDecorations(tr.docSize, s.value) else NoDecorations)
    case ClearSuggestion => PluginState(None, NoDecorations)
    case _ =>
      if tr.docChanged then PluginState(None, NoDecorations)
      else PluginState(previous.suggestion, if previous.suggestion.Some? then CreateDecorations(tr.docSize, previous.suggestion.value) else NoDecorations)
  }

  /** A clear request or a document change leaves nothing to show, whatever
      was shown before, so the two commute with each other. */
  lemma ClearThenChange(previous: PluginState, size1: int, size2: int)
    ensures Apply(Transaction(NoMeta, true, size2), Apply(Transaction(ClearSuggestion, false, size1), previous))
         == Apply(Transaction(ClearSuggestion, false, size2), Apply(Transaction(NoMeta, true, size1), previous))
         == InitialState
  {
  }

  // ---------------------------------------------------- suggestion requests

  predicate IsSentenceEnd(c: char) {
    c == '.' || c == '!' || c == '?'
  }

  /** `s.split(/[.!?]+/)`: the pieces between maximal runs of sentence
      punctuation, with an empty piece before a leading run and after a
      trailing one. */
  function SplitSentences(s: string): (r: seq<string>)
    ensures |r| >= 1
    ensures forall k, i :: 0 <= k < |r| && 0 <= i < |r[k]| ==> !IsSentenceEnd(r[k][i])
  {
    if s == [] then [""]
    else
      var rest := SplitSentences(s[1..]);
      if IsSentenceEnd(s[0]) then
        (if |s| > 1 && IsSentenceEnd(s[1]) then rest else [""] + rest)
      else [[s[0]] + rest[0]] + rest[1..]
  }

  /** Text without sentence punctuation is a single piece. */
  lemma {:induction false} SplitSentencesNone(s: string)
    requires forall i :: 0 <= i < |s| ==> !IsSentenceEnd(s[i])
    ensures SplitSentences(s) == [s]
  {
    if s != [] {
      SplitSentencesNone(s[1..]);
      assert [s[0]] + s[1..] == s;
    }
  }

  /** No sentence punctuation anywhere in `s`. */
  predicate NoSentenceEnd(s: string) {
    forall i :: 0 <= i < |s| ==> !IsSentenceEnd(s[i])
  }

  /** `s` is made only of sentence punctuation. */
  predicate AllSentenceEnds(s: string) {
    forall i :: 0 <= i < |s| ==> IsSentenceEnd(s[i])
  }

  /** A leading run of punctuation, ended by a non-punctuation character or
      by the end of the text, gives an empty first piece. */
  lemma {:induction false} SplitSentencesLeadingRun(p: string, b: string)
    requires p != [] && AllSentenceEnds(p)
    requires b == [] || !IsSentenceEnd(b[0])
    ensures SplitSentences(p + b) == [""] + SplitSentences(b)
  {
    var s := p + b;
    assert s[1..] == p[1..] + b;
    if |p| > 1 {
      assert s[1] == p[1];
      SplitSentencesLeadingRun(p[1..], b);
    } else {
      assert s[1..] == b;
    }
  }

  /** A punctuation-free piece followed by a maximal run of punctuation is
      one piece, and splitting goes on after the run. */
  lemma {:induction false} SplitSentencesAfterPiece(a: string, p: string, b: string)
    requires NoSentenceEnd(a)
    requires p != [] && AllSentenceEnds(p)
    requires b == [] || !IsSentenceEnd(b[0])
    ensures SplitSentences(a + p + b) == [a] + SplitSentences(b)
  {
    if a == [] {
      assert a + p + b == p + b;
      SplitSentencesLeadingRun(p, b);
    } else {
      var s := a + p + b;
      assert s[1..] == a[1..] + p + b;
      SplitSentencesAfterPiece(a[1..], p, b);
      assert [a[0]] + a[1..] == a;
    }
  }

  /** Text that ends in a run of punctuation ends with an empty piece. */
  lemma SplitSentencesTrailingRun(a: string, p: string)
    requires NoSentenceEnd(a)
    requires p != [] && AllSentenceEnds(p)
    ensures SplitSentences(a + p) == [a, ""]
  {
    assert a + p + [] == a + p;
    SplitSentencesAfterPiece(a, p, []);
  }

  /** `filter(s => s.trim())`. */
  function NonBlank(parts: seq<string>): (r: seq<string>)
    ensures |r| <= |parts|
    ensures forall k :: 0 <= k < |r| ==> !IsBlank(r[k])
  {
    if parts == [] then []
    else if !IsBlank(parts[0]) then [parts[0]] + NonBlank(parts[1..])
    else NonBlank(parts[1..])
  }

  /** Filtering a concatenation filters each half, keeping the order. */
  lemma {:induction false} NonBlankAppend(x: seq<string>, y: seq<string>)
    ensures NonBlank(x + y) == NonBlank(x) + NonBlank(y)
  {
    if x == [] {
      assert x + y == y;
    } else {
      var xy := x + y;
      var h := x[0];
      assert xy[0] == h && xy[1..] == x[1..] + y;
      NonBlankAppend(x[1..], y);
      var rest := NonBlank(x[1..]);
      if IsBlank(h) {
        calc {
          NonBlank(xy);
          NonBlank(xy[1..]);
          rest + NonBlank(y);
          NonBlank(x) + NonBlank(y);
        }
      } else {
        calc {
          NonBlank(xy);
          [h] + NonBlank(xy[1..]);
          [h] + (rest + NonBlank(y));
          ([h] + rest) + NonBlank(y);
          NonBlank(x) + NonBlank(y);
        }
      }
    }
  }

  /** A single piece is kept exactly when it is not blank. */
  lemma NonBlankOne(s: string)
    ensures NonBlank([s]) == if IsBlank(s) then [] else [s]
  {
  }

  /** `slice(-3)`. */
  function LastThree(parts: seq<string>): (r: seq<string>)
    ensures |r| == if |parts| < 3 then |parts| else 3
    ensures r == parts[|parts| - |r|..]
  {
    if |parts| > 3 then parts[|parts| - 3..] else parts
  }

  /** The context sent to the model: the last three non-blank sentences,
      joined with ". " and trimmed. */
  function SuggestionContext(textBefore: string): (r: string)
    ensures Trim(r) == r
    ensures r != "" ==> !IsWhitespace(r[0]) && !IsWhitespace(r[|r| - 1])
  {
    var joined := Join(LastThree(NonBlank(SplitSentences(textBefore))), ". ");
    TrimIdempotent(joined);
    Trim(joined)
  }

  /** Text without sentence punctuation is its own context, trimmed. */
  lemma NoPunctuationContext(textBefore: string)
    requires forall i :: 0 <= i < |textBefore| ==> !IsSentenceEnd(textBefore[i])
    ensures SuggestionContext(textBefore) == Trim(textBefore)
  {
    SplitSentencesNone(textBefore);
    if IsBlank(textBefore) {
      assert NonBlank([textBefore]) == [];
    } else {
      assert NonBlank([textBefore]) == [textBefore];
      TrimIdempotent(textBefore);
    }
  }

  /** With at least three sentences after the first, the context is the
      last three joined with ". ": for `a.b!?c.d.` it is `b. c. d`, trimmed.
      The first piece and any closing punctuation are dropped. */
  lemma LastThreeSentencesContext(a: string, p: string, b: string, q: string, c: string,
                                  t: string, d: string, e: string)
    requires NoSentenceEnd(a) && NoSentenceEnd(b) && NoSentenceEnd(c) && NoSentenceEnd(d)
    requires !IsBlank(b) && !IsBlank(c) && !IsBlank(d)
    requires p != [] && AllSentenceEnds(p) && q != [] && AllSentenceEnds(q)
    requires t != [] && AllSentenceEnds(t) && AllSentenceEnds(e)
    ensures SuggestionContext(a + p + b + q + c + t + d + e) == Trim(b + ". " + c + ". " + d)
  {
    assert b != [] && c != [] && d != [];
    SplitSentencesOfFour(a, p, b, q, c, t, d, e);
    ClosingIsBlank(e);
    ThreeNonBlank(b, c, d);
    ContextOfPieces(a + p + b + q + c + t + d + e, [a], [b, c, d], ClosingPiece(e));
    JoinThree(b, c, d, ". ");
  }

  /** The context is the last three pieces, joined, when they are the last
      non-blank ones. */
  lemma ContextOfPieces(text: string, first: seq<string>, mid: seq<string>, closing: seq<string>)
    requires SplitSentences(text) == first + mid + closing
    requires |mid| == 3 && forall k :: 0 <= k < |mid| ==> !IsBlank(mid[k])
    requires NonBlank(closing) == []
    ensures SuggestionContext(text) == Trim(Join(mid, ". "))
  {
    LastThreeKept(first, mid, closing);
  }

  /** When three non-blank pieces are followed only by blank ones, they are
      the last three the blank filter keeps. */
  lemma LastThreeKept(first: seq<string>, mid: seq<string>, closing: seq<string>)
    requires |mid| == 3 && forall k :: 0 <= k < |mid| ==> !IsBlank(mid[k])
    requires NonBlank(closing) == []
    ensures LastThree(NonBlank(first + mid + closing)) == mid
  {
    NonBlankKeepsMiddle(first, mid, closing);
    var kept := NonBlank(first) + mid;
    assert kept[|kept| - 3..] == mid;
  }

  /** Non-blank pieces followed only by blank ones are kept at the end. */
  lemma NonBlankKeepsMiddle(first: seq<string>, mid: seq<string>, closing: seq<string>)
    requires forall k :: 0 <= k < |mid| ==> !IsBlank(mid[k])
    requires NonBlank(closing) == []
    ensures NonBlank(first + mid + closing) == NonBlank(first) + mid
  {
    assert first + mid + closing == first + (mid + closing);
    NonBlankAppend(first, mid + closing);
    NonBlankAppend(mid, closing);
    NonBlankKeeps(mid);
    assert NonBlank(mid + closing) == mid;
  }

  /** A list with no blank piece passes the filter whole. */
  lemma {:induction false} NonBlankKeeps(xs: seq<string>)
    requires forall k :: 0 <= k < |xs| ==> !IsBlank(xs[k])
    ensures NonBlank(xs) == xs
  {
    if xs != [] {
      NonBlankKeeps(xs[1..]);
      calc {
        NonBlank(xs);
        [xs[0]] + NonBlank(xs[1..]);
        [xs[0]] + xs[1..];
        xs;
      }
    }
  }

  lemma JoinThree(b: string, c: string, d: string, sep: string)
    ensures Join([b, c, d], sep) == b + sep + c + sep + d
  {
    calc {
      Join([b, c, d], sep);
      { assert [b, c, d][1..] == [c, d]; }
      b + sep + Join([c, d], sep);
      { assert [c, d][1..] == [d]; }
      b + sep + (c + sep + d);
      b + sep + c + sep + d;
    }
  }

  /** The pieces of `a.b.c.d` with optional closing punctuation: the four
      texts, and one empty piece after closing punctuation. */
  lemma SplitSentencesOfFour(a: string, p: string, b: string, q: string, c: string,
                             t: string, d: string, e: string)
    requires NoSentenceEnd(a) && NoSentenceEnd(b) && NoSentenceEnd(c) && NoSentenceEnd(d)
    requires b != [] && c != [] && d != []
    requires p != [] && AllSentenceEnds(p) && q != [] && AllSentenceEnds(q)
    requires t != [] && AllSentenceEnds(t) && AllSentenceEnds(e)
    ensures SplitSentences(a + p + b + q + c + t + d + e) == [a] + [b, c, d] + ClosingPiece(e)
  {
    var de := d + e;
    var cde := c + t + de;
    var bcde := b + q + cde;
    var tail := SplitLast(d, e);
    SplitSentencesAfterPiece(c, t, de);
    SplitSentencesAfterPiece(b, q, cde);
    SplitSentencesAfterPiece(a, p, bcde);
    Regroup(a, p, b, q, c, t, d, e);
    assert [a] + ([b] + ([c] + tail)) == [a] + [b, c, d] + ClosingPiece(e);
  }

  /** Concatenation regrouped so that each split step sees its piece, its
      punctuation and the rest. */
  lemma Regroup(a: string, p: string, b: string, q: string, c: string, t: string, d: string, e: string)
    ensures a + p + b + q + c + t + d + e == a + p + (b + q + (c + t + (d + e)))
  {
    var x := a + p + b + q + c + t;
    assert x + d + e == x + (d + e);
    var y := a + p + b + q;
    assert y + c + t + (d + e) == y + (c + t + (d + e));
    var z := a + p;
    assert z + b + q + (c + t + (d + e)) == z + (b + q + (c + t + (d + e)));
  }

  /** The last sentence, followed by an empty piece when the text closes
      with punctuation. */
  lemma SplitLast(d: string, e: string) returns (tail: seq<string>)
    requires NoSentenceEnd(d) && AllSentenceEnds(e)
    ensures tail == SplitSentences(d + e) == [d] + ClosingPiece(e)
  {
    if e == [] {
      assert d + e == d;
      SplitSentencesNone(d);
    } else {
      SplitSentencesTrailingRun(d, e);
    }
    tail := SplitSentences(d + e);
  }

  /** The empty piece after closing punctuation, if there is any. */
  function ClosingPiece(e: string): seq<string> {
    if e == [] then [] else [""]
  }

  lemma ClosingIsBlank(e: string)
    ensures NonBlank(ClosingPiece(e)) == []
  {
    if e != [] {
      NonBlankOne("");
    }
  }

  lemma ThreeNonBlank(b: string, c: string, d: string)
    requires !IsBlank(b) && !IsBlank(c) && !IsBlank(d)
    ensures forall k :: 0 <= k < |[b, c, d]| ==> !IsBlank([b, c, d][k])
  {
  }

  const ContextLead: string := "Context: \""
  const ContinuationCue: string := "\"\n\n        Provide a natural continuation for this text:"

  /** The user prompt; the template literal keeps the source's indentation
      on its second line. */
  function AutocompletePrompt(context: string): (r: string)
    ensures StartsWith(r, ContextLead)
    ensures OccursAt(r, context, |ContextLead|)
    ensures EndsWith(r, ContinuationCue)
    ensures |r| == |ContextLead| + |context| + |ContinuationCue|
  {
    ThreeParts(ContextLead, context, ContinuationCue);
    ContextLead + context + ContinuationCue
  }

  /** The context can be read back from the prompt: different contexts give
      different prompts. */
  lemma AutocompletePromptInjective(c: string, d: string)
    requires AutocompletePrompt(c) == AutocompletePrompt(d)
    ensures c == d
  {
    var p := AutocompletePrompt(c);
    assert |c| == |p| - |ContextLead| - |ContinuationCue|;
    assert c == p[|ContextLead|..|ContextLead| + |c|];
  }

  /** The model's reply trimmed and cut to the maximum length. */
  function ShownSuggestion(reply: string): (r: string)
    ensures |r| <= MaxSuggestionLength
    ensures StartsWith(Trim(reply), r)
    ensures |Trim(reply)| <= MaxSuggestionLength ==> r == Trim(reply)
    ensures |Trim(reply)| > MaxSuggestionLength ==> |r| == MaxSuggestionLength
  {
    var s := Trim(reply);
    if |s| > MaxSuggestionLength then s[..MaxSuggestionLength] else s
  }

  datatype Availability = Unavailable | Downloadable | Downloading | Available

  /** What the model call ends with: a reply, a cancelled request, or any
      other failure. */
  datatype ModelReply = Reply(text: string) | AbortError | OtherError

  /** `generateSuggestion` goes past its early returns: the browser
      supports the model, the trimmed text has at least `minChars`
      characters and the context is not empty. */
  predicate Proceeds(minChars: nat, supported: bool, textBefore: string) {
    supported && |Trim(textBefore)| >= minChars && SuggestionContext(textBefore) != ""
  }

  /** The user prompt `generateSuggestion` sends, if it calls the model at
      all: only past the early returns and with a model that is available or
      downloading. */
  function SuggestionRequest(minChars: nat, supported: bool, textBefore: string, availability: Availability): (r: Option<string>)
    ensures r.Some? <==> Proceeds(minChars, supported, textBefore) && (availability == Available || availability == Downloading)
    ensures r.Some? ==> StartsWith(r.value, ContextLead) && EndsWith(r.value, ContinuationCue)
    ensures r.Some? ==> OccursAt(r.value, SuggestionContext(textBefore), |ContextLead|)
  {
    if Proceeds(minChars, supported, textBefore) && (availability == Available || availability == Downloading)
    then Some(AutocompletePrompt(SuggestionContext(textBefore)))
    else None
  }

  /** Two requests that are sent and equal carry the same context. */
  lemma SuggestionRequestDeterminesContext(minChars: nat, supported: bool, t: string, u: string, availability: Availability)
    requires SuggestionRequest(minChars, supported, t, availability).Some?
    requires SuggestionRequest(minChars, supported, t, availability) == SuggestionRequest(minChars, supported, u, availability)
    ensures SuggestionContext(t) == SuggestionContext(u)
  {
    AutocompletePromptInjective(SuggestionContext(t), SuggestionContext(u));
  }

  /** The transaction meta `generateSuggestion` dispatches, if any. */
  function SuggestionMeta(minChars: nat, supported: bool, textBefore: string, position: int,
                          availability: Availability, reply: ModelReply, aborted: bool): (r: Option<Meta>)
    ensures !supported || |Trim(textBefore)| < minChars || SuggestionContext(textBefore) == "" ==> r.None?
    ensures SuggestionRequest(minChars, supported, textBefore, availability).None? ==>
      r.None? || r == Some(ClearSuggestion)
    ensures r.Some? ==> r.value.ClearSuggestion? || r.value.SetSuggestion?
    ensures r.Some? && r.value.SetSuggestion? ==>
      && r.value.suggestion.Some?
      && r.value.suggestion.value.text != ""
      && |r.value.suggestion.value.text| <= MaxSuggestionLength
      && r.value.suggestion.value.position == position
      && !r.value.suggestion.value.isStreaming
      && availability != Unavailable && availability != Downloadable
      && reply.Reply? && !aborted
    ensures Proceeds(minChars, supported, textBefore) && (availability == Unavailable || availability == Downloadable) ==>
      r == Some(ClearSuggestion)
    ensures Proceeds(minChars, supported, textBefore) && (availability == Available || availability == Downloading) ==>
      && (reply.AbortError? <==> r.None?)
      && (reply.OtherError? ==> r == Some(ClearSuggestion))
      && (reply.Reply? && (Trim(reply.text) == "" || aborted) ==> r == Some(ClearSuggestion))
      && (reply.Reply? ==>
            r == Some(if ShownSuggestion(reply.text) != "" && !aborted
                      then SetSuggestion(Some(Suggestion(ShownSuggestion(reply.text), position, false)))
                      else ClearSuggestion))
  {
    if !supported then None
    else if |Trim(textBefore)| < minChars then None
    else if SuggestionContext(textBefore) == "" then None
    else if availability == Unavailable || availability == Downloadable then Some(ClearSuggestion)
    else match reply
      case AbortError => None
      case OtherError => Some(ClearSuggestion)
      case Reply(text) =>
        var suggestion := ShownSuggestion(text);
        if suggestion != "" && !aborted then Some(SetSuggestion(Some(Suggestion(suggestion, position, false))))
        else Some(ClearSuggestion)
  }

  /** A usable reply is shown verbatim once trimmed, when short enough. */
  lemma ShortReplyShown(minChars: nat, textBefore: string, position: int, availability: Availability, text: string)
    requires |Trim(textBefore)| >= minChars && SuggestionContext(textBefore) != ""
    requires availability == Available || availability == Downloading
    requires Trim(text) != "" && |Trim(text)| <= MaxSuggestionLength
    ensures SuggestionMeta(minChars, true, textBefore, position, availability, Reply(text), false)
         == Some(SetSuggestion(Some(Suggestion(Trim(text), position, false))))
  {
  }

  // ------------------------------------------------------------ the editor

  /** The extension's mutable parts: the `enabled` option, the plugin state
      and the insertions accepted suggestions have made; `minChars` is the
      configured option (`AppMinChars` in the app, `DefaultMinChars` when
      unconfigured). */
  class AutocompleteEditor {
    var enabled: bool
    var minChars: nat
    var plugin: PluginState
    var insertions: seq<Insertion>

    constructor(minChars: nat)
      ensures enabled && this.minChars == minChars && plugin == InitialState && insertions == []
    {
      enabled := true;
      this.minChars := minChars;
      plugin := InitialState;
      insertions := [];
    }

    /** `view.dispatch(tr)` as far as the plugin sees it. */
    method Dispatch(tr: Transaction)
      modifies this
      ensures plugin == Apply(tr, old(plugin))
      ensures enabled == old(enabled) && minChars == old(minChars) && insertions == old(insertions)
    {
      plugin := Apply(tr, plugin);
    }

    /** `handleKeyDown`: with a finished suggestion, Tab and ArrowRight insert
      it at its position and clear it, Escape only clears it; every other
      case is left to the editor. */
    method HandleKeyDown(key: string, docSize: int) returns (handled: bool)
      modifies this
      ensures enabled == old(enabled) && minChars == old(minChars)
      ensures var s := old(plugin.suggestion);
        && (s.Some? && !s.value.isStreaming && (key == "Tab" || key == "ArrowRight") ==>
              handled && insertions == old(insertions) + [Insertion(s.value.text, s.value.position)]
              && plugin == InitialState)
        && (s.Some? && !s.value.isStreaming && key == "Escape" ==>
              handled && insertions == old(insertions) && plugin == InitialState)
        && (!(s.Some? && !s.value.isStreaming && (key == "Tab" || key == "ArrowRight" || key == "Escape")) ==>
              !handled && insertions == old(insertions) && plugin == old(plugin))
    {
      if plugin.suggestion.Some? && !plugin.suggestion.value.isStreaming {
        var suggestion := plugin.suggestion.value;
        if key == "Tab" || key == "ArrowRight" {
          insertions := insertions + [Insertion(suggestion.text, suggestion.position)];
          Dispatch(Transaction(ClearSuggestion, suggestion.text != "", docSize + |suggestion.text|));
          return true;
        }
        if key == "Escape" {
          Dispatch(Transaction(ClearSuggestion, false, docSize));
          return true;
        }
      }
      return false;
    }

    /** `handleTextInput`: when enabled, clear the suggestion and schedule a
      request for the position after the typed text; never handled. */
    method HandleTextInput(from: int, text: string, docSize: int) returns (handled: bool, scheduled: Option<int>)
      modifies this
      ensures !handled
      ensures enabled == old(enabled) && minChars == old(minChars) && insertions == old(insertions)
      ensures !old(enabled) ==> plugin == old(plugin) && scheduled.None?
      ensures old(enabled) ==> plugin == InitialState && scheduled == Some(from + |text|)
    {
      if !enabled {
        return false, None;
      }
      Dispatch(Transaction(ClearSuggestion, false, docSize));
      return false, Some(from + |text|);
    }

    /** `generateSuggestion` with the configured `minChars`: the user
        prompt sent to the model, if any, and then dispatch what
        `SuggestionMeta` says, if anything. `reply` is what the model call
        ends with; it is not consulted when no request is sent. */
    method GenerateSuggestion(supported: bool, textBefore: string, position: int,
                              availability: Availability, reply: ModelReply, aborted: bool, docSize: int)
      returns (request: Option<string>)
      modifies this
      ensures request == SuggestionRequest(minChars, supported, textBefore, availability)
      ensures request.Some? ==> request.value == AutocompletePrompt(SuggestionContext(textBefore))
      ensures enabled == old(enabled) && minChars == old(minChars) && insertions == old(insertions)
      ensures var m := SuggestionMeta(minChars, supported, textBefore, position, availability, reply, aborted);
        plugin == if m.Some? then Apply(Transaction(m.value, false, docSize), old(plugin)) else old(plugin)
    {
      request := SuggestionRequest(minChars, supported, textBefore, availability);
      var meta := SuggestionMeta(minChars, supported, textBefore, position, availability, reply, aborted);
      if meta.Some? {
        Dispatch(Transaction(meta.value, false, docSize));
      }
    }

    /** `toggleAutocomplete`. */
    method Toggle() returns (r: bool)
      modifies this
      ensures r
      ensures enabled == !old(enabled) && minChars == old(minChars)
      ensures plugin == old(plugin) && insertions == old(insertions)
    {
      enabled := !enabled;
      return true;
    }

    /** Two toggles restore the option. */
    method ToggleTwice()
      modifies this
      ensures enabled == old(enabled) && minChars == old(minChars) && plugin == old(plugin) && insertions == old(insertions)
    {
      var _ := Toggle();
      var _ := Toggle();
    }

    /** `clearAutocompleteSuggestion`: clears when the command may dispatch. */
    method ClearSuggestionCommand(canDispatch: bool, docSize: int) returns (r: bool)
      modifies this
      ensures r
      ensures enabled == old(enabled) && minChars == old(minChars) && insertions == old(insertions)
      ensures plugin == if canDispatch then InitialState else old(plugin)
    {
      if canDispatch {
        Dispatch(Transaction(ClearSuggestion, false, docSize));
      }
      return true;
    }
  }
}

=== FILE: chat_transport.dfy ===
/** The note-to-prompt step of app/note/util/client-side-chat-transport.ts:
    the note's blocks as lines of text, framed by the fixed system prompt.
    The current note is passed in; the store it is read from is not part
    of this model. */
module ChatTransport {
  import opened Text
  import opened NoteContent

  const PromptHeader: string :=
    "You are an AI assistant helping the user with their note. Here is the current content of their note:\n\n"

  const PromptFooter: string :=
    "\n\nAssist the user with questions about this note, help them understand the content, suggest improvements, write new content or help with any related tasks.\n"
    + "You can reference specific parts of the note in your responses.\n\n"
    + "IMPORTANT: Do not make up or fabricate information, use the web search tool when needed."

  /** `extractTextFromContent`: nothing for a document without blocks,
      otherwise one line per top-level block. */
  function ExtractTextFromContent(doc: Node): (r: string)
    ensures ChildrenOf(doc) == [] ==> r == ""
  {
    if ChildrenOf(doc) == [] then "" else Join(BlockTexts(doc), "\n")
  }

  /** When no block's text spans lines, splitting the extracted text at line
      breaks gives back each block's text, in order. */
  lemma ExtractedLines(doc: Node)
    requires ChildrenOf(doc) != []
    requires forall k :: 0 <= k < |BlockTexts(doc)| ==> '\n' !in BlockTexts(doc)[k]
    ensures Split(ExtractTextFromContent(doc), '\n') == BlockTexts(doc)
  {
    JoinSplit(BlockTexts(doc), '\n');
  }

  /** A note made from a text gives that text back. */
  lemma ExtractCreatedText(text: string)
    ensures ExtractTextFromContent(CreateContentFromText(text)) == text
  {
    CreatedContentText(text);
  }

  /** `createSystemPrompt`: the note text verbatim between the fixed header
      and footer. */
  function CreateSystemPrompt(doc: Node): (r: string)
    ensures StartsWith(r, PromptHeader) && EndsWith(r, PromptFooter)
    ensures |r| == |PromptHeader| + |ExtractTextFromContent(doc)| + |PromptFooter|
    ensures r[|PromptHeader|..|r| - |PromptFooter|] == ExtractTextFromContent(doc)
  {
    var note := ExtractTextFromContent(doc);
    var r := PromptHeader + note + PromptFooter;
    StartsWithConcat(PromptHeader, note + PromptFooter);
    assert r == PromptHeader + (note + PromptFooter);
    EndsWithConcat(PromptHeader + note, PromptFooter);
    assert r[|PromptHeader|..|r| - |PromptFooter|] == note;
    r
  }

  /** Two notes give the same system prompt exactly when their extracted
      texts agree. */
  lemma SystemPromptDeterminedByText(d1: Node, d2: Node)
    ensures CreateSystemPrompt(d1) == CreateSystemPrompt(d2) <==> ExtractTextFromContent(d1) == ExtractTextFromContent(d2)
  {
    if CreateSystemPrompt(d1) == CreateSystemPrompt(d2) {
      var r := CreateSystemPrompt(d1);
      assert ExtractTextFromContent(d1) == r[|PromptHeader|..|r| - |PromptFooter|] == ExtractTextFromContent(d2);
    }
  }
}

=== FILE: clock.dfy ===
/** The `m:ss` rendering of a recording's duration, written identically as
    `formatTime` in components/dock-footer.tsx and
    components/recording-modal.tsx, with a reader that takes it back. */
module Clock {
  import opened Wrappers
  import opened Text

  /** Whole minutes, a colon, and the remaining seconds padded to two
      digits. */
  function FormatTime(seconds: nat): (r: string)
    ensures |r| >= 4 && r[|r| - 3] == ':'
    ensures AllDigits(r[|r| - 2..]) && DigitsValue(r[|r| - 2..]) == seconds % 60
  {
    var m, ss := NatToString(seconds / 60), PadStart2(NatToString(seconds % 60));
    PadKeepsValue(seconds % 60);
    assert (m + ":" + ss)[|m| + 1..] == ss;
    m + ":" + ss
  }

  /** Reads `m:ss` back: a run of digits, one colon, two digits below 60. */
  function ParseTime(t: string): (r: Option<nat>)
    ensures r.Some? ==> Count(t, ':') == 1
  {
    var parts := Split(t, ':');
    SplitCount(t, ':');
    if |parts| == 2 && parts[0] != [] && AllDigits(parts[0]) && |parts[1]| == 2 && AllDigits(parts[1])
       && DigitsValue(parts[1]) < 60
    then Some(DigitsValue(parts[0]) * 60 + DigitsValue(parts[1]))
    else None
  }

  /** Padding a number below 100 to two digits keeps its value. */
  lemma PadKeepsValue(n: nat)
    requires n < 100
    ensures |PadStart2(NatToString(n))| == 2 && AllDigits(PadStart2(NatToString(n)))
    ensures DigitsValue(PadStart2(NatToString(n))) == n
  {
    NatToStringRoundTrip(n);
    var s := NatToString(n);
    if n < 10 {
      var p := PadStart2(s);
      assert p == ['0', DigitChar(n)];
      assert p[..1] == ['0'];
    } else {
      assert NatToString(n / 10) == [DigitChar(n / 10)];
    }
  }

  /** The rendering has exactly one colon, splitting it into the minutes and
      the two-digit seconds. */
  lemma FormatTimeParts(seconds: nat)
    ensures Split(FormatTime(seconds), ':') == [NatToString(seconds / 60), PadStart2(NatToString(seconds % 60))]
  {
    var m, ss := NatToString(seconds / 60), PadStart2(NatToString(seconds % 60));
    PadKeepsValue(seconds % 60);
    assert ':' !in m by {
      forall i | 0 <= i < |m| ensures m[i] != ':' {
        assert IsDigit(m[i]);
      }
    }
    assert ':' !in ss by {
      forall i | 0 <= i < |ss| ensures ss[i] != ':' {
        assert IsDigit(ss[i]);
      }
    }
    assert FormatTime(seconds) == m + [':'] + ss;
    SplitAfterPiece(m, ':', ss);
    SplitWithoutSeparator(ss, ':');
  }

  /** Reading the rendering back gives the duration: minutes times sixty
      plus seconds, with the seconds field below sixty. */
  lemma FormatTimeRoundTrip(seconds: nat)
    ensures ParseTime(FormatTime(seconds)) == Some(seconds)
  {
    FormatTimeParts(seconds);
    PadKeepsValue(seconds % 60);
    NatToStringRoundTrip(seconds / 60);
  }

  /** Different durations are shown differently. */
  lemma FormatTimeInjective(s: nat, t: nat)
    requires FormatTime(s) == FormatTime(t)
    ensures s == t
  {
    FormatTimeRoundTrip(s);
    FormatTimeRoundTrip(t);
  }
}

=== FILE: dock_footer.dfy ===
/** The editor's dock, components/dock-footer.tsx: the record button, the
    transcription of a finished recording, and the effect that transcribes
    once a stopped recording's audio is ready. The recorder is reduced to
    whether it is recording and the audio it has produced; the transcriber
    and the note's callback become parameters and results. */
module DockFooter {
  import opened Wrappers
  import opened Text

  /** What the transcriber gives: a result holding a transcription, no
      result, or a failure. */
  datatype Transcribed = Transcription(text: string) | NoResult | TranscribeFailed

  class Dock {
    var isProcessing: bool
    var isPopoverOpen: bool
    var shouldTranscribeOnStop: bool
    /** The recorder's state: whether it records, and the audio of the last
        recording once it is ready. */
    var recording: bool
    var audioBlob: Option<string>

    constructor ()
      ensures !isProcessing && !isPopoverOpen && !shouldTranscribeOnStop && !recording && audioBlob.None?
    {
      isProcessing := false;
      isPopoverOpen := false;
      shouldTranscribeOnStop := false;
      recording := false;
      audioBlob := None;
    }

    /** `handleRecordingAction`: when idle, open the popover and start
        recording; when recording, stop and ask for a transcription once the
        audio is ready. */
    method HandleRecordingAction()
      modifies this
      ensures !old(recording) ==> isPopoverOpen && recording && shouldTranscribeOnStop == old(shouldTranscribeOnStop)
      ensures old(recording) ==> !recording && shouldTranscribeOnStop && isPopoverOpen == old(isPopoverOpen)
      ensures isProcessing == old(isProcessing) && audioBlob == old(audioBlob)
    {
      if !recording {
        isPopoverOpen := true;
        recording := true;
      } else {
        recording := false;
        shouldTranscribeOnStop := true;
      }
    }

    /** The recorder delivers the audio of a stopped recording. */
    method AudioReady(blob: string)
      modifies this
      ensures audioBlob == Some(blob)
      ensures recording == old(recording) && isProcessing == old(isProcessing)
      ensures isPopoverOpen == old(isPopoverOpen) && shouldTranscribeOnStop == old(shouldTranscribeOnStop)
    {
      audioBlob := Some(blob);
    }

    /** `handleTranscribe`: `hasCallback` says whether the note passed a
        callback, and `result` is what the transcriber gives. Without audio
        or a callback nothing is attempted. A transcription that is not blank
        is handed to the callback, after which the popover closes and the
        recorder is reset. */
    method HandleTranscribe(hasCallback: bool, result: Transcribed) returns (delivered: Option<string>)
      modifies this
      ensures old(audioBlob).None? || !hasCallback ==>
        delivered.None? && isProcessing == old(isProcessing) && isPopoverOpen == old(isPopoverOpen)
        && recording == old(recording) && audioBlob == old(audioBlob)
      ensures old(audioBlob).Some? && hasCallback ==> !isProcessing
      ensures delivered.Some? <==> old(audioBlob).Some? && hasCallback && result.Transcription? && !IsBlank(result.text)
      ensures delivered.Some? ==> delivered.value == result.text && !isPopoverOpen && !recording && audioBlob.None?
      ensures delivered.None? ==> isPopoverOpen == old(isPopoverOpen) && recording == old(recording) && audioBlob == old(audioBlob)
      ensures shouldTranscribeOnStop == old(shouldTranscribeOnStop)
    {
      if audioBlob.None? || !hasCallback {
        return None;
      }
      isProcessing := true;
      delivered := None;
      if result.Transcription? && !IsBlank(result.text) {
        delivered := Some(result.text);
        isPopoverOpen := false;
        recording := false;
        audioBlob := None;
      }
      isProcessing := false;
    }

    /** The auto-transcribe condition of the effect. */
    predicate ShouldAutoTranscribe()
      reads this
    {
      shouldTranscribeOnStop && audioBlob.Some? && !recording
    }

    /** The effect: when a transcription was asked for, the audio is ready
        and recording has stopped, the request is withdrawn and the audio
        transcribed; otherwise nothing happens. */
    method TranscribeOnStopEffect(hasCallback: bool, result: Transcribed) returns (delivered: Option<string>)
      modifies this
      ensures !old(ShouldAutoTranscribe()) ==>
        delivered.None? && isProcessing == old(isProcessing) && isPopoverOpen == old(isPopoverOpen)
        && shouldTranscribeOnStop == old(shouldTranscribeOnStop) && recording == old(recording) && audioBlob == old(audioBlob)
      ensures old(ShouldAutoTranscribe()) ==> !shouldTranscribeOnStop && !ShouldAutoTranscribe()
      ensures delivered.Some? <==> old(ShouldAutoTranscribe()) && hasCallback && result.Transcription? && !IsBlank(result.text)
      ensures delivered.Some? ==> delivered.value == result.text && !isPopoverOpen && !recording && audioBlob.None?
      ensures old(ShouldAutoTranscribe()) && delivered.None? ==>
        isPopoverOpen == old(isPopoverOpen) && recording == old(recording) && audioBlob == old(audioBlob)
      ensures old(ShouldAutoTranscribe()) && hasCallback ==> !isProcessing
      ensures old(ShouldAutoTranscribe()) && !hasCallback ==> isProcessing == old(isProcessing)
    {
      if shouldTranscribeOnStop && audioBlob.Some? && !recording {
        shouldTranscribeOnStop := false;
        delivered := HandleTranscribe(hasCallback, result);
      } else {
        delivered := None;
      }
    }
  }

  /** A stop followed by the audio arriving transcribes exactly once: the
      effect running again afterwards finds nothing to do. */
  method StopThenTranscribe(d: Dock, blob: string, result: Transcribed) returns (first: Option<string>, second: Option<string>)
    requires d.recording
    modifies d
    ensures first.Some? <==> result.Transcription? && !IsBlank(result.text)
    ensures second.None?
  {
    d.HandleRecordingAction();
    d.AudioReady(blob);
    first := d.TranscribeOnStopEffect(true, result);
    second := d.TranscribeOnStopEffect(true, result);
  }
}

=== FILE: home_chat.dfy ===
/** The home page's chat box, components/home-chat.tsx: the attachment state
    kept by the file handlers, the routing of a submission by what is
    attached, and the automatic prompt shown for an attachment. Saving notes,
    reading files, toasts and the router are replaced by parameters and by
    what the handlers return. */
module HomeChat {
  import opened Wrappers
  import opened Text
  import opened Prompts
  import PdfProcessing

  /** The kind of attachment; `NoFile` is the source's `null`. */
  datatype FileType = NoFile | PdfFile | ImageFile | AudioFile | RecordingFile

  /** A picked `File`: its MIME type and name. */
  datatype File = File(mimeType: string, name: string)

  /** What the PDF extractor gave: the text and the metadata. */
  datatype PdfData = PdfData(text: string, metadata: PdfProcessing.Metadata)

  /** An entry of the attachment widget's list. */
  datatype Attachment = Attachment(id: string, filename: string)

  /** `getAutoPromptMessage`: the fixed prompt used for an attachment when
      nothing is typed. */
  function AutoPromptMessage(fileType: FileType): (r: Option<string>)
    ensures r.Some? <==> fileType == PdfFile || fileType == ImageFile || fileType == AudioFile
    ensures fileType == PdfFile ==> r == Some(PdfAutoPrompt)
    ensures fileType == ImageFile ==> r == Some(ImageAutoPrompt)
    ensures fileType == AudioFile ==> r == Some(AudioAutoPrompt)
  {
    match fileType
    case PdfFile => Some(PdfAutoPrompt)
    case ImageFile => Some(ImageAutoPrompt)
    case AudioFile => Some(AudioAutoPrompt)
    case _ => None
  }

  predicate IsImage(f: File) {
    StartsWith(f.mimeType, "image/")
  }

  /** The picked files with an image type, in order. */
  function KeepImages(files: seq<File>): (r: seq<File>)
    ensures |r| <= |files|
    ensures forall i :: 0 <= i < |r| ==> IsImage(r[i])
    ensures forall f :: f in files && IsImage(f) ==> f in r
    ensures forall f :: f in r ==> f in files
  {
    if files == [] then []
    else (if IsImage(files[0]) then [files[0]] else []) + KeepImages(files[1..])
  }

  /** Filtering a concatenation filters each half, keeping the order. */
  lemma {:induction false} KeepImagesAppend(x: seq<File>, y: seq<File>)
    ensures KeepImages(x + y) == KeepImages(x) + KeepImages(y)
  {
    if x == [] {
      assert x + y == y;
    } else {
      assert (x + y)[0] == x[0] && (x + y)[1..] == x[1..] + y;
      KeepImagesAppend(x[1..], y);
    }
  }

  lemma KeepImagesOne(f: File)
    ensures KeepImages([f]) == if IsImage(f) then [f] else []
  {
  }

  /** Nothing is kept exactly when no picked file is an image. */
  lemma NoImagesPicked(files: seq<File>)
    ensures KeepImages(files) == [] <==> forall i :: 0 <= i < |files| ==> !IsImage(files[i])
  {
    if KeepImages(files) == [] {
      forall i | 0 <= i < |files| ensures !IsImage(files[i]) {
        assert files[i] in files;
      }
    }
  }

  /** The files whose name differs from `name`, in order. */
  function WithoutName(files: seq<File>, name: string): (r: seq<File>)
    ensures forall f :: f in r <==> f in files && f.name != name
  {
    if files == [] then []
    else (if files[0].name != name then [files[0]] else []) + WithoutName(files[1..], name)
  }

  /** Removing by name from a concatenation removes from each half, keeping the order. */
  lemma {:induction false} WithoutNameAppend(x: seq<File>, y: seq<File>, name: string)
    ensures WithoutName(x + y, name) == WithoutName(x, name) + WithoutName(y, name)
  {
    if x == [] {
      assert x + y == y;
    } else {
      assert (x + y)[0] == x[0] && (x + y)[1..] == x[1..] + y;
      WithoutNameAppend(x[1..], y, name);
    }
  }

  lemma WithoutNameOne(f: File, name: string)
    ensures WithoutName([f], name) == if f.name != name then [f] else []
  {
  }

  /** The attachments whose id differs from `id`, in order. */
  function WithoutId(attachments: seq<Attachment>, id: string): (r: seq<Attachment>)
    ensures forall a :: a in r <==> a in attachments && a.id != id
  {
    if attachments == [] then []
    else (if attachments[0].id != id then [attachments[0]] else []) + WithoutId(attachments[1..], id)
  }

  /** Removing by id from a concatenation removes from each half, keeping the order. */
  lemma {:induction false} WithoutIdAppend(x: seq<Attachment>, y: seq<Attachment>, id: string)
    ensures WithoutId(x + y, id) == WithoutId(x, id) + WithoutId(y, id)
  {
    if x == [] {
      assert x + y == y;
    } else {
      assert (x + y)[0] == x[0] && (x + y)[1..] == x[1..] + y;
      WithoutIdAppend(x[1..], y, id);
    }
  }

  lemma WithoutIdOne(f: Attachment, id: string)
    ensures WithoutId([f], id) == if f.id != id then [f] else []
  {
  }

  /** `find`: the first attachment with the id. */
  function FindById(attachments: seq<Attachment>, id: string): (r: Option<Attachment>)
    ensures r.None? <==> forall a :: a in attachments ==> a.id != id
    ensures r.Some? ==> r.value in attachments && r.value.id == id
  {
    if attachments == [] then None
    else if attachments[0].id == id then Some(attachments[0])
    else FindById(attachments[1..], id)
  }

  /** The attachment found is the first one with the id. */
  lemma {:induction false} FindByIdFirst(attachments: seq<Attachment>, id: string)
    ensures forall i :: 0 <= i < |attachments| && attachments[i].id == id &&
                        (forall j :: 0 <= j < i ==> attachments[j].id != id) ==>
              FindById(attachments, id) == Some(attachments[i])
  {
    if attachments != [] && attachments[0].id != id {
      FindByIdFirst(attachments[1..], id);
      forall i | 1 <= i < |attachments| && attachments[i].id == id &&
                 (forall j :: 0 <= j < i ==> attachments[j].id != id)
        ensures FindById(attachments, id) == Some(attachments[i])
      {
        var rest := attachments[1..];
        assert rest[i - 1] == attachments[i];
        forall j | 0 <= j < i - 1 ensures rest[j].id != id {
          assert rest[j] == attachments[j + 1];
        }
      }
    }
  }

  /** `message.text?.trim()`: the trimmed text, or nothing when the message
      has no text. */
  function UserPromptOf(text: Option<string>): Option<string> {
    if text.Some? then Some(Trim(text.value)) else None
  }

  /** A user prompt that JavaScript treats as true: present and non-empty. */
  predicate Truthy(p: Option<string>) {
    p.Some? && p.value != ""
  }

  /** `userPrompt || null`: the custom prompt stored with a generation. */
  function CustomPrompt(p: Option<string>): (r: Option<string>)
    ensures r.Some? <==> Truthy(p)
    ensures r.Some? ==> r == p
  {
    if Truthy(p) then p else None
  }

  /** Where a submission goes. */
  datatype Route = PdfRoute | ImageRoute | AudioRoute | PromptRoute | NoInput

  /** The routing of `handleSubmit`, by priority: a processed PDF, then kept
      images, then an audio file, then a non-empty typed prompt. */
  function SubmitRoute(fileType: FileType, hasPdf: bool, imageCount: nat, hasAudio: bool, userPrompt: Option<string>): (r: Route)
    ensures r == PdfRoute <==> fileType == PdfFile && hasPdf
    ensures r == ImageRoute <==> fileType == ImageFile && imageCount > 0
    ensures r == AudioRoute <==> fileType == AudioFile && hasAudio
    ensures r == PromptRoute <==>
      !(fileType == PdfFile && hasPdf) && !(fileType == ImageFile && imageCount > 0)
      && !(fileType == AudioFile && hasAudio) && Truthy(userPrompt)
  {
    if fileType == PdfFile && hasPdf then PdfRoute
    else if fileType == ImageFile && imageCount > 0 then ImageRoute
    else if fileType == AudioFile && hasAudio then AudioRoute
    else if Truthy(userPrompt) then PromptRoute
    else NoInput
  }

  /** The typed text is ignored while an attachment is ready, and without
      one a blank text is no input at all. */
  lemma TypedTextOnlyWithoutAttachment(fileType: FileType, hasPdf: bool, imageCount: nat, hasAudio: bool, text: Option<string>)
    requires fileType == NoFile
    ensures SubmitRoute(fileType, hasPdf, imageCount, hasAudio, UserPromptOf(text)) == PromptRoute
      <==> text.Some? && !IsBlank(text.value)
  {
  }

  /** The generation record stored with a new note, from which the note
      page generates its content. */
  datatype Generation =
    | PromptGeneration(userPrompt: string)
    | PdfGeneration(pdfText: string, pdfMetadata: PdfProcessing.Metadata, customPrompt: Option<string>)
    | ImageGeneration(customPrompt: Option<string>, imageCount: nat)
    | AudioGeneration(fileName: string, customPrompt: Option<string>)

  /** How a submission ends: no input (an error is shown), a failure while
      creating the note, or the new note opened with its title and
      generation record. */
  datatype SubmitOutcome =
    | NothingToSubmit
    | CreateFailed(route: Route)
    | Opened(noteId: string, title: string, generation: Generation)

  class HomeChatBox {
    var isProcessing: bool
    var fileType: FileType
    var processingStatus: string
    var pdfData: Option<PdfData>
    var imageFiles: seq<File>
    var audioFile: Option<File>
    var userInput: string

    constructor ()
      ensures !isProcessing && fileType == NoFile && processingStatus == "" && pdfData.None?
      ensures imageFiles == [] && audioFile.None? && userInput == ""
    {
      isProcessing := false;
      fileType := NoFile;
      processingStatus := "";
      pdfData := None;
      imageFiles := [];
      audioFile := None;
      userInput := "";
    }

    /** No attachment is held and nothing is typed. */
    predicate Cleared()
      reads this
    {
      fileType == NoFile && pdfData.None? && imageFiles == [] && audioFile.None?
      && processingStatus == "" && userInput == ""
    }

    /** `resetState`: every piece of attachment state and the input are
        cleared; only the processing flag is kept. */
    method ResetState()
      modifies this
      ensures Cleared() && isProcessing == old(isProcessing)
    {
      fileType := NoFile;
      pdfData := None;
      imageFiles := [];
      audioFile := None;
      processingStatus := "";
      userInput := "";
    }

    /** `handlePDFSelected`: `result` is what the extractor gives for the
        first file and `lastProgress` the last status it reported. On success
        the text and metadata are held; on failure the file type is dropped
        again. Earlier attachments are always cleared. */
    method HandlePdfSelected(files: seq<File>, result: PdfProcessing.PdfResult, lastProgress: Option<string>)
      modifies this
      ensures files == [] ==>
        fileType == old(fileType) && pdfData == old(pdfData) && imageFiles == old(imageFiles)
        && audioFile == old(audioFile) && processingStatus == old(processingStatus)
        && userInput == old(userInput) && isProcessing == old(isProcessing)
      ensures files != [] ==> !isProcessing && imageFiles == [] && audioFile.None? && userInput == ""
      ensures files != [] && result.Extracted? ==>
        fileType == PdfFile && processingStatus == ""
        && pdfData == Some(PdfData(result.value.text, result.value.metadata))
      ensures files != [] && result.Failed? ==>
        fileType == NoFile && pdfData.None?
        && processingStatus == (if lastProgress.Some? then lastProgress.value else "Extracting text from PDF...")
    {
      if files == [] {
        return;
      }
      ResetState();
      fileType := PdfFile;
      isProcessing := true;
      pdfData := None;
      processingStatus := "Extracting text from PDF...";
      if lastProgress.Some? {
        processingStatus := lastProgress.value;
      }
      if result.Extracted? {
        pdfData := Some(PdfData(result.value.text, result.value.metadata));
        processingStatus := "";
      } else {
        fileType := NoFile;
      }
      isProcessing := false;
    }

    /** `handleImagesSelected`: the image files among those picked replace
        every earlier attachment; with none, nothing changes. */
    method HandleImagesSelected(files: seq<File>)
      modifies this
      ensures KeepImages(files) == [] ==>
        fileType == old(fileType) && pdfData == old(pdfData) && imageFiles == old(imageFiles)
        && audioFile == old(audioFile) && processingStatus == old(processingStatus) && userInput == old(userInput)
      ensures KeepImages(files) != [] ==>
        fileType == ImageFile && imageFiles == KeepImages(files) && pdfData.None? && audioFile.None?
        && processingStatus == "" && userInput == ""
      ensures isProcessing == old(isProcessing)
    {
      var imageFilesList := KeepImages(files);
      if |imageFilesList| == 0 {
        return;
      }
      ResetState();
      fileType := ImageFile;
      imageFiles := imageFilesList;
    }

    /** `handleAudioSelected`: the first picked file replaces every earlier
        attachment. */
    method HandleAudioSelected(files: seq<File>)
      modifies this
      ensures files == [] ==>
        fileType == old(fileType) && pdfData == old(pdfData) && imageFiles == old(imageFiles)
        && audioFile == old(audioFile) && processingStatus == old(processingStatus) && userInput == old(userInput)
      ensures files != [] ==>
        fileType == AudioFile && audioFile == Some(files[0]) && pdfData.None? && imageFiles == []
        && processingStatus == "" && userInput == ""
      ensures isProcessing == old(isProcessing)
    {
      if files == [] {
        return;
      }
      ResetState();
      fileType := AudioFile;
      audioFile := Some(files[0]);
    }

    /** The route the current state gives to a message. */
    function CurrentRoute(text: Option<string>): Route
      reads this
    {
      SubmitRoute(fileType, pdfData.Some?, |imageFiles|, audioFile.Some?, UserPromptOf(text))
    }

    /** `handleSubmit` with its four submit handlers: `saved` is the new
        note's id, or a failure anywhere while the note is created. The input
        is cleared on every submission; a routed one clears all attachment
        state whatever its outcome. */
    method HandleSubmit(text: Option<string>, saved: Outcome<string>) returns (outcome: SubmitOutcome)
      modifies this
      ensures old(CurrentRoute(text)) == NoInput ==>
        outcome == NothingToSubmit && userInput == ""
        && fileType == old(fileType) && pdfData == old(pdfData) && imageFiles == old(imageFiles)
        && audioFile == old(audioFile) && processingStatus == old(processingStatus) && isProcessing == old(isProcessing)
      ensures old(CurrentRoute(text)) != NoInput ==> Cleared() && !isProcessing
      ensures old(CurrentRoute(text)) != NoInput && saved.Threw? ==> outcome == CreateFailed(old(CurrentRoute(text)))
      ensures saved.Delivered? ==> match old(CurrentRoute(text))
        case NoInput => true
        case PromptRoute =>
          outcome == Opened(saved.value, "AI Generated Note", PromptGeneration(UserPromptOf(text).value))
        case PdfRoute =>
          outcome == Opened(saved.value, "Generating PDF Notes...",
                            PdfGeneration(old(pdfData).value.text, old(pdfData).value.metadata, CustomPrompt(UserPromptOf(text))))
        case ImageRoute =>
          outcome == Opened(saved.value, "Image Analysis", ImageGeneration(CustomPrompt(UserPromptOf(text)), old(|imageFiles|)))
        case AudioRoute =>
          outcome == Opened(saved.value, "Audio Upload", AudioGeneration(old(audioFile).value.name, CustomPrompt(UserPromptOf(text))))
    {
      var userPrompt := UserPromptOf(text);
      var route := CurrentRoute(text);
      userInput := "";
      if route == NoInput {
        return NothingToSubmit;
      }
      isProcessing := true;
      if saved.Threw? {
        outcome := CreateFailed(route);
      } else {
        var generation;
        var title;
        match route {
          case PdfRoute =>
            title := "Generating PDF Notes...";
            generation := PdfGeneration(pdfData.value.text, pdfData.value.metadata, CustomPrompt(userPrompt));
          case ImageRoute =>
            title := "Image Analysis";
            generation := ImageGeneration(CustomPrompt(userPrompt), |imageFiles|);
          case AudioRoute =>
            title := "Audio Upload";
            generation := AudioGeneration(audioFile.value.name, CustomPrompt(userPrompt));
          case PromptRoute =>
            title := "AI Generated Note";
            generation := PromptGeneration(userPrompt.value);
        }
        outcome := Opened(saved.value, title, generation);
      }
      isProcessing := false;
      ResetState();
    }

    /** `handleRemoveAttachment`: `attachments` is the widget's list before
        the removal, and the list left is returned. Removing the last one
        clears everything; otherwise, with images attached, the images named
        like the removed attachment are dropped. */
    method HandleRemoveAttachment(id: string, attachments: seq<Attachment>) returns (remaining: seq<Attachment>)
      modifies this
      ensures remaining == WithoutId(attachments, id)
      ensures remaining == [] ==> Cleared() && isProcessing == old(isProcessing)
      ensures remaining != [] && old(fileType) == ImageFile && FindById(attachments, id).Some? ==>
        imageFiles == WithoutName(old(imageFiles), FindById(attachments, id).value.filename)
      ensures remaining != [] && !(old(fileType) == ImageFile && FindById(attachments, id).Some?) ==>
        imageFiles == old(imageFiles)
      ensures remaining != [] ==>
        fileType == old(fileType) && pdfData == old(pdfData) && audioFile == old(audioFile)
        && processingStatus == old(processingStatus) && userInput == old(userInput) && isProcessing == old(isProcessing)
    {
      var attachmentToRemove := FindById(attachments, id);
      remaining := WithoutId(attachments, id);
      if |remaining| == 0 {
        ResetState();
      } else if fileType == ImageFile && attachmentToRemove.Some? {
        imageFiles := WithoutName(imageFiles, attachmentToRemove.value.filename);
      }
    }
  }
}

=== FILE: image_upload.dfy ===
/** The image upload panel of components/image-upload.tsx: the icon chosen
    for a file by a first-match search over a fixed table, and the
    `handleCreateNote` handler that keeps the uploaded images, creates the
    note that holds them and builds the link to the note's analysis. The
    file reader, the database and the router are parameters and results. */
module ImageUpload {
  import opened Wrappers
  import opened Text
  import opened NoteContent

  // ------------------------------------------------------------ file icons

  datatype Icon = DocumentIcon | ArchiveIcon | SpreadsheetIcon | VideoIcon | AudioIcon | ImageIcon | GenericIcon

  /** The categories of the icon table, in the order they are tried. */
  datatype Category = Document | Archive | Spreadsheet | Video | Audio | Image

  const Categories: seq<Category> := [Document, Archive, Spreadsheet, Video, Audio, Image]

  function IconOf(c: Category): Icon {
    match c
    case Document => DocumentIcon
    case Archive => ArchiveIcon
    case Spreadsheet => SpreadsheetIcon
    case Video => VideoIcon
    case Audio => AudioIcon
    case Image => ImageIcon
  }

  /** A category's condition on the file's MIME type and name. */
  predicate Matches(c: Category, mimeType: string, name: string)
    ensures mimeType == "" && name == "" ==> !Matches(c, mimeType, name)
  {
    match c
    case Document =>
      Contains(mimeType, "pdf") || EndsWith(name, ".pdf") || Contains(mimeType, "word")
      || EndsWith(name, ".doc") || EndsWith(name, ".docx")
    case Archive =>
      Contains(mimeType, "zip") || Contains(mimeType, "archive") || EndsWith(name, ".zip") || EndsWith(name, ".rar")
    case Spreadsheet =>
      Contains(mimeType, "excel") || EndsWith(name, ".xls") || EndsWith(name, ".xlsx")
    case Video => Contains(mimeType, "video/")
    case Audio => Contains(mimeType, "audio/")
    case Image => StartsWith(mimeType, "image/")
  }

  /** `getFileIcon`: the icon of the first category whose condition holds,
      and the generic icon when none does. */
  method GetFileIcon(mimeType: string, name: string) returns (icon: Icon)
    ensures icon == GenericIcon <==> forall k :: 0 <= k < |Categories| ==> !Matches(Categories[k], mimeType, name)
    ensures icon != GenericIcon ==> exists k ::
      && 0 <= k < |Categories|
      && Matches(Categories[k], mimeType, name)
      && icon == IconOf(Categories[k])
      && forall j :: 0 <= j < k ==> !Matches(Categories[j], mimeType, name)
  {
    for k := 0 to |Categories|
      invariant forall j :: 0 <= j < k ==> !Matches(Categories[j], mimeType, name)
    {
      if Matches(Categories[k], mimeType, name) {
        return IconOf(Categories[k]);
      }
    }
    return GenericIcon;
  }

  /** The table's order decides between conditions that both hold: a PDF
      whose name ends in ".zip" meets the document and the archive
      conditions, and the document comes first. */
  lemma DocumentBeforeArchive(mimeType: string, name: string)
    requires mimeType == "application/pdf" && EndsWith(name, ".zip")
    ensures Categories[0] == Document && Categories[1] == Archive
    ensures Matches(Document, mimeType, name) && Matches(Archive, mimeType, name)
  {
    assert mimeType[12..15] == "pdf";
    assert OccursAt(mimeType, "pdf", 12);
    ContainsIff(mimeType, "pdf");
  }

  // ------------------------------------------------------------ note creation

  /** An entry of the upload list: a `File` the user picked, whose reader
      result is `dataUrl` (or a failure), or file metadata without a
      `File`. */
  datatype UploadedFile =
    | PickedFile(mimeType: string, name: string, dataUrl: Outcome<string>)
    | FileMetadata(mimeType: string, name: string)

  predicate IsImageFile(f: UploadedFile) {
    f.PickedFile? && StartsWith(f.mimeType, "image/")
  }

  /** The entries kept: `File`s with an image type, in order. */
  function ImageFiles(files: seq<UploadedFile>): (r: seq<UploadedFile>)
    ensures |r| <= |files|
    ensures forall i :: 0 <= i < |r| ==> IsImageFile(r[i])
    ensures forall f :: f in files && IsImageFile(f) ==> f in r
    ensures forall f :: f in r ==> f in files
  {
    if files == [] then []
    else (if IsImageFile(files[0]) then [files[0]] else []) + ImageFiles(files[1..])
  }

  /** Filtering a concatenation filters each half, keeping the order. */
  lemma {:induction false} ImageFilesAppend(x: seq<UploadedFile>, y: seq<UploadedFile>)
    ensures ImageFiles(x + y) == ImageFiles(x) + ImageFiles(y)
  {
    if x == [] {
      assert x + y == y;
    } else {
      assert (x + y)[0] == x[0] && (x + y)[1..] == x[1..] + y;
      ImageFilesAppend(x[1..], y);
    }
  }

  lemma ImageFilesOne(f: UploadedFile)
    ensures ImageFiles([f]) == if IsImageFile(f) then [f] else []
  {
  }

  /** Nothing is kept exactly when no entry is an image `File`. */
  lemma NoImagesKept(files: seq<UploadedFile>)
    ensures ImageFiles(files) == [] <==> forall i :: 0 <= i < |files| ==> !IsImageFile(files[i])
  {
    if ImageFiles(files) == [] {
      forall i | 0 <= i < |files| ensures !IsImageFile(files[i]) {
        assert files[i] in files;
      }
    }
  }

  /** The image node for a picked file and its reader result. */
  function ImageNode(f: UploadedFile, src: string): Node {
    Node("image", map["src" := src, "alt" := f.name, "title" := f.name], TextAbsent, NotArray)
  }

  /** The image nodes of the kept files, or nothing when a reader fails
      (the handler's `Promise.all` then rejects). */
  function ImageNodes(images: seq<UploadedFile>): (r: Option<seq<Node>>)
    requires forall i :: 0 <= i < |images| ==> images[i].PickedFile?
    ensures r.Some? <==> forall i :: 0 <= i < |images| ==> images[i].dataUrl.Delivered?
    ensures r.Some? ==> |r.value| == |images|
    ensures r.Some? ==> forall i :: 0 <= i < |images| ==> r.value[i] == ImageNode(images[i], images[i].dataUrl.value)
  {
    if images == [] then Some([])
    else
      var rest := ImageNodes(images[1..]);
      if images[0].dataUrl.Delivered? && rest.Some? then
        Some([ImageNode(images[0], images[0].dataUrl.value)] + rest.value)
      else None
  }

  const AnalysisPlaceholder: string := "Analyzing images..."
  const ImageNoteTitle: string := "Image Analysis"
  const NoImageError: string := "Please upload at least one image to create a note."

  /** The first content of the note: the images, an empty paragraph, and a
      paragraph saying the analysis is on its way. */
  function InitialNoteContent(imageNodes: seq<Node>): (r: Node)
    ensures IsDoc(r) && |ChildrenOf(r)| == |imageNodes| + 2
    ensures ChildrenOf(r)[..|imageNodes|] == imageNodes
    ensures ChildrenOf(r)[|imageNodes|] == Block("paragraph", [])
    ensures ChildrenOf(r)[|imageNodes| + 1] == Block("paragraph", [TextNode(AnalysisPlaceholder)])
  {
    Block("doc", imageNodes + [Block("paragraph", []), Block("paragraph", [TextNode(AnalysisPlaceholder)])])
  }

  /** The query parameters of the link to the new note, in order. */
  function AnalysisParams(imageCount: nat, message: Option<string>): (r: seq<(string, string)>)
    ensures |r| >= 2 && r[0] == ("streamAnalysis", "true") && r[1] == ("imageCount", NatToString(imageCount))
    ensures |r| == 3 <==> message.Some? && !IsBlank(message.value)
    ensures |r| == 3 ==> r[2] == ("customPrompt", Trim(message.value))
    ensures |r| <= 3
  {
    [("streamAnalysis", "true"), ("imageCount", NatToString(imageCount))]
    + if message.Some? && !IsBlank(message.value) then [("customPrompt", Trim(message.value))] else []
  }

  /** What the handler ends with: the error toast when no image is kept,
      nothing when reading the images or saving the note fails, or the note
      saved and the route pushed. */
  datatype CreateOutcome =
    | NoImages
    | Abandoned
    | Created(title: string, content: Node, noteId: string, params: seq<(string, string)>)

  class ImageUploadPanel {
    var isProcessing: bool
    var processingStatus: string

    constructor ()
      ensures !isProcessing && processingStatus == ""
    {
      isProcessing := false;
      processingStatus := "";
    }

    /** `handleCreateNote`: `saved` is what saving the note gives, its new id
        or a failure. The processing flag and status are set while the
        handler works and cleared whatever the outcome; with no image, the
        panel is not touched. */
    method HandleCreateNote(files: seq<UploadedFile>, message: Option<string>, saved: Outcome<string>)
      returns (outcome: CreateOutcome)
      modifies this
      ensures var images := ImageFiles(files);
        && (images == [] ==> outcome == NoImages && isProcessing == old(isProcessing) && processingStatus == old(processingStatus))
        && (images != [] ==> !isProcessing && processingStatus == "")
        && (images != [] && (ImageNodes(images).None? || saved.Threw?) ==> outcome == Abandoned)
        && (images != [] && ImageNodes(images).Some? && saved.Delivered? ==>
              outcome == Created(ImageNoteTitle, InitialNoteContent(ImageNodes(images).value), saved.value,
                                 AnalysisParams(|images|, message)))
    {
      var imageFiles := ImageFiles(files);
      if |imageFiles| == 0 {
        return NoImages;
      }
      isProcessing := true;
      processingStatus := "Processing images...";
      var imageNodes := ImageNodes(imageFiles);
      if imageNodes.None? {
        outcome := Abandoned;
      } else {
        var content := InitialNoteContent(imageNodes.value);
        processingStatus := "Creating note...";
        if saved.Threw? {
          outcome := Abandoned;
        } else {
          outcome := Created(ImageNoteTitle, content, saved.value, AnalysisParams(|imageFiles|, message));
        }
      }
      isProcessing := false;
      processingStatus := "";
    }
  }

  /** A created note starts with one image per kept file, and the link
      counts exactly those images. */
  lemma CreatedNoteCountsImages(files: seq<UploadedFile>, message: Option<string>, noteId: string)
    requires ImageFiles(files) != [] && ImageNodes(ImageFiles(files)).Some?
    ensures var content := InitialNoteContent(ImageNodes(ImageFiles(files)).value);
      |ChildrenOf(content)| == |ImageFiles(files)| + 2
      && (forall i :: 0 <= i < |ImageFiles(files)| ==> ChildrenOf(content)[i].kind == "image")
      && AnalysisParams(|ImageFiles(files)|, message)[1].1 == NatToString(|ImageFiles(files)|)
  {
    var images := ImageFiles(files);
    var nodes := ImageNodes(images).value;
    var content := InitialNoteContent(nodes);
    forall i | 0 <= i < |images| ensures ChildrenOf(content)[i].kind == "image" {
      assert ChildrenOf(content)[i] == ChildrenOf(content)[..|nodes|][i] == nodes[i];
    }
  }
}

=== FILE: markdown_table.dfy ===
/** The pasted-Markdown-table recogniser and parser of
    app/note/components/editor/markdown-table-paste.ts: pipe-delimited lines
    become a `table` node of `tableRow`s whose cells each hold one
    paragraph. */
module MarkdownTable {
  import opened Text
  import opened NoteContent

  /** A character `[-:\s]` accepts. */
  predicate IsSeparatorChar(c: char) {
    c == '-' || c == ':' || IsWhitespace(c)
  }

  /** A cell matching `/^[-:\s]+$/`: non-empty, dashes, colons and
      whitespace only. */
  predicate IsSeparatorCell(cell: string) {
    cell != "" && forall i :: 0 <= i < |cell| ==> IsSeparatorChar(cell[i])
  }

  /** The lines of the trimmed text. */
  function Lines(text: string): (r: seq<string>)
    ensures |r| == Count(Trim(text), '\n') + 1
  {
    SplitCount(Trim(text), '\n');
    Split(Trim(text), '\n')
  }

  /** Each cell trimmed, in order. */
  function TrimAll(cells: seq<string>): (r: seq<string>)
    ensures |r| == |cells|
    ensures forall k :: 0 <= k < |r| ==> r[k] == Trim(cells[k])
    ensures forall k :: 0 <= k < |r| ==> r[k] == [] || (!IsWhitespace(r[k][0]) && !IsWhitespace(r[k][|r[k]| - 1]))
  {
    seq(|cells|, k requires 0 <= k < |cells| => Trim(cells[k]))
  }

  /** The non-empty strings, in order (`filter(c => c)`). */
  function NonEmpty(cells: seq<string>): (r: seq<string>)
    ensures |r| <= |cells|
    ensures forall k :: 0 <= k < |r| ==> r[k] != "" && r[k] in cells
  {
    if cells == [] then []
    else if cells[0] != "" then [cells[0]] + NonEmpty(cells[1..])
    else NonEmpty(cells[1..])
  }

  /** Filtering a concatenation filters each half, keeping the order. */
  lemma {:induction false} NonEmptyAppend(a: seq<string>, b: seq<string>)
    ensures NonEmpty(a + b) == NonEmpty(a) + NonEmpty(b)
  {
    if a != [] {
      NonEmptyAppend(a[1..], b);
      assert (a + b)[1..] == a[1..] + b;
    } else {
      assert a + b == b;
    }
  }

  /** A single cell is kept exactly when it is non-empty. */
  lemma NonEmptyOne(cell: string)
    ensures NonEmpty([cell]) == if cell != "" then [cell] else []
  {
  }

  /** A line that starts and ends with a pipe once trimmed. */
  predicate HasTableFormat(line: string) {
    StartsWith(Trim(line), "|") && EndsWith(Trim(line), "|")
  }

  /** The recogniser's separator test: the line's non-empty trimmed
      `|`-pieces exist and are all separator cells. */
  predicate IsSeparatorLine(line: string) {
    var cells := NonEmpty(TrimAll(Split(line, '|')));
    |cells| > 0 && forall k :: 0 <= k < |cells| ==> IsSeparatorCell(cells[k])
  }

  /** `isMarkdownTable(text)`: at least two lines, every line pipe-framed,
      and some line a separator line. */
  predicate IsMarkdownTable(text: string)
    ensures IsMarkdownTable(text) ==> Count(Trim(text), '\n') >= 1
  {
    var lines := Lines(text);
    && |lines| >= 2
    && (forall i :: 0 <= i < |lines| ==> HasTableFormat(lines[i]))
    && (exists i :: 0 <= i < |lines| && IsSeparatorLine(lines[i]))
  }

  /** Text whose trimmed form holds no line break is never a table. */
  lemma SingleLineIsNotTable(text: string)
    requires '\n' !in Trim(text)
    ensures !IsMarkdownTable(text)
  {
    SplitWithoutSeparator(Trim(text), '\n');
  }

  /** A recognised table has a line break inside its trimmed text, every
      line of it is pipe-framed, and one of them is a separator line. */
  lemma RecognisedTableShape(text: string)
    requires IsMarkdownTable(text)
    ensures '\n' in Trim(text)
    ensures forall i :: 0 <= i < |Lines(text)| ==> HasTableFormat(Lines(text)[i])
    ensures exists i :: 0 <= i < |Lines(text)| && IsSeparatorLine(Lines(text)[i])
  {
    if '\n' !in Trim(text) {
      SingleLineIsNotTable(text);
    }
  }

  // ------------------------------------------------------------------ parsing

  /** `replace(/^\|/, '').replace(/\|$/, '')`: one leading pipe removed, then
      one trailing pipe. */
  function StripPipes(s: string): (r: string)
    ensures |r| <= |s|
  {
    var a := if StartsWith(s, "|") then s[1..] else s;
    if EndsWith(a, "|") then a[..|a| - 1] else a
  }

  /** One parsed row: the pipe-stripped trimmed line split at pipes, each
      piece trimmed. */
  function ParseRow(line: string): (r: seq<string>)
    ensures |r| == Count(StripPipes(Trim(line)), '|') + 1
    ensures |r| == |Split(StripPipes(Trim(line)), '|')|
    ensures forall k :: 0 <= k < |r| ==> r[k] == Trim(Split(StripPipes(Trim(line)), '|')[k])
    ensures forall k :: 0 <= k < |r| ==> Trim(r[k]) == r[k] && '|' !in r[k]
  {
    var stripped := StripPipes(Trim(line));
    var pieces := Split(stripped, '|');
    SplitCount(stripped, '|');
    assert |pieces| == Count(stripped, '|') + 1;
    forall k | 0 <= k < |pieces| ensures Trim(Trim(pieces[k])) == Trim(pieces[k]) && '|' !in Trim(pieces[k]) {
      TrimIdempotent(pieces[k]);
      TrimInside(pieces[k]);
    }
    TrimAll(pieces)
  }

  /** A pipe-framed row of trimmed, pipe-free cells parses back into those
      cells. */
  lemma ParseRowOfCells(cells: seq<string>)
    requires cells != []
    requires forall k :: 0 <= k < |cells| ==> Trim(cells[k]) == cells[k] && '|' !in cells[k]
    ensures ParseRow("|" + Join(cells, "|") + "|") == cells
  {
    JoinSplit(cells, '|');
    ParseFramed(Join(cells, "|"), cells);
  }

  /** A pipe-framed line parses into the trimmed pieces between its inner
      pipes. */
  lemma ParseFramed(j: string, cells: seq<string>)
    requires Split(j, '|') == cells
    requires forall k :: 0 <= k < |cells| ==> Trim(cells[k]) == cells[k]
    ensures ParseRow("|" + j + "|") == cells
  {
    FramedStripped(j);
    ParseStripped("|" + j + "|", cells);
  }

  /** Trimming a framed line keeps it, and stripping removes the frame. */
  lemma FramedStripped(j: string)
    ensures StripPipes(Trim("|" + j + "|")) == j
  {
    FramedIsTrimmed(j);
    StripPipesFramed(j);
  }

  /** A line parses into the trimmed pieces between the pipes that remain
      once it is trimmed and its framing pipes are removed. */
  lemma ParseStripped(line: string, cells: seq<string>)
    requires Split(StripPipes(Trim(line)), '|') == cells
    requires forall k :: 0 <= k < |cells| ==> Trim(cells[k]) == cells[k]
    ensures ParseRow(line) == cells
  {
    var r := ParseRow(line);
    assert |r| == |cells|;
    forall k | 0 <= k < |r| ensures r[k] == cells[k] {
    }
  }

  lemma FramedIsTrimmed(j: string)
    ensures Trim("|" + j + "|") == "|" + j + "|"
  {
    var line := "|" + j + "|";
    assert line[0] == '|' && line[|line| - 1] == '|';
    TrimOfTrimmed(line);
  }

  /** The framing pipes of a line are the ones removed. */
  lemma StripPipesFramed(j: string)
    ensures StripPipes("|" + j + "|") == j
  {
    var line := "|" + j + "|";
    assert line[..1] == "|";
    var a := line[1..];
    assert a == j + "|";
    assert a[|a| - 1..] == "|";
    assert a[..|a| - 1] == j;
  }

  function Rows(text: string): (r: seq<seq<string>>)
    ensures |r| == |Lines(text)|
  {
    var lines := Lines(text);
    seq(|lines|, i requires 0 <= i < |lines| => ParseRow(lines[i]))
  }

  /** The parser's separator test: every cell is a separator cell, so an
      empty cell disqualifies the row. */
  predicate IsSeparatorRow(row: seq<string>) {
    forall k :: 0 <= k < |row| ==> IsSeparatorCell(row[k])
  }

  /** `rows.findIndex(...)`: the index of a separator row, or -1. */
  function FindSeparator(rows: seq<seq<string>>): (r: int)
    ensures -1 <= r < |rows|
  {
    if rows == [] then -1
    else if IsSeparatorRow(rows[0]) then 0
    else
      var k := FindSeparator(rows[1..]);
      if k == -1 then -1 else k + 1
  }

  /** The index found is that of the first separator row; -1 means there is
      none. */
  lemma {:induction false} FindSeparatorFirst(rows: seq<seq<string>>)
    ensures FindSeparator(rows) >= 0 ==> IsSeparatorRow(rows[FindSeparator(rows)])
    ensures forall j :: 0 <= j < |rows| && (FindSeparator(rows) == -1 || j < FindSeparator(rows)) ==> !IsSeparatorRow(rows[j])
  {
    if rows != [] && !IsSeparatorRow(rows[0]) {
      FindSeparatorFirst(rows[1..]);
      forall j | 1 <= j < |rows| && (FindSeparator(rows) == -1 || j < FindSeparator(rows))
        ensures !IsSeparatorRow(rows[j])
      {
        assert rows[j] == rows[1..][j - 1];
      }
    }
  }

  /** `rows.filter((_, idx) => idx !== s)`. */
  function RemoveAt<T>(rows: seq<T>, s: int): seq<T> {
    if 0 <= s < |rows| then rows[..s] + rows[s + 1..] else rows
  }

  /** The data rows: everything after the separator when there is a header,
      otherwise every row except the separator. */
  function DataRows(rows: seq<seq<string>>, s: int): seq<seq<string>>
    requires -1 <= s < |rows|
  {
    if s > 0 then rows[s + 1..] else RemoveAt(rows, s)
  }

  /** A `tableHeader` or `tableCell` holding one paragraph, with one text node
      for non-empty cell text. */
  function CellNode(kind: string, cellText: string): Node {
    Block(kind, [Block("paragraph", if cellText != "" then [TextNode(cellText)] else [])])
  }

  function RowNode(kind: string, cells: seq<string>): (r: Node)
    ensures |ChildrenOf(r)| == |cells|
  {
    Block("tableRow", seq(|cells|, k requires 0 <= k < |cells| => CellNode(kind, cells[k])))
  }

  function DataRowNodes(data: seq<seq<string>>): (r: seq<Node>)
    ensures |r| == |data|
  {
    seq(|data|, i requires 0 <= i < |data| => RowNode("tableCell", data[i]))
  }

  /** The rows of the parsed table: a header row from row 0 when the
      separator is not the first row, then the data rows. */
  function TableRows(rows: seq<seq<string>>): seq<Node> {
    var s := FindSeparator(rows);
    HeaderRows(rows, s) + DataRowNodes(DataRows(rows, s))
  }

  function HeaderRows(rows: seq<seq<string>>, s: int): seq<Node>
    requires -1 <= s < |rows|
  {
    if s > 0 then [RowNode("tableHeader", rows[0])] else []
  }

  lemma DataRowNodesPush(data: seq<seq<string>>, i: nat)
    requires i < |data|
    ensures DataRowNodes(data[..i + 1]) == DataRowNodes(data[..i]) + [RowNode("tableCell", data[i])]
  {
    assert forall k :: 0 <= k < i ==> data[..i + 1][k] == data[..i][k];
  }

  /** `parseMarkdownTable(text)`: the lines parsed into rows of cells, then
      the table built from them. */
  method ParseMarkdownTable(text: string) returns (table: Node)
    ensures table == Block("table", TableRows(Rows(text)))
  {
    var rows := Rows(text);
    table := TableFromRows(rows);
  }

  /** The second half of `parseMarkdownTable`: find the separator, push the
      header row if there is one, then push every data row. */
  method TableFromRows(rows: seq<seq<string>>) returns (table: Node)
    ensures table == Block("table", TableRows(rows))
  {
    var separatorIndex := FindSeparator(rows);
    var dataRows := DataRows(rows, separatorIndex);
    var tableRows: seq<Node> := [];
    if separatorIndex > 0 {
      tableRows := tableRows + [RowNode("tableHeader", rows[0])];
    }
    assert tableRows == HeaderRows(rows, separatorIndex);
    for i := 0 to |dataRows|
      invariant tableRows == HeaderRows(rows, separatorIndex) + DataRowNodes(dataRows[..i])
    {
      DataRowNodesPush(dataRows, i);
      tableRows := tableRows + [RowNode("tableCell", dataRows[i])];
    }
    assert dataRows[..|dataRows|] == dataRows;
    table := Block("table", tableRows);
  }

  /** How many rows the table gets: a header and the rows after the
      separator, all but the leading separator, or every row. */
  lemma TableRowCount(rows: seq<seq<string>>)
    ensures var s := FindSeparator(rows);
      |TableRows(rows)| == if s > 0 then 1 + (|rows| - s - 1) else if s == 0 then |rows| - 1 else |rows|
  {
  }

  /** Row by row: with a header, row 0 becomes header cells and output row
      i > 0 is input row s + i, so rows 1..s-1 are dropped; without one,
      output row i is input row i + 1 when the separator is first and input
      row i when there is none. The separator row never appears. */
  lemma TableRowSources(rows: seq<seq<string>>)
    ensures var s := FindSeparator(rows);
      && (s > 0 ==> TableRows(rows)[0] == RowNode("tableHeader", rows[0])
                    && forall i :: 1 <= i < |TableRows(rows)| ==> TableRows(rows)[i] == RowNode("tableCell", rows[s + i]))
      && (s == 0 ==> forall i :: 0 <= i < |TableRows(rows)| ==> TableRows(rows)[i] == RowNode("tableCell", rows[i + 1]))
      && (s == -1 ==> forall i :: 0 <= i < |TableRows(rows)| ==> TableRows(rows)[i] == RowNode("tableCell", rows[i]))
  {
    var s := FindSeparator(rows);
    if s > 0 {
      HeaderTableSources(rows, s);
    } else {
      HeaderlessTableSources(rows, s);
    }
  }

  /** With a header: row 0 as the header, then the rows after the separator. */
  lemma HeaderTableSources(rows: seq<seq<string>>, s: int)
    requires s == FindSeparator(rows) && s > 0
    ensures TableRows(rows)[0] == RowNode("tableHeader", rows[0])
    ensures forall i :: 1 <= i < |TableRows(rows)| ==> TableRows(rows)[i] == RowNode("tableCell", rows[s + i])
  {
    var data := rows[s + 1..];
    var t := TableRows(rows);
    assert t == [RowNode("tableHeader", rows[0])] + DataRowNodes(data);
    forall i | 1 <= i < |t| ensures t[i] == RowNode("tableCell", rows[s + i]) {
      assert t[i] == DataRowNodes(data)[i - 1];
      assert data[i - 1] == rows[s + i];
    }
  }

  /** Without a header: every row but a leading separator. */
  lemma HeaderlessTableSources(rows: seq<seq<string>>, s: int)
    requires s == FindSeparator(rows) && s <= 0
    ensures s == 0 ==> forall i :: 0 <= i < |TableRows(rows)| ==> TableRows(rows)[i] == RowNode("tableCell", rows[i + 1])
    ensures s == -1 ==> forall i :: 0 <= i < |TableRows(rows)| ==> TableRows(rows)[i] == RowNode("tableCell", rows[i])
  {
    var data := DataRows(rows, s);
    var t := TableRows(rows);
    assert t == DataRowNodes(data);
    if s == 0 {
      assert data == rows[1..];
    } else {
      assert data == rows;
    }
  }

  /** Every cell holds one paragraph, and its text is the cell text. */
  lemma CellContent(kind: string, cellText: string)
    ensures |ChildrenOf(CellNode(kind, cellText))| == 1
    ensures ChildrenOf(CellNode(kind, cellText))[0].kind == "paragraph"
    ensures cellText == "" ==> ChildrenOf(ChildrenOf(CellNode(kind, cellText))[0]) == []
    ensures cellText != "" ==> ChildrenOf(ChildrenOf(CellNode(kind, cellText))[0]) == [TextNode(cellText)]
    ensures BlockTexts(CellNode(kind, cellText)) == [cellText]
  {
    var p := ChildrenOf(CellNode(kind, cellText))[0];
    if cellText != "" {
      assert ChildrenText([TextNode(cellText)]) == cellText;
    }
    assert NodeText(p) == cellText;
  }
}

=== FILE: note_content.dfy ===
/** A note's body as the editor stores it: a JSON tree of `{type, attrs,
    text, content}` nodes, with the helpers of lib/utils.ts (validation,
    empty and single-paragraph documents, transformation prompts) and the
    recursive text extraction shared by the preview builder and the chat
    transport. */
module NoteContent {
  import opened Wrappers
  import opened Text

  /** The `text` property as persisted JSON can hold it: a string, a plain
      (non-array) object, `null`, or nothing. */
  datatype TextField = TextString(s: string) | TextObject | TextNull | TextAbsent

  /** What a node's `content` property holds: an array of child nodes, or
      no array at all (absent). */
  datatype Children = NotArray | Array(nodes: seq<Node>)

  /** One node of the document tree (`type`, `attrs`, `text`, `content`). */
  datatype Node = Node(kind: string, attrs: map<string, string>, text: TextField, content: Children)

  /** Any value handed to the validator or read back from storage: something
      that is not an object (`null`, a string, a number, ...), or an object
      with the node properties. A missing `type` is any string other than
      "doc". */
  datatype Candidate = NotObject | Object(node: Node)

  /** What JavaScript makes of a plain object when joining strings. */
  const ObjectString: string := "[object Object]"

  function TextNode(s: string): Node {
    Node("text", map[], TextString(s), NotArray)
  }

  function Block(kind: string, children: seq<Node>): Node {
    Node(kind, map[], TextAbsent, Array(children))
  }

  function ChildrenOf(n: Node): seq<Node> {
    if n.content.Array? then n.content.nodes else []
  }

  /** The shape every validated document has: `{type: 'doc', content: [...]}`. */
  predicate IsDoc(n: Node) {
    n.kind == "doc" && n.attrs == map[] && n.text == TextAbsent && n.content.Array?
  }

  /** A `text` node whose `text` is present but not a string (`typeof` says
      'object', which includes `null`). */
  predicate IsUnsafeTextNode(n: Node) {
    n.kind == "text" && (n.text.TextObject? || n.text.TextNull?)
  }

  // ------------------------------------------------------------- lib/utils.ts

  /** `createEmptyContent()`. */
  function CreateEmptyContent(): (r: Node)
    ensures IsDoc(r) && ChildrenOf(r) == []
  {
    Block("doc", [])
  }

  /** `createContentFromText(text)`: no block for the empty string, otherwise
      one paragraph holding one unmarked text node with the text verbatim. */
  function CreateContentFromText(text: string): (r: Node)
    ensures IsDoc(r)
    ensures text == "" ==> ChildrenOf(r) == []
    ensures text != "" ==> |ChildrenOf(r)| == 1
    ensures text != "" ==> ChildrenOf(r)[0].kind == "paragraph" && ChildrenOf(ChildrenOf(r)[0]) == [TextNode(text)]
  {
    Block("doc", if text != "" then [Block("paragraph", [TextNode(text)])] else [])
  }

  /** One top-level node after sanitizing: an unsafe text node becomes an
      empty text node, anything else is kept. */
  function SanitizeNode(n: Node): (r: Node)
    ensures !IsUnsafeTextNode(r)
    ensures IsUnsafeTextNode(n) ==> r == TextNode("")
    ensures !IsUnsafeTextNode(n) ==> r == n
  {
    if n.kind == "text" && n.text != TextAbsent then
      (if n.text.TextObject? || n.text.TextNull? then TextNode("") else n)
    else n
  }

  /** `validateAndSanitizeContent(content)`: the empty document for anything
      that is not an object of type 'doc' with an array of children;
      otherwise the same children, each top-level text node whose text is not
      a string replaced by an empty text node, nothing nested inspected. */
  function ValidateAndSanitize(c: Candidate): (r: Node)
    ensures IsDoc(r)
    ensures !(c.Object? && c.node.kind == "doc" && c.node.content.Array?) ==> ChildrenOf(r) == []
    ensures c.Object? && c.node.kind == "doc" && c.node.content.Array? ==>
      var nodes := c.node.content.nodes;
      && |ChildrenOf(r)| == |nodes|
      && forall i :: 0 <= i < |nodes| ==>
           ChildrenOf(r)[i] == (if IsUnsafeTextNode(nodes[i]) then TextNode("") else nodes[i])
    ensures forall i :: 0 <= i < |ChildrenOf(r)| ==> !IsUnsafeTextNode(ChildrenOf(r)[i])
  {
    if !c.Object? || c.node.kind != "doc" then CreateEmptyContent()
    else if !c.node.content.Array? then CreateEmptyContent()
    else
      var nodes := c.node.content.nodes;
      Block("doc", seq(|nodes|, i requires 0 <= i < |nodes| => SanitizeNode(nodes[i])))
  }

  /** Validating an already validated document changes nothing. */
  lemma {:induction false} ValidateIdempotent(c: Candidate)
    ensures ValidateAndSanitize(Object(ValidateAndSanitize(c))) == ValidateAndSanitize(c)
  {
    var d := ValidateAndSanitize(c);
    var e := ValidateAndSanitize(Object(d));
    assert ChildrenOf(e) == ChildrenOf(d);
  }

  /** A document that has no unsafe top-level text node survives validation
      unchanged. */
  lemma ValidateKeepsSafeDocument(d: Node)
    requires IsDoc(d)
    requires forall i :: 0 <= i < |ChildrenOf(d)| ==> !IsUnsafeTextNode(ChildrenOf(d)[i])
    ensures ValidateAndSanitize(Object(d)) == d
  {
    var e := ValidateAndSanitize(Object(d));
    assert ChildrenOf(e) == ChildrenOf(d);
  }

  /** What `generateTransformationPrompt` asks for, between its leading
      "Please " and its closing colon: the fixed wording of the seven known
      types, or "<type> the following text" for any other. */
  function TransformationRequest(kind: string): string {
    match kind
    case "summarize" => "summarize the following text in a clear and concise way"
    case "expand" => "expand on the following text, adding more detail and context"
    case "simplify" => "simplify the following text, making it easier to understand"
    case "formal" => "rewrite the following text in a more formal tone"
    case "casual" => "rewrite the following text in a more casual, conversational tone"
    case "bullet-points" => "convert the following text into bullet points"
    case "paragraph" => "convert the following bullet points or list into a flowing paragraph"
    case _ => kind + " the following text"
  }

  /** `generateTransformationPrompt(type, content)`: a polite request that
      ends in a colon, a blank line and the content verbatim. */
  function GenerateTransformationPrompt(kind: string, content: string): (r: string)
    ensures StartsWith(r, "Please ")
    ensures EndsWith(r, ":\n\n" + content)
  {
    var r := "Please " + TransformationRequest(kind) + ":\n\n" + content;
    StartsWithConcat("Please ", TransformationRequest(kind) + ":\n\n" + content);
    assert r == ("Please " + TransformationRequest(kind)) + (":\n\n" + content);
    EndsWithConcat("Please " + TransformationRequest(kind), ":\n\n" + content);
    r
  }

  /** The seven known types, each with its own fixed wording. */
  predicate IsKnownTransformation(kind: string) {
    kind in {"summarize", "expand", "simplify", "formal", "casual", "bullet-points", "paragraph"}
  }

  /** Any other type is asked for by its own name. */
  lemma UnknownTransformationPrompt(kind: string, content: string)
    requires !IsKnownTransformation(kind)
    ensures GenerateTransformationPrompt(kind, content) == "Please " + kind + " the following text:\n\n" + content
  {
    assert TransformationRequest(kind) == kind + " the following text";
  }

  /** Every prompt is the type's fixed instruction (the prompt for empty
      content) followed by the content verbatim. */
  lemma PromptIsInstructionThenContent(kind: string, content: string)
    ensures GenerateTransformationPrompt(kind, content) == GenerateTransformationPrompt(kind, "") + content
  {
    var head := "Please " + TransformationRequest(kind) + ":\n\n";
    assert GenerateTransformationPrompt(kind, "") == head + "";
    assert head + "" == head;
  }

  /** The content is recoverable from the prompt of any type. */
  lemma TransformationPromptContent(kind: string, content: string, other: string)
    requires GenerateTransformationPrompt(kind, content) == GenerateTransformationPrompt(kind, other)
    ensures content == other
  {
    var head := "Please " + TransformationRequest(kind) + ":\n\n";
    assert GenerateTransformationPrompt(kind, content) == head + content;
    assert GenerateTransformationPrompt(kind, other) == head + other;
    assert (head + content)[|head|..] == content;
    assert (head + other)[|head|..] == other;
  }

  // ---------------------------------------------------------- text extraction

  /** The text one node contributes (`extractText` in useNotes.ts and in the
      chat transport): a non-empty string `text` wins and the children are
      ignored; a plain-object `text` is stringified by the enclosing join;
      otherwise the children's contributions are concatenated. */
  function NodeText(n: Node): (r: string)
    ensures r == "" ==> !(n.text.TextString? && n.text.s != "") && !n.text.TextObject?
    ensures ((n.text.TextString? ==> n.text.s == "") && !n.text.TextObject? &&
             (n.content.Array? ==> n.content.nodes == [])) ==> r == ""
    decreases n
  {
    if n.text.TextString? && n.text.s != "" then n.text.s
    else if n.text.TextObject? then ObjectString
    else
      match n.content
      case Array(cs) => ChildrenText(cs)
      case NotArray => ""
  }

  /** The children's contributions joined with the empty string. */
  function ChildrenText(cs: seq<Node>): string
    decreases cs
  {
    if cs == [] then "" else NodeText(cs[0]) + ChildrenText(cs[1..])
  }

  /** The contribution of each top-level block, in order. */
  function BlockTexts(doc: Node): (r: seq<string>)
    ensures |r| == |ChildrenOf(doc)|
  {
    var cs := ChildrenOf(doc);
    seq(|cs|, i requires 0 <= i < |cs| => NodeText(cs[i]))
  }

  /** A single-paragraph document built from text gives that text back, and
      the empty text gives no block at all. */
  lemma CreatedContentText(text: string)
    ensures BlockTexts(CreateContentFromText(text)) == (if text == "" then [] else [text])
  {
    if text != "" {
      var p := Block("paragraph", [TextNode(text)]);
      assert ChildrenText([TextNode(text)]) == text;
      assert NodeText(p) == text;
    }
  }
}

=== FILE: note_store.dfy ===
/** The pure parts of app/hooks/useNotes.ts: the list preview derived from a
    note's content, the rule that decides whether stored content is kept on
    load, and the builder of the UPDATE statement's SET clause. */
module NoteStore {
  import opened Wrappers
  import opened Text
  import opened NoteContent

  const NewNotePlaceholder: string := "New note..."
  const PreviewLimit: nat := 80

  /** The blocks' texts joined with single spaces. */
  function FullText(doc: Node): string {
    Join(BlockTexts(doc), " ")
  }

  /** `extractPreviewFromContent`: the placeholder for a document without
      blocks or without text, the whole text up to 80 characters, and
      otherwise its first 80 characters followed by "...". */
  function Preview(doc: Node): (r: string)
    ensures |r| <= PreviewLimit + 3
    ensures r != ""
    ensures ChildrenOf(doc) == [] || FullText(doc) == "" ==> r == NewNotePlaceholder
    ensures ChildrenOf(doc) != [] && 0 < |FullText(doc)| <= PreviewLimit ==> r == FullText(doc)
    ensures ChildrenOf(doc) != [] && |FullText(doc)| > PreviewLimit ==>
      r == FullText(doc)[..PreviewLimit] + "..." && StartsWith(FullText(doc), r[..PreviewLimit])
  {
    if ChildrenOf(doc) == [] then NewNotePlaceholder
    else
      var full := FullText(doc);
      if |full| > PreviewLimit then full[..PreviewLimit] + "..."
      else if full != "" then full
      else NewNotePlaceholder
  }

  /** A note made from plain text previews as that text, cut at 80
      characters, or as the placeholder when the text is empty. */
  lemma PreviewOfText(text: string)
    ensures Preview(CreateContentFromText(text)) ==
      if text == "" then NewNotePlaceholder
      else if |text| <= PreviewLimit then text
      else text[..PreviewLimit] + "..."
  {
    CreatedContentText(text);
    if text != "" {
      assert FullText(CreateContentFromText(text)) == Join([text], " ") == text;
    }
  }

  /** A document with blocks but no text at all still previews as the
      spaces between its blocks: two empty paragraphs give " ". */
  lemma PreviewOfEmptyParagraphs()
    ensures Preview(Block("doc", [Block("paragraph", []), Block("paragraph", [])])) == " "
  {
    var doc := Block("doc", [Block("paragraph", []), Block("paragraph", [])]);
    assert NodeText(Block("paragraph", [])) == "";
    assert BlockTexts(doc) == ["", ""];
    assert FullText(doc) == "" + " " + "";
  }

  // ------------------------------------------------------------ loading

  /** The content-parse rule applied to every row read back: `parsed` is the
      outcome of `JSON.parse` on a string column (or the column's value
      itself); an object of type 'doc' is kept as it is, anything else and a
      parse failure give the empty document. */
  function LoadContent(parsed: Outcome<Candidate>): (r: Node)
    ensures r.kind == "doc"
    ensures parsed.Delivered? && parsed.value.Object? && parsed.value.node.kind == "doc" ==> r == parsed.value.node
    ensures !(parsed.Delivered? && parsed.value.Object? && parsed.value.node.kind == "doc") ==> r == CreateEmptyContent()
  {
    match parsed
    case Delivered(Object(n)) => if n.kind == "doc" then n else CreateEmptyContent()
    case _ => CreateEmptyContent()
  }

  /** Whatever the validator stored comes back unchanged. */
  lemma LoadStoredContent(c: Candidate)
    ensures LoadContent(Delivered(Object(ValidateAndSanitize(c)))) == ValidateAndSanitize(c)
  {
  }

  // ------------------------------------------------------------- updating

  /** A value bound to a placeholder. */
  datatype Param = TextParam(s: string) | DocParam(doc: Node)

  /** The fields `updateNote` may be given; `None` is `undefined`. */
  datatype NoteUpdate = NoteUpdate(title: Option<string>, content: Option<Candidate>, preview: Option<string>, timestamp: Option<string>)

  /** One `column = $n` assignment of the SET clause and its value. */
  datatype Assignment = Assignment(column: string, value: Param)

  /** The UPDATE statement and its parameters. */
  datatype UpdateQuery = UpdateQuery(sql: string, params: seq<Param>)

  /** The assignments an update asks for, in the order the statement lists
      them: title, content with the preview derived from the validated
      content, an explicit preview only when no content is given, then the
      timestamp. */
  function Assignments(u: NoteUpdate): (r: seq<Assignment>)
    ensures |r| <= 4
    ensures forall i, j :: 0 <= i < j < |r| ==> r[i].column != r[j].column
  {
    TitlePart(u) + ContentPart(u) + PreviewPart(u) + TimestampPart(u)
  }

  function TitlePart(u: NoteUpdate): seq<Assignment> {
    if u.title.Some? then [Assignment("title", TextParam(u.title.value))] else []
  }

  function ContentPart(u: NoteUpdate): seq<Assignment> {
    if u.content.Some? then
      var doc := ValidateAndSanitize(u.content.value);
      [Assignment("content", DocParam(doc)), Assignment("preview", TextParam(Preview(doc)))]
    else []
  }

  function PreviewPart(u: NoteUpdate): seq<Assignment> {
    if u.preview.Some? && u.content.None? then [Assignment("preview", TextParam(u.preview.value))] else []
  }

  function TimestampPart(u: NoteUpdate): seq<Assignment> {
    if u.timestamp.Some? then [Assignment("timestamp", TextParam(u.timestamp.value))] else []
  }

  function Placeholder(n: nat): string {
    "$" + NatToString(n)
  }

  /** One `column = $n` entry. */
  function Entry(column: string, n: nat): string {
    column + " = " + Placeholder(n)
  }

  /** The SET clause entries for a list of assignments, numbered from $1. */
  function SetEntries(a: seq<Assignment>): (r: seq<string>)
    ensures |r| == |a|
  {
    seq(|a|, i requires 0 <= i < |a| => Entry(a[i].column, i + 1))
  }

  function Values(a: seq<Assignment>): (r: seq<Param>)
    ensures |r| == |a|
  {
    seq(|a|, i requires 0 <= i < |a| => a[i].value)
  }

  /** Appending an assignment appends its numbered entry and its value. */
  lemma PushAssignment(a: seq<Assignment>, x: Assignment)
    ensures SetEntries(a + [x]) == SetEntries(a) + [Entry(x.column, |a| + 1)]
    ensures Values(a + [x]) == Values(a) + [x.value]
  {
    assert forall i :: 0 <= i < |a| ==> SetEntries(a + [x])[i] == SetEntries(a)[i];
  }

  /** One step of the builder: the next `column = $n` entry, its value, and
      the placeholder counter moved on. */
  method AddField(fields: seq<string>, values: seq<Param>, paramIndex: nat, ghost done: seq<Assignment>,
                  column: string, value: Param)
    returns (fields': seq<string>, values': seq<Param>, paramIndex': nat)
    requires fields == SetEntries(done) && values == Values(done) && paramIndex == |done| + 1
    ensures fields' == SetEntries(done + [Assignment(column, value)])
    ensures values' == Values(done + [Assignment(column, value)])
    ensures paramIndex' == |done| + 2
  {
    PushAssignment(done, Assignment(column, value));
    fields' := fields + [Entry(column, paramIndex)];
    paramIndex' := paramIndex + 1;
    values' := values + [value];
  }

  /** The builder's step for a new content: the validated content and the
      preview derived from it. */
  method AddContent(fields: seq<string>, values: seq<Param>, paramIndex: nat, ghost done: seq<Assignment>,
                    u: NoteUpdate)
    returns (fields': seq<string>, values': seq<Param>, paramIndex': nat)
    requires fields == SetEntries(done) && values == Values(done) && paramIndex == |done| + 1
    ensures fields' == SetEntries(done + ContentPart(u))
    ensures values' == Values(done + ContentPart(u))
    ensures paramIndex' == |done + ContentPart(u)| + 1
  {
    if u.content.None? {
      assert done + ContentPart(u) == done;
      return fields, values, paramIndex;
    }
    var validated := ValidateAndSanitize(u.content.value);
    var c := Assignment("content", DocParam(validated));
    fields', values', paramIndex' := AddField(fields, values, paramIndex, done, c.column, c.value);
    var preview := Preview(validated);
    var p := Assignment("preview", TextParam(preview));
    fields', values', paramIndex' := AddField(fields', values', paramIndex', done + [c], p.column, p.value);
    assert done + [c] + [p] == done + ContentPart(u);
  }

  /** The builder's step for a column that holds at most one assignment. */
  method AddPart(fields: seq<string>, values: seq<Param>, paramIndex: nat, ghost done: seq<Assignment>,
                 part: seq<Assignment>)
    returns (fields': seq<string>, values': seq<Param>, paramIndex': nat)
    requires |part| <= 1
    requires fields == SetEntries(done) && values == Values(done) && paramIndex == |done| + 1
    ensures fields' == SetEntries(done + part)
    ensures values' == Values(done + part)
    ensures paramIndex' == |done + part| + 1
  {
    if part == [] {
      assert done + part == done;
      return fields, values, paramIndex;
    }
    fields', values', paramIndex' := AddField(fields, values, paramIndex, done, part[0].column, part[0].value);
    assert done + part == done + [Assignment(part[0].column, part[0].value)];
  }

  /** The SET-clause builder of `updateNoteMutation`: no statement when
      nothing is to be written; otherwise the assignments numbered
      consecutively from $1, and the id bound to the next placeholder. */
  method BuildUpdate(id: string, u: NoteUpdate) returns (q: Option<UpdateQuery>)
    ensures q.None? <==> Assignments(u) == []
    ensures q.Some? ==>
      var a := Assignments(u);
      && q.value.sql == "UPDATE notes SET " + Join(SetEntries(a), ", ") + " WHERE id = " + Placeholder(|a| + 1)
      && q.value.params == Values(a) + [TextParam(id)]
  {
    var fields: seq<string> := [];
    var values: seq<Param> := [];
    var paramIndex: nat := 1;
    assert SetEntries([]) == [] && Values([]) == [];
    var t, p, ts := TitlePart(u), PreviewPart(u), TimestampPart(u);
    ghost var c := ContentPart(u);

    fields, values, paramIndex := AddPart(fields, values, paramIndex, [], t);
    assert [] + t == t;
    fields, values, paramIndex := AddContent(fields, values, paramIndex, t, u);
    fields, values, paramIndex := AddPart(fields, values, paramIndex, t + c, p);
    fields, values, paramIndex := AddPart(fields, values, paramIndex, t + c + p, ts);
    assert t + c + p + ts == Assignments(u);

    if |fields| == 0 {
      return None;
    }
    values := values + [TextParam(id)];
    q := Some(UpdateQuery("UPDATE notes SET " + Join(fields, ", ") + " WHERE id = " + Placeholder(paramIndex), values));
  }

  /** Where a column sits in the statement's fixed order. */
  function ColumnRank(column: string): nat {
    if column == "title" then 0
    else if column == "content" then 1
    else if column == "preview" then 2
    else 3
  }

  /** The ranks of a list of assignments' columns. */
  function Ranks(a: seq<Assignment>): (r: seq<nat>)
    ensures |r| == |a|
  {
    seq(|a|, i requires 0 <= i < |a| => ColumnRank(a[i].column))
  }

  predicate Increasing(r: seq<nat>) {
    forall i, j :: 0 <= i < j < |r| ==> r[i] < r[j]
  }

  lemma RanksConcat(a: seq<Assignment>, b: seq<Assignment>)
    ensures Ranks(a + b) == Ranks(a) + Ranks(b)
  {
  }

  /** The ranks each part of an update contributes. */
  lemma PartRanks(u: NoteUpdate)
    ensures Ranks(TitlePart(u)) == if u.title.Some? then [0] else []
    ensures Ranks(ContentPart(u)) == if u.content.Some? then [1, 2] else []
    ensures Ranks(PreviewPart(u)) == if u.preview.Some? && u.content.None? then [2] else []
    ensures Ranks(TimestampPart(u)) == if u.timestamp.Some? then [3] else []
  {
    assert ColumnRank("title") == 0 && ColumnRank("content") == 1;
    assert ColumnRank("preview") == 2 && ColumnRank("timestamp") == 3;
  }

  /** The four parts' ranks, in order, increase. */
  lemma PartRanksIncrease(x: seq<nat>, y: seq<nat>, z: seq<nat>, w: seq<nat>)
    requires x == [] || x == [0]
    requires y == [] || y == [1, 2]
    requires z == [] || z == [2]
    requires y == [] || z == []
    requires w == [] || w == [3]
    ensures Increasing(x + y + z + w)
  {
    var m := y + z;
    assert m == [] || m == [2] || m == [1, 2];
    assert x + y + z + w == x + m + w;
    if x == [] {
      assert x + m + w == m + w;
      if w == [] {
        assert m + w == m;
      }
    } else if w == [] {
      assert x + m + w == [0] + m;
    }
  }

  /** Increasing ranks order the columns and keep them apart. */
  lemma RanksOrderColumns(a: seq<Assignment>)
    requires Increasing(Ranks(a))
    ensures forall i, j :: 0 <= i < j < |a| ==> ColumnRank(a[i].column) < ColumnRank(a[j].column)
    ensures forall i, j :: 0 <= i < j < |a| ==> a[i].column != a[j].column
  {
    forall i, j | 0 <= i < j < |a| ensures ColumnRank(a[i].column) < ColumnRank(a[j].column) {
      assert Ranks(a)[i] < Ranks(a)[j];
    }
  }

  /** The assignments follow the fixed column order, so no column is
      assigned twice. */
  lemma AssignmentsOrdered(u: NoteUpdate)
    ensures forall i, j :: 0 <= i < j < |Assignments(u)| ==>
      ColumnRank(Assignments(u)[i].column) < ColumnRank(Assignments(u)[j].column)
    ensures forall i, j :: 0 <= i < j < |Assignments(u)| ==> Assignments(u)[i].column != Assignments(u)[j].column
  {
    var t, c, p, ts := TitlePart(u), ContentPart(u), PreviewPart(u), TimestampPart(u);
    RanksConcat(t, c);
    RanksConcat(t + c, p);
    RanksConcat(t + c + p, ts);
    PartRanks(u);
    PartRanksIncrease(Ranks(t), Ranks(c), Ranks(p), Ranks(ts));
    RanksOrderColumns(Assignments(u));
  }

  /** Nothing is written exactly when no field is given. */
  lemma NoFieldsNoStatement(u: NoteUpdate)
    ensures Assignments(u) == [] <==>
      u.title.None? && u.content.None? && u.preview.None? && u.timestamp.None?
  {
  }

  /** Whenever content is written, the preview written beside it is the one
      derived from the validated content, whatever preview was supplied. */
  lemma ContentDerivesPreview(u: NoteUpdate)
    requires u.content.Some?
    ensures exists i :: 0 <= i < |Assignments(u)| && Assignments(u)[i].column == "preview"
    ensures forall i :: 0 <= i < |Assignments(u)| && Assignments(u)[i].column == "preview" ==>
      Assignments(u)[i].value == TextParam(Preview(ValidateAndSanitize(u.content.value)))
  {
    var k := if u.title.Some? then 2 else 1;
    assert Assignments(u)[k].column == "preview";
  }
}

=== FILE: pdf_note_generation.dfy ===
/** The deterministic parts of `generateNoteFromPDF` in
    app/hooks/usePDFNoteGeneration.ts: the cut of long documents, the prompt
    sent to the model, the test that decides whether the PDF's own title is
    worth keeping, and the rules that turn the model's replies into a note
    or an error. The model is replaced by its replies. */
module PdfNoteGeneration {
  import opened Wrappers
  import opened Text
  import opened Prompts
  import Autocomplete

  const MaxChars: nat := 20000
  const ContinuesMarker: string := "\n\n[... document continues ...]"
  const LeadIn: string := "I have a PDF document with the following content:\n\n"

  const NoSupportError: string := "Your browser does not support built-in AI."
  const UnavailableError: string := "Built-in AI is not available on your device."
  const EmptyContentError: string := "Generated content is empty."

  /** `pdfMetadata`: the title and author as given (an absent or empty one
      counts as missing), and the page count. */
  datatype PdfMeta = PdfMeta(title: Option<string>, author: Option<string>, pageCount: int)

  /** The options of one generation; `generateTitle` defaults to true in the
      source. */
  datatype PdfNoteOptions = PdfNoteOptions(pdfText: string, meta: Option<PdfMeta>,
                                           customPrompt: Option<string>, generateTitle: bool)

  /** A call into the model: it answers with a text or throws an error with
      a message. */
  datatype Call = Answered(text: string) | Raised(message: string)

  /** What the generation resolves to, or the message it throws. */
  datatype NoteResult = Note(content: string, title: Option<string>) | NoteError(message: string)

  /** A string option that JavaScript treats as true: present and not
      empty. */
  predicate Truthy(o: Option<string>) {
    o.Some? && o.value != ""
  }

  // -------------------------------------------------------------- truncation

  /** The document text cut to 20000 characters, with a marker saying it
      goes on. */
  function Truncate(text: string): (r: string)
    ensures |text| <= MaxChars ==> r == text
    ensures |text| > MaxChars ==> |r| == MaxChars + |ContinuesMarker| && EndsWith(r, ContinuesMarker)
    ensures StartsWith(r, text[..if |text| <= MaxChars then |text| else MaxChars])
  {
    if |text| > MaxChars then
      EndsWithConcat(text[..MaxChars], ContinuesMarker);
      StartsWithConcat(text[..MaxChars], ContinuesMarker);
      text[..MaxChars] + ContinuesMarker
    else text
  }

  /** Cutting twice cuts no more than cutting once. */
  lemma TruncateIdempotent(text: string)
    ensures Truncate(Truncate(text)) == Truncate(text)
  {
    if |text| > MaxChars {
      var t := Truncate(text);
      assert t[..MaxChars] == text[..MaxChars];
    }
  }

  // ------------------------------------------------------------------ prompt

  const TitleLead: string := "Document Title: \""
  const AuthorLead: string := "Author: "

  /** The metadata lines put before the prompt: a title line, an author line
      when there is an author, and a page-count line; nothing without a
      title. */
  function MetadataHeader(meta: Option<PdfMeta>): (r: string)
    ensures r == "" <==> !(meta.Some? && Truthy(meta.value.title))
    ensures meta.Some? && Truthy(meta.value.title) ==> StartsWith(r, TitleLine(meta.value.title.value))
    ensures meta.Some? && Truthy(meta.value.title) ==>
      (Truthy(meta.value.author) <==> OccursAt(r, AuthorLead, |TitleLine(meta.value.title.value)|))
    ensures meta.Some? && Truthy(meta.value.title) && Truthy(meta.value.author) ==>
      OccursAt(r, AuthorLead + meta.value.author.value + "\n", |TitleLine(meta.value.title.value)|)
    ensures meta.Some? && Truthy(meta.value.title) ==> EndsWith(r, PagesLine(meta.value.pageCount))
    ensures meta.Some? && Truthy(meta.value.title) && Truthy(meta.value.author) ==>
      |r| == |TitleLine(meta.value.title.value)| + |AuthorLead| + |meta.value.author.value| + 1 + |PagesLine(meta.value.pageCount)|
    ensures meta.Some? && Truthy(meta.value.title) && !Truthy(meta.value.author) ==>
      |r| == |TitleLine(meta.value.title.value)| + |PagesLine(meta.value.pageCount)|
  {
    if meta.Some? && Truthy(meta.value.title) then
      var t, a, p := TitleLine(meta.value.title.value), AuthorLine(meta.value), PagesLine(meta.value.pageCount);
      ThreeParts(t, a, p);
      assert p[..1] == "P";
      AuthorLineAt(t, meta.value, p);
      t + a + p
    else ""
  }

  /** The title line: the title in quotes after its label. */
  function TitleLine(title: string): (r: string)
    ensures StartsWith(r, TitleLead)
    ensures OccursAt(r, title, |TitleLead|)
    ensures EndsWith(r, "\"\n")
    ensures |r| == |TitleLead| + |title| + 2
  {
    ThreeParts(TitleLead, title, "\"\n");
    TitleLead + title + "\"\n"
  }

  /** The author line, only when there is an author. */
  function AuthorLine(m: PdfMeta): string {
    if Truthy(m.author) then AuthorLead + m.author.value + "\n" else ""
  }

  function PagesLine(pageCount: int): string {
    "Pages: " + IntToString(pageCount) + "\n\n"
  }

  /** After the title line, "Author: " stands exactly when there is an
      author: otherwise the pages line begins there with 'P'. */
  lemma AuthorLineAt(t: string, m: PdfMeta, p: string)
    requires StartsWith(p, "P")
    ensures Truthy(m.author) <==> OccursAt(t + AuthorLine(m) + p, AuthorLead, |t|)
  {
    var a := AuthorLine(m);
    if Truthy(m.author) {
      assert (t + a + p)[|t|..|t| + |AuthorLead|] == a[..|AuthorLead|];
    } else {
      assert (t + a + p)[|t|] == p[0] == 'P';
    }
  }

  /** What the model is asked to do with the document: the user's request
      after "Please ", or the fixed note-writing instructions. */
  function Instruction(customPrompt: Option<string>): string {
    if Truthy(customPrompt) then "\n\nPlease " + customPrompt.value else "\n\n" + PdfAutoPrompt
  }

  /** The prompt for the note: the metadata lines, the lead-in, the
      (possibly cut) document text and the instruction. */
  function Prompt(o: PdfNoteOptions): (r: string)
    ensures StartsWith(r, MetadataHeader(o.meta) + LeadIn)
    ensures OccursAt(r, Truncate(o.pdfText), |MetadataHeader(o.meta)| + |LeadIn|)
    ensures EndsWith(r, Instruction(o.customPrompt))
    ensures |r| == |MetadataHeader(o.meta)| + |LeadIn| + |Truncate(o.pdfText)| + |Instruction(o.customPrompt)|
  {
    ThreeParts(MetadataHeader(o.meta) + LeadIn, Truncate(o.pdfText), Instruction(o.customPrompt));
    MetadataHeader(o.meta) + LeadIn + Truncate(o.pdfText) + Instruction(o.customPrompt)
  }

  /** The prompt carries the document: two option sets that differ only in
      their text give the same prompt only when the cut texts agree. */
  lemma PromptDeterminesDocument(o: PdfNoteOptions, text: string)
    requires Prompt(o) == Prompt(o.(pdfText := text))
    ensures Truncate(o.pdfText) == Truncate(text)
  {
    var k := |MetadataHeader(o.meta)| + |LeadIn|;
    var p := Prompt(o);
    var q := Prompt(o.(pdfText := text));
    assert |Truncate(o.pdfText)| == |p| - k - |Instruction(o.customPrompt)|;
    assert |Truncate(text)| == |q| - k - |Instruction(o.customPrompt)|;
  }

  /** The prompt that asks for a title, given the first 1000 characters of
      the generated note. */
  function TitlePrompt(content: string): (r: string)
    ensures StartsWith(r, TitleRequest)
    ensures OccursAt(r, content[..if |content| <= 1000 then |content| else 1000], |TitleRequest|)
    ensures EndsWith(r, TitleInstruction)
    ensures |r| == |TitleRequest| + (if |content| <= 1000 then |content| else 1000) + |TitleInstruction|
  {
    var excerpt := content[..if |content| <= 1000 then |content| else 1000];
    ThreeParts(TitleRequest, excerpt, TitleInstruction);
    TitleRequest + excerpt + TitleInstruction
  }

  const TitleInstruction: string := "\n\nOnly return the title, nothing else, no explanation, and no quotes."

  const TitleRequest: string :=
    "Generate a concise, descriptive title for notes based on this content. Maximum 10 words or 80 characters.\n"
    + "            \nContent: "

  // ------------------------------------------------------ metadata titles

  /** The number of `.digits` groups `s` consists of, if it consists of such
      groups only: the regular expression `(\.\d+)*` matched against the
      whole of `s`. The digits of a group are taken greedily, which loses
      nothing because the next group must begin with a dot. */
  function DotGroups(s: string): Option<nat>
    decreases |s|
  {
    if s == [] then Some(0)
    else if s[0] == '.' && DigitRun(s[1..]) >= 1 then
      match DotGroups(s[1 + DigitRun(s[1..])..])
      case Some(k) => Some(k + 1)
      case None => None
    else None
  }

  /** The version test as written, `/^[A-Z]?\d+(\.\d+){1,3}$/`: an optional
      capital, digits, then one to three `.digits` groups. A capital at the
      start must be the optional one, since digits cannot match it. */
  predicate IsVersionNumber(s: string)
    ensures IsVersionNumber(s) ==> |s| >= 3 && (IsUpper(s[0]) || IsDigit(s[0]))
  {
    var body := if s != [] && IsUpper(s[0]) then s[1..] else s;
    VersionDigits(body)
  }

  /** Digits followed by one to three `.digits` groups, and nothing else. */
  predicate VersionDigits(body: string) {
    var n := DigitRun(body);
    n >= 1 && DotGroups(body[n..]).Some? && 1 <= DotGroups(body[n..]).value <= 3
  }

  predicate IsCodeSeparator(c: char) {
    c == '.' || c == '-'
  }

  /** The length of the run of capitals at the start of `s`. */
  function UpperRun(s: string): (n: nat)
    ensures n <= |s|
    ensures forall i :: 0 <= i < n ==> IsUpper(s[i])
    ensures n < |s| ==> !IsUpper(s[n])
  {
    if s != [] && IsUpper(s[0]) then 1 + UpperRun(s[1..]) else 0
  }

  function SeparatorCount(s: string): nat {
    if s == [] then 0 else (if IsCodeSeparator(s[0]) then 1 else 0) + SeparatorCount(s[1..])
  }

  /** The reference-code test, `/^[A-Z]{1,3}[\.\-]?\d+[\.\-]?\d*[\.\-]?\d*$/`:
      one to three capitals (the whole run of them, as nothing after may be
      a capital), an optional separator, then a digit followed by digits and
      at most two more separators in any arrangement. */
  predicate IsReferenceCode(s: string)
    ensures IsReferenceCode(s) ==> |s| >= 2 && IsUpper(s[0])
    ensures IsReferenceCode(s) ==> forall i :: 0 <= i < |s| ==> IsUpper(s[i]) || IsDigit(s[i]) || IsCodeSeparator(s[i])
  {
    var u := UpperRun(s);
    1 <= u <= 3 &&
    var rest := s[u..];
    var digits := if rest != [] && IsCodeSeparator(rest[0]) then rest[1..] else rest;
    digits != [] && IsDigit(digits[0]) &&
    (forall i :: 0 <= i < |digits| ==> IsDigit(digits[i]) || IsCodeSeparator(digits[i])) &&
    SeparatorCount(digits) <= 2
  }

  /** The metadata title's length test, on the untrimmed title. */
  predicate TitleWithinLimits(meta: Option<PdfMeta>) {
    meta.Some? && Truthy(meta.value.title) && 5 <= |meta.value.title.value| <= 80
  }

  /** `hasValidMetadataTitle`: a title of 5 to 80 characters that, once
      trimmed, is neither a version number nor a reference code. A title of
      the right length whose trimmed form is empty or starts with neither a
      capital nor a digit is always kept. */
  predicate HasValidMetadataTitle(meta: Option<PdfMeta>)
    ensures HasValidMetadataTitle(meta) ==> TitleWithinLimits(meta)
    ensures TitleWithinLimits(meta) &&
      (Trim(meta.value.title.value) == "" ||
       !(IsUpper(Trim(meta.value.title.value)[0]) || IsDigit(Trim(meta.value.title.value)[0])))
      ==> HasValidMetadataTitle(meta)
  {
    TitleWithinLimits(meta)
    && !IsVersionNumber(Trim(meta.value.title.value))
    && !IsReferenceCode(Trim(meta.value.title.value))
  }

  /** "1.2.3" is a version number. */
  lemma PlainVersionIsVersion()
    ensures IsVersionNumber("1.2.3")
  {
    assert DigitRun("3") == 1;
    assert DotGroups(".3") == Some(1);
    assert DigitRun("2.3") == 1;
    assert DotGroups(".2.3") == Some(2);
    assert DigitRun("1.2.3") == 1;
  }

  /** "R.2.14.0" is not a version number, since no dot may follow the
      capital, but it is a reference code: one capital, a separator, and
      digits with two more separators. */
  lemma DottedLabelIsNoVersion()
    ensures !IsVersionNumber("R.2.14.0")
  {
  }

  lemma DottedLabelIsReferenceCode()
    ensures IsReferenceCode("R.2.14.0")
  {
    assert UpperRun(".2.14.0") == 0;
    assert UpperRun("R.2.14.0") == 1;
    assert SeparatorCount("0") == 0;
    assert SeparatorCount(".0") == 1;
    assert SeparatorCount("14.0") == 1;
    assert SeparatorCount("2.14.0") == 2;
    var digits := "2.14.0";
    assert "R.2.14.0"[1..][1..] == digits;
    assert digits[0] == '2' && digits[1] == '.' && digits[2] == '1';
    assert digits[3] == '4' && digits[4] == '.' && digits[5] == '0';
    forall i | 0 <= i < |digits| ensures IsDigit(digits[i]) || IsCodeSeparator(digits[i]) {
    }
  }

  /** "AB-123" is a reference code. */
  lemma HyphenatedCodeIsReferenceCode()
    ensures IsReferenceCode("AB-123")
  {
    assert UpperRun("-123") == 0;
    assert UpperRun("B-123") == 1;
    assert UpperRun("AB-123") == 2;
    assert SeparatorCount("123") == 0;
    var digits := "123";
    assert "AB-123"[2..][1..] == digits;
    assert digits[0] == '1' && digits[1] == '2' && digits[2] == '3';
    forall i | 0 <= i < |digits| ensures IsDigit(digits[i]) || IsCodeSeparator(digits[i]) {
    }
  }

  /** A title without surrounding spaces that is a version number or a
      reference code is refused. */
  lemma CodeIsNoTitle(meta: Option<PdfMeta>)
    requires meta.Some? && meta.value.title.Some? && NoWhitespace(meta.value.title.value)
    requires IsVersionNumber(meta.value.title.value) || IsReferenceCode(meta.value.title.value)
    ensures !HasValidMetadataTitle(meta)
  {
    TrimOfNoWhitespace(meta.value.title.value);
  }

  /** None of the examples named beside the two tests passes as a title:
      "AB-123" and "R.2.14.0" are reference codes, "1.2.3" a version. */
  lemma DottedLabelIsNoTitle(meta: Option<PdfMeta>)
    requires meta.Some? && meta.value.title == Some("R.2.14.0")
    ensures !HasValidMetadataTitle(meta)
  {
    var t := meta.value.title.value;
    assert t[0] == 'R' && t[1] == '.' && t[2] == '2' && t[3] == '.';
    assert t[4] == '1' && t[5] == '4' && t[6] == '.' && t[7] == '0';
    forall i | 0 <= i < |t| ensures !IsWhitespace(t[i]) {
    }
    DottedLabelIsReferenceCode();
    CodeIsNoTitle(meta);
  }

  lemma HyphenatedCodeIsNoTitle(meta: Option<PdfMeta>)
    requires meta.Some? && meta.value.title == Some("AB-123")
    ensures !HasValidMetadataTitle(meta)
  {
    var t := meta.value.title.value;
    assert t[0] == 'A' && t[1] == 'B' && t[2] == '-';
    assert t[3] == '1' && t[4] == '2' && t[5] == '3';
    forall i | 0 <= i < |t| ensures !IsWhitespace(t[i]) {
    }
    HyphenatedCodeIsReferenceCode();
    CodeIsNoTitle(meta);
  }

  lemma PlainVersionIsNoTitle(meta: Option<PdfMeta>)
    requires meta.Some? && meta.value.title == Some("1.2.3")
    ensures !HasValidMetadataTitle(meta)
  {
    var t := meta.value.title.value;
    assert t[0] == '1' && t[1] == '.' && t[2] == '2' && t[3] == '.' && t[4] == '3';
    forall i | 0 <= i < |t| ensures !IsWhitespace(t[i]) {
    }
    PlainVersionIsVersion();
    CodeIsNoTitle(meta);
  }

  /** A capital followed by a small letter starts neither a version number
      nor a reference code. */
  lemma CapitalisedWordIsNoCode(s: string)
    requires |s| >= 2 && IsUpper(s[0]) && IsLower(s[1])
    ensures !IsVersionNumber(s) && !IsReferenceCode(s)
  {
    assert DigitRun(s[1..]) == 0;
    assert UpperRun(s[1..]) == 0;
    assert UpperRun(s) == 1;
    assert s[1..][0] == s[1];
  }

  /** An ordinary capitalised word of 5 to 80 letters, without spaces around
      it, is kept as the title. */
  lemma WordIsTitle(meta: Option<PdfMeta>)
    requires meta.Some? && meta.value.title.Some?
    requires var t := meta.value.title.value;
      5 <= |t| <= 80 && NoWhitespace(t) && IsUpper(t[0]) && IsLower(t[1])
    ensures HasValidMetadataTitle(meta)
  {
    var t := meta.value.title.value;
    TrimOfNoWhitespace(t);
    CapitalisedWordIsNoCode(t);
  }

  /** Counting the dots a run of digits does not change. */
  lemma {:induction false} CountAfterDigits(s: string, n: nat)
    requires n <= |s| && AllDigits(s[..n])
    ensures Count(s, '.') == Count(s[n..], '.')
  {
    if n > 0 {
      assert s[1..][..n - 1] == s[1..n];
      CountAfterDigits(s[1..], n - 1);
      assert s[1..][n - 1..] == s[n..];
    }
  }

  /** A string of `.digits` groups has one dot per group. */
  lemma {:induction false} DotGroupsCount(s: string)
    requires DotGroups(s).Some?
    ensures Count(s, '.') == DotGroups(s).value
    decreases |s|
  {
    if s != [] {
      var n := DigitRun(s[1..]);
      DotGroupsCount(s[1 + n..]);
      CountAfterDigits(s[1..], n);
      assert s[1..][n..] == s[1 + n..];
    }
  }

  /** A version number has one to three dots. */
  lemma VersionNumberDots(s: string)
    requires IsVersionNumber(s)
    ensures 1 <= Count(s, '.') <= 3
  {
    var body := if s != [] && IsUpper(s[0]) then s[1..] else s;
    var n := DigitRun(body);
    DotGroupsCount(body[n..]);
    CountAfterDigits(body, n);
    if s != [] && IsUpper(s[0]) {
      assert Count(s, '.') == Count(body, '.');
    }
  }

  // ------------------------------------------------------------ generation

  /** `generateNoteFromPDF` once the browser's support and the model's
      availability are known: `downloadError` is the error of the model
      download when it fails, `reply` answers `Prompt(o)` and `titleReply`
      answers `TitlePrompt` of the generated content. The title is looked
      for only when asked for and the content is not blank; a usable
      metadata title is kept verbatim, otherwise the model's title is
      trimmed. Blank content is an error. */
  function GenerateNoteFromPdf(o: PdfNoteOptions, supported: bool, availability: Autocomplete.Availability,
                               downloadError: Option<string>, reply: Call, titleReply: Call): (r: NoteResult)
    ensures !supported ==> r == NoteError(NoSupportError)
    ensures supported && availability.Unavailable? ==> r == NoteError(UnavailableError)
    ensures r.Note? ==> reply == Answered(r.content) && !IsBlank(r.content)
    ensures r.Note? ==> (r.title.Some? <==> o.generateTitle)
    ensures r.Note? && r.title.Some? && HasValidMetadataTitle(o.meta) ==> r.title.value == o.meta.value.title.value
    ensures r.Note? && r.title.Some? && !HasValidMetadataTitle(o.meta) ==>
      titleReply.Answered? && r.title.value == Trim(titleReply.text)
    ensures (supported && !availability.Unavailable? && !(availability.Downloadable? && downloadError.Some?) &&
             reply.Answered? && IsBlank(reply.text)) ==> r == NoteError(EmptyContentError)
    ensures supported && availability.Downloadable? && downloadError.Some? ==> r == NoteError(downloadError.value)
    ensures (supported && !availability.Unavailable? && !(availability.Downloadable? && downloadError.Some?) &&
             reply.Raised?) ==> r == NoteError(reply.message)
    ensures (supported && !availability.Unavailable? && !(availability.Downloadable? && downloadError.Some?) &&
             reply.Answered? && !IsBlank(reply.text) && o.generateTitle && !HasValidMetadataTitle(o.meta) &&
             titleReply.Raised?) ==> r == NoteError(titleReply.message)
    ensures (supported && !availability.Unavailable? && !(availability.Downloadable? && downloadError.Some?) &&
             reply.Answered? && !IsBlank(reply.text) &&
             (o.generateTitle && !HasValidMetadataTitle(o.meta) ==> titleReply.Answered?)) ==> r.Note?
  {
    if !supported then NoteError(NoSupportError)
    else if availability.Unavailable? then NoteError(UnavailableError)
    else if availability.Downloadable? && downloadError.Some? then NoteError(downloadError.value)
    else if reply.Raised? then NoteError(reply.message)
    else
      var content := reply.text;
      if o.generateTitle && !IsBlank(content) then
        if HasValidMetadataTitle(o.meta) then Note(content, Some(o.meta.value.title.value))
        else if titleReply.Raised? then NoteError(titleReply.message)
        else Note(content, Some(Trim(titleReply.text)))
      else if IsBlank(content) then NoteError(EmptyContentError)
      else Note(content, None)
  }

  /** A title given to a note is either a metadata title of 5 to 80
      characters or a trimmed model reply. */
  lemma NoteTitleShape(o: PdfNoteOptions, supported: bool, availability: Autocomplete.Availability,
                       downloadError: Option<string>, reply: Call, titleReply: Call)
    requires GenerateNoteFromPdf(o, supported, availability, downloadError, reply, titleReply).Note?
    requires GenerateNoteFromPdf(o, supported, availability, downloadError, reply, titleReply).title.Some?
    ensures var t := GenerateNoteFromPdf(o, supported, availability, downloadError, reply, titleReply).title.value;
      (5 <= |t| <= 80) || (t != [] ==> !IsWhitespace(t[0]) && !IsWhitespace(t[|t| - 1]))
  {
    if !HasValidMetadataTitle(o.meta) {
      var t := Trim(titleReply.text);
      assert t != [] ==> !IsWhitespace(t[0]) && !IsWhitespace(t[|t| - 1]);
    }
  }
}

=== FILE: pdf_processing.dfy ===
/** The bookkeeping of `extractTextFromPDF` in app/hooks/usePDFProcessing.ts:
    which files are accepted, how many pages are read, how each page's text
    items become one labelled block, and the result, metadata and messages.
    The PDF library is replaced by what it yields: whether it loaded, the
    outcome of opening the document, and for each page either its text
    items or a failure. */
module PdfProcessing {
  import opened Wrappers
  import opened Text

  const DefaultMaxPages: int := 100
  const MaxFileSize: nat := 50 * 1024 * 1024

  /** The `File` properties the checks read. */
  datatype FileInfo = FileInfo(mimeType: string, name: string, size: nat)

  /** An entry of a page's text content: a text item with `str`, or a
      marked-content item without it. */
  datatype TextItem = StrItem(str: string) | MarkedContent

  /** What reading one page gives: its items, or an error. */
  datatype PageRead = PageItems(items: seq<TextItem>) | PageFailed

  /** The document's `info` dictionary as `getMetadata` reports it; an
      empty string stands for a missing or falsy entry. */
  datatype InfoRead = MetadataFailed | NoInfo | Info(title: string, author: string, subject: string, creator: string)

  /** An opened document: its pages in order and its metadata. */
  datatype PdfDocument = PdfDocument(pages: seq<PageRead>, info: InfoRead)

  datatype Metadata = Metadata(title: Option<string>, author: Option<string>, subject: Option<string>,
                               creator: Option<string>, pageCount: nat)

  /** The result of a successful extraction, with the warning and success
      messages shown beside it. */
  datatype Extraction = Extraction(text: string, metadata: Metadata, warning: Option<string>, success: string)

  datatype PdfResult = Extracted(value: Extraction) | Failed(message: string)

  const LibraryError: string := "Failed to load PDF library."
  const TypeError: string := "Please upload a valid PDF file."
  const SizeError: string := "PDF file is too large. Maximum size is 10MB."
  const NoTextError: string := "Could not extract text from PDF. It might be a scanned document or image-based PDF."

  /** `maxPages` as the options give it, 100 when absent. */
  function MaxPagesOption(o: Option<int>): int {
    if o.Some? then o.value else DefaultMaxPages
  }

  /** The type check: a MIME type mentioning pdf, or a name ending in .pdf
      in any letter case. */
  predicate IsPdfFile(file: FileInfo)
    ensures EndsWith(file.name, ".pdf") || EndsWith(file.name, ".PDF") ==> IsPdfFile(file)
  {
    PdfSuffixLowered(file.name);
    Contains(file.mimeType, "pdf") || EndsWith(LowerAscii(file.name), ".pdf")
  }

  /** Lower-casing keeps a ".pdf" ending and turns ".PDF" into one. */
  lemma PdfSuffixLowered(name: string)
    ensures EndsWith(name, ".pdf") || EndsWith(name, ".PDF") ==> EndsWith(LowerAscii(name), ".pdf")
  {
    if EndsWith(name, ".pdf") || EndsWith(name, ".PDF") {
      var k := |name| - 4;
      assert LowerAscii(name)[k..] == [LowerChar(name[k]), LowerChar(name[k + 1]), LowerChar(name[k + 2]), LowerChar(name[k + 3])];
    }
  }

  function Min(a: int, b: int): int {
    if a <= b then a else b
  }

  /** `Math.min(numPages, maxPages)`. */
  function TotalPages(doc: PdfDocument, maxPages: int): (r: int)
    ensures r <= |doc.pages| && r <= maxPages
    ensures r == |doc.pages| || r == maxPages
  {
    Min(|doc.pages|, maxPages)
  }

  /** A page's text: each item's `str`, or "" for items without one, joined
      with single spaces. */
  function PageText(items: seq<TextItem>): string {
    Join(seq(|items|, i requires 0 <= i < |items| => if items[i].StrItem? then items[i].str else ""), " ")
  }

  function PageHeader(pageNum: nat): string {
    "\n=== Page " + NatToString(pageNum) + " ===\n"
  }

  /** What page `pageNum` adds to the text: its trimmed text under a header,
      or nothing when it failed or holds only whitespace. */
  function Contribution(pageNum: nat, read: PageRead): Option<string> {
    if read.PageItems? && !IsBlank(PageText(read.items)) then Some(PageHeader(pageNum) + Trim(PageText(read.items)))
    else None
  }

  /** The values present in a sequence of options, in order. */
  function Present(cs: seq<Option<string>>): (r: seq<string>)
    ensures |r| <= |cs|
  {
    if cs == [] then []
    else Present(cs[..|cs| - 1]) + (if cs[|cs| - 1].Some? then [cs[|cs| - 1].value] else [])
  }

  /** Taking the values of a concatenation takes each half's, in order. */
  lemma {:induction false} PresentAppend(a: seq<Option<string>>, b: seq<Option<string>>)
    ensures Present(a + b) == Present(a) + Present(b)
    decreases |b|
  {
    if b == [] {
      assert a + b == a;
    } else {
      var init := b[..|b| - 1];
      PresentAppend(a, init);
      assert (a + b)[..|a + b| - 1] == a + init;
      assert (a + b)[|a + b| - 1] == b[|b| - 1];
    }
  }

  /** One position gives its value, or nothing. */
  lemma PresentOne(c: Option<string>)
    ensures Present([c]) == if c.Some? then [c.value] else []
  {
    assert [c][..0] == [];
  }

  /** What each of pages 1..n adds. */
  function PageContributions(pages: seq<PageRead>, n: nat): (r: seq<Option<string>>)
    requires n <= |pages|
    ensures |r| == n
  {
    seq(n, i requires 0 <= i < n => Contribution(i + 1, pages[i]))
  }

  /** The contributions of pages 1..n, in page order. */
  function Contributions(pages: seq<PageRead>, n: nat): (r: seq<string>)
    requires n <= |pages|
    ensures |r| <= n
  {
    Present(PageContributions(pages, n))
  }

  lemma PageContributionsPush(pages: seq<PageRead>, n: nat)
    requires n < |pages|
    ensures PageContributions(pages, n + 1) == PageContributions(pages, n) + [Contribution(n + 1, pages[n])]
    ensures PageContributions(pages, n + 1)[..n] == PageContributions(pages, n)
  {
    assert PageContributions(pages, n + 1)[..n] == PageContributions(pages, n);
  }

  function Metadata0(doc: PdfDocument): Metadata {
    var info := doc.info;
    if info.Info? then
      Metadata(NonEmptyOr(info.title), NonEmptyOr(info.author), NonEmptyOr(info.subject), NonEmptyOr(info.creator), |doc.pages|)
    else Metadata(None, None, None, None, |doc.pages|)
  }

  /** `value || undefined`. */
  function NonEmptyOr(s: string): Option<string> {
    if s != "" then Some(s) else None
  }

  function SuccessMessage(totalPages: int): string {
    "Successfully extracted text from " + IntToString(totalPages) + " page" + (if totalPages > 1 then "s" else "") + "."
  }

  function WarningMessage(maxPages: int, numPages: nat): string {
    "Only processed first " + IntToString(maxPages) + " pages of " + NatToString(numPages) + " total pages."
  }

  /** `extractTextFromPDF(file, {maxPages})`. */
  method ExtractTextFromPdf(file: FileInfo, libraryLoaded: bool, loading: Outcome<PdfDocument>,
                            openError: string, maxPagesOption: Option<int>) returns (r: PdfResult)
    ensures !libraryLoaded ==> r == Failed(LibraryError)
    ensures libraryLoaded && !IsPdfFile(file) ==> r == Failed(TypeError)
    ensures libraryLoaded && IsPdfFile(file) && file.size > MaxFileSize ==> r == Failed(SizeError)
    ensures libraryLoaded && IsPdfFile(file) && file.size <= MaxFileSize && loading.Threw? ==> r == Failed(openError)
    ensures libraryLoaded && IsPdfFile(file) && file.size <= MaxFileSize && loading.Delivered? ==>
      var doc := loading.value;
      var maxPages := MaxPagesOption(maxPagesOption);
      var total := TotalPages(doc, maxPages);
      var text := Join(Contributions(doc.pages, if total < 0 then 0 else total), "\n\n");
      && (IsBlank(text) ==> r == Failed(NoTextError))
      && (!IsBlank(text) ==> r == Extracted(Extraction(text, Metadata0(doc),
              if |doc.pages| > maxPages then Some(WarningMessage(maxPages, |doc.pages|)) else None,
              SuccessMessage(total))))
  {
    if !libraryLoaded {
      return Failed(LibraryError);
    }
    if !Contains(file.mimeType, "pdf") && !EndsWith(LowerAscii(file.name), ".pdf") {
      return Failed(TypeError);
    }
    if file.size > MaxFileSize {
      return Failed(SizeError);
    }
    if loading.Threw? {
      return Failed(openError);
    }
    var maxPages := MaxPagesOption(maxPagesOption);
    var doc := loading.value;
    var numPages := |doc.pages|;
    var totalPages := Min(numPages, maxPages);
    var metadata := ReadMetadata(doc);
    var textParts := CollectPages(doc.pages, totalPages);
    var text := Join(textParts, "\n\n");
    if IsBlank(text) {
      return Failed(NoTextError);
    }
    var warning: Option<string> := None;
    if numPages > maxPages {
      warning := Some(WarningMessage(maxPages, numPages));
    }
    r := Extracted(Extraction(text, metadata, warning, SuccessMessage(totalPages)));
  }

  /** Reading one more page appends its block when it has text, and
      otherwise skips it: the blocks stay in page order. */
  lemma ContributionsPush(pages: seq<PageRead>, n: nat)
    requires n < |pages|
    ensures HasText(pages[n]) ==>
      Contributions(pages, n + 1) == Contributions(pages, n) + [PageHeader(n + 1) + Trim(PageText(pages[n].items))]
    ensures !HasText(pages[n]) ==> Contributions(pages, n + 1) == Contributions(pages, n)
  {
    PageContributionsPush(pages, n);
    PresentAppend(PageContributions(pages, n), [Contribution(n + 1, pages[n])]);
    PresentOne(Contribution(n + 1, pages[n]));
  }

  /** The metadata step: the page count, and the four `info` entries that
      are present and non-empty. */
  method ReadMetadata(doc: PdfDocument) returns (metadata: Metadata)
    ensures metadata == Metadata0(doc)
  {
    metadata := Metadata(None, None, None, None, |doc.pages|);
    if doc.info.Info? {
      metadata := metadata.(title := NonEmptyOr(doc.info.title));
      metadata := metadata.(author := NonEmptyOr(doc.info.author));
      metadata := metadata.(subject := NonEmptyOr(doc.info.subject));
      metadata := metadata.(creator := NonEmptyOr(doc.info.creator));
    }
  }

  /** The page loop: pages 1..totalPages are read in order, and each one's
      contribution, if any, is appended. */
  method CollectPages(pages: seq<PageRead>, totalPages: int) returns (textParts: seq<string>)
    requires totalPages <= |pages|
    ensures textParts == Contributions(pages, if totalPages < 0 then 0 else totalPages)
  {
    textParts := [];
    var pageNum := 1;
    assert PageContributions(pages, 0) == [];
    while pageNum <= totalPages
      invariant 1 <= pageNum <= (if totalPages < 0 then 0 else totalPages) + 1
      invariant textParts == Contributions(pages, pageNum - 1)
    {
      var read := pages[pageNum - 1];
      PageContributionsPush(pages, pageNum - 1);
      if read.PageItems? {
        var pageText := PageText(read.items);
        if !IsBlank(pageText) {
          textParts := textParts + [PageHeader(pageNum) + Trim(pageText)];
        }
      }
      pageNum := pageNum + 1;
    }
  }

  /** The text is blank exactly when no page contributed: every contribution
      carries a visible header. */
  lemma BlankIffNoContributions(pages: seq<PageRead>, n: nat)
    requires n <= |pages|
    ensures IsBlank(Join(Contributions(pages, n), "\n\n")) <==> Contributions(pages, n) == []
  {
    var cs := PageContributions(pages, n);
    forall i | 0 <= i < |cs| && cs[i].Some? ensures |cs[i].value| >= 2 && cs[i].value[1] == '=' {
      assert cs[i] == Contribution(i + 1, pages[i]);
      ContributionHeader(i + 1, pages[i]);
    }
    BlankIffNonePresent(cs);
  }

  /** When every value present has '=' as its second character, the values
      joined are blank exactly when there are none. */
  lemma BlankIffNonePresent(cs: seq<Option<string>>)
    requires forall i :: 0 <= i < |cs| && cs[i].Some? ==> |cs[i].value| >= 2 && cs[i].value[1] == '='
    ensures IsBlank(Join(Present(cs), "\n\n")) <==> Present(cs) == []
  {
    var parts := Present(cs);
    if parts != [] {
      PresentFrom(cs, 0);
      JoinOfVisibleFirst(parts, "\n\n");
    } else {
      assert Join(parts, "\n\n") == "";
    }
  }

  /** A join whose first part has a visible second character is not blank. */
  lemma JoinOfVisibleFirst(parts: seq<string>, sep: string)
    requires parts != [] && |parts[0]| >= 2 && !IsWhitespace(parts[0][1])
    ensures !IsBlank(Join(parts, sep))
  {
    var j := Join(parts, sep);
    BlankIffAllWhitespace(j);
    JoinStartsWithFirst(parts, sep);
    assert j[1] == parts[0][1];
  }

  /** A contribution starts with a newline and '=', so it is never blank. */
  lemma ContributionHeader(pageNum: nat, read: PageRead)
    requires Contribution(pageNum, read).Some?
    ensures |Contribution(pageNum, read).value| >= 2 && Contribution(pageNum, read).value[1] == '='
  {
    var h := PageHeader(pageNum);
    var t := Trim(PageText(read.items));
    PageHeaderStart(pageNum);
    assert Contribution(pageNum, read).value == h + t;
    assert (h + t)[1] == h[1];
  }

  /** A page header opens with a newline and '='. */
  lemma PageHeaderStart(pageNum: nat)
    ensures |PageHeader(pageNum)| >= 2 && PageHeader(pageNum)[1] == '='
  {
    var a, b := "\n=== Page ", NatToString(pageNum) + " ===\n";
    assert PageHeader(pageNum) == a + b;
    assert (a + b)[1] == a[1];
  }

  /** Every value present comes from some position. */
  lemma {:induction false} PresentFrom(cs: seq<Option<string>>, k: nat)
    requires k < |Present(cs)|
    ensures exists i :: 0 <= i < |cs| && cs[i] == Some(Present(cs)[k])
  {
    var init := cs[..|cs| - 1];
    if k < |Present(init)| {
      PresentFrom(init, k);
      var i :| 0 <= i < |init| && init[i] == Some(Present(init)[k]);
      assert cs[i] == init[i];
    } else {
      assert cs[|cs| - 1] == Some(Present(cs)[k]);
    }
  }

  /** When every position holds a value, all values are present, in order. */
  lemma {:induction false} PresentAll(cs: seq<Option<string>>)
    requires forall i :: 0 <= i < |cs| ==> cs[i].Some?
    ensures |Present(cs)| == |cs|
    ensures forall i :: 0 <= i < |cs| ==> Present(cs)[i] == cs[i].value
  {
    if cs != [] {
      PresentAll(cs[..|cs| - 1]);
    }
  }

  lemma {:induction false} JoinStartsWithFirst(parts: seq<string>, sep: string)
    requires parts != []
    ensures StartsWith(Join(parts, sep), parts[0])
  {
    if |parts| > 1 {
      StartsWithConcat(parts[0], sep + Join(parts[1..], sep));
      assert Join(parts, sep) == parts[0] + (sep + Join(parts[1..], sep));
    }
  }

  /** Pages past the cap are never read: the text depends only on the first
      n pages. */
  lemma ContributionsOnlyReadPrefix(pages: seq<PageRead>, other: seq<PageRead>, n: nat)
    requires n <= |pages| && n <= |other| && pages[..n] == other[..n]
    ensures Contributions(pages, n) == Contributions(other, n)
  {
    forall i | 0 <= i < n ensures pages[i] == other[i] {
      assert pages[i] == pages[..n][i];
      assert other[i] == other[..n][i];
    }
    assert PageContributions(pages, n) == PageContributions(other, n);
  }

  /** A page that was read and holds some visible text. */
  predicate HasText(read: PageRead) {
    read.PageItems? && !IsBlank(PageText(read.items))
  }

  /** A page with text contributes its trimmed text under its header. */
  lemma TextPageContributes(pageNum: nat, read: PageRead)
    requires HasText(read)
    ensures Contribution(pageNum, read) == Some(PageHeader(pageNum) + Trim(PageText(read.items)))
  {
  }

  /** When every page among the first n has text, each contributes, in page
      order. */
  lemma EveryTextPageContributes(pages: seq<PageRead>, n: nat)
    requires n <= |pages|
    requires forall i :: 0 <= i < n ==> HasText(pages[i])
    ensures |Contributions(pages, n)| == n
    ensures forall i :: 0 <= i < n ==> Some(Contributions(pages, n)[i]) == Contribution(i + 1, pages[i])
  {
    var cs := PageContributions(pages, n);
    forall i | 0 <= i < n ensures cs[i] == Contribution(i + 1, pages[i]) && cs[i].Some? {
      TextPageContributes(i + 1, pages[i]);
    }
    PresentAll(cs);
  }

  /** The success message counts pages in the singular only for one page. */
  lemma SuccessMessagePlural(totalPages: nat)
    ensures EndsWith(SuccessMessage(totalPages), if totalPages > 1 then " pages." else " page.")
  {
    var head := "Successfully extracted text from " + IntToString(totalPages);
    if totalPages > 1 {
      assert SuccessMessage(totalPages) == head + " pages.";
      EndsWithConcat(head, " pages.");
    } else {
      assert SuccessMessage(totalPages) == head + " page.";
      EndsWithConcat(head, " page.");
    }
  }
}

=== FILE: prompts.dfy ===
/** The fixed prompt texts of app/constants/prompts.ts. */
module Prompts {
  const OnlyGeneration: string := "ONLY output the generation itself, with no introductions, explanations, or extra commentary."
  const UseMarkdown: string := "Use Markdown formatting when appropriate."
  const Limit200: string := "Limit your response to no more than 200 characters, but make sure to construct complete sentences."

  const ContinueSystemPrompt: string :=
    "You are an AI writing assistant that continues existing text based on context from prior text. "
    + Limit200 + OnlyGeneration + UseMarkdown

  const ImproveSystemPrompt: string :=
    "You are an AI writing assistant that improves existing text. "
    + Limit200 + OnlyGeneration + UseMarkdown

  const ShorterSystemPrompt: string :=
    "You are an AI writing assistant that shortens existing text. "
    + OnlyGeneration + UseMarkdown

  const LongerSystemPrompt: string :=
    "You are an AI writing assistant that lengthens existing text. "
    + OnlyGeneration + UseMarkdown

  const FixSystemPrompt: string :=
    "You are an AI writing assistant that fixes grammar and spelling errors in existing text. "
    + Limit200 + OnlyGeneration + UseMarkdown

  const ZapSystemPrompt: string :=
    "You are an AI writing assistant that generates text based on a prompt. "
    + "You take an input from the user and a command for manipulating the text"
    + OnlyGeneration + UseMarkdown

  const DefaultSystemPrompt: string :=
    "You are an AI writing assistant."
    + OnlyGeneration
    + "If user asks to delete text, just return an empty string."
    + UseMarkdown

  const AutocompleteSystemPrompt: string :=
    "You are an AI writing assistant that provides intelligent autocomplete suggestions. "
    + "Given the context of what the user has written so far, suggest a natural and relevant continuation. "
    + "IMPORTANT: Only provide the continuation text itself - no explanations, quotes, formatting, or prefixes like '...' or '-'. "
    + "Do NOT add ellipsis (...) or any other symbols at the beginning or end of your suggestion! "
    + "Start your response immediately with the actual continuation text. "
    + "If the text seems complete or you cannot provide a meaningful suggestion, respond with an empty string. "
    + "Focus on maintaining the writing style, tone, and flow of the existing content."

  const PdfAutoPrompt: string :=
    "Analyze this document and create a comprehensive, well-structured note. Include:\n"
    + "- A brief summary of the main topic\n"
    + "- Key points and important information organized with headings\n"
    + "- Any notable details, facts, or takeaways\n"
    + "- Use markdown formatting to make the notes clear and scannable\n\n"
    + "Focus on capturing the essential information in a way that would be useful for reviewing and studying later."

  const ImageAutoPrompt: string :=
    "Analyze the image(s) and write a short note about it. Only include relevant information. If the image is text-based, only return the text and nothing else."

  const AudioAutoPrompt: string := "Transcribe the following audio. Include EVERYTHING."
}

=== FILE: recording_modal.dfy ===
/** The recording dialog, components/recording-modal.tsx: the main button,
    the effect that saves a stopped recording once its audio is ready, and
    `handleSaveRecording`, which transcribes the audio, asks for a title and
    creates the note. The recorder is reduced to whether it is recording and
    the audio it has produced; the model's replies and the dialog's `onClose`
    become parameters and state. */
module RecordingModal {
  import opened Wrappers
  import opened Text
  import opened NoteContent
  import Autocomplete

  const NoAudioError: string := "No audio to save. Please record something first."
  const EmptyResultError: string := "Title or transcription is empty. Cannot save note."

  /** How a save ends: nothing to save, no built-in model, a failed model
      call, an empty title or transcription, or the note to create. */
  datatype SaveOutcome =
    | NoAudio
    | NotSupported
    | NotAvailable
    | TranscribeFailed
    | EmptyResult
    | SaveNote(title: string, content: Node)

  /** The note made from a recording: its transcription as one paragraph. */
  function TranscriptionContent(transcription: string): (r: Node)
    ensures IsDoc(r) && |ChildrenOf(r)| == 1
    ensures ChildrenOf(r)[0] == Block("paragraph", [TextNode(transcription)])
  {
    Block("doc", [Block("paragraph", [TextNode(transcription)])])
  }

  /** When a save that got past the audio check makes a note: the model is
      supported and usable, a needed download finished, and both replies
      arrived with visible text. */
  predicate SaveConditions(supported: bool, availability: Autocomplete.Availability, downloadOk: bool,
                           transcription: Outcome<string>, title: Outcome<string>) {
    && supported && !availability.Unavailable?
    && (availability.Downloadable? ==> downloadOk)
    && transcription.Delivered? && title.Delivered?
    && !IsBlank(title.value) && !IsBlank(transcription.value)
  }

  class RecordingDialog {
    var isProcessing: bool
    var pendingSave: bool
    var processingStatus: string
    /** How often the dialog's `onClose` was called. */
    var closeCount: nat
    /** The recorder's state: whether it records, and the audio of the last
        recording once it is ready. */
    var recording: bool
    var audioBlob: Option<string>

    constructor ()
      ensures !isProcessing && !pendingSave && processingStatus == "" && closeCount == 0
      ensures !recording && audioBlob.None?
    {
      isProcessing := false;
      pendingSave := false;
      processingStatus := "";
      closeCount := 0;
      recording := false;
      audioBlob := None;
    }

    /** The main button: stop and mark a save as pending while recording,
        start recording otherwise. It is disabled while a recording is being
        processed. */
    method MainButton()
      requires !isProcessing
      modifies this
      ensures old(recording) ==> !recording && pendingSave
      ensures !old(recording) ==> recording && pendingSave == old(pendingSave)
      ensures audioBlob == old(audioBlob) && isProcessing == old(isProcessing)
      ensures processingStatus == old(processingStatus) && closeCount == old(closeCount)
    {
      if recording {
        recording := false;
        pendingSave := true;
      } else {
        recording := true;
      }
    }

    /** The recorder delivers the audio of a stopped recording. */
    method AudioReady(blob: string)
      modifies this
      ensures audioBlob == Some(blob) && recording == old(recording) && pendingSave == old(pendingSave)
      ensures isProcessing == old(isProcessing) && processingStatus == old(processingStatus) && closeCount == old(closeCount)
    {
      audioBlob := Some(blob);
    }

    /** `handleSaveRecording`. `supported` and `availability` describe the
        built-in model, `downloadOk` whether a needed download finished and
        `lastProgress` the last progress status it reported; `transcription`
        and `title` are the model's two replies. Without audio only an error
        is shown. Past that check, every way out clears the processing flag
        and closes the dialog, and a note is made only when both replies
        have visible text. */
    method HandleSaveRecording(supported: bool, availability: Autocomplete.Availability, downloadOk: bool,
                               lastProgress: Option<string>, transcription: Outcome<string>, title: Outcome<string>)
      returns (outcome: SaveOutcome)
      modifies this`isProcessing, this`processingStatus, this`closeCount
      ensures old(audioBlob).None? ==>
        outcome == NoAudio && isProcessing == old(isProcessing) && processingStatus == old(processingStatus)
        && closeCount == old(closeCount)
      ensures old(audioBlob).Some? ==> outcome != NoAudio && !isProcessing && closeCount == old(closeCount) + 1
      ensures old(audioBlob).Some? && !supported ==> outcome == NotSupported
      ensures old(audioBlob).Some? && supported && availability.Unavailable? ==> outcome == NotAvailable
      ensures outcome.SaveNote? <==>
        old(audioBlob).Some? && SaveConditions(supported, availability, downloadOk, transcription, title)
      ensures outcome.SaveNote? ==>
        outcome == SaveNote(title.value, TranscriptionContent(transcription.value))
        && processingStatus == "Generating title..."
      ensures outcome == EmptyResult ==> transcription.Delivered? && title.Delivered?
    {
      if audioBlob.None? {
        return NoAudio;
      }
      isProcessing := true;
      if !supported {
        outcome := NotSupported;
      } else if availability.Unavailable? {
        outcome := NotAvailable;
      } else {
        var downloaded := true;
        if availability.Downloadable? {
          processingStatus := "Downloading model...";
          if lastProgress.Some? {
            processingStatus := lastProgress.value;
          }
          downloaded := downloadOk;
        }
        if !downloaded {
          outcome := TranscribeFailed;
        } else {
          processingStatus := "Transcribing audio...";
          if transcription.Threw? {
            outcome := TranscribeFailed;
          } else {
            processingStatus := "Generating title...";
            if title.Threw? {
              outcome := TranscribeFailed;
            } else if !IsBlank(title.value) && !IsBlank(transcription.value) {
              outcome := SaveNote(title.value, TranscriptionContent(transcription.value));
            } else {
              outcome := EmptyResult;
            }
          }
        }
      }
      isProcessing := false;
      closeCount := closeCount + 1;
    }

    /** The pending-save effect: once a save is pending and the audio is
        ready, the flag is cleared and the recording saved; otherwise nothing
        happens. */
    method PendingSaveEffect(supported: bool, availability: Autocomplete.Availability, downloadOk: bool,
                             lastProgress: Option<string>, transcription: Outcome<string>, title: Outcome<string>)
      returns (outcome: Option<SaveOutcome>)
      modifies this
      ensures !(old(pendingSave) && old(audioBlob).Some?) ==>
        outcome.None? && pendingSave == old(pendingSave) && isProcessing == old(isProcessing)
        && processingStatus == old(processingStatus) && closeCount == old(closeCount)
      ensures old(pendingSave) && old(audioBlob).Some? ==>
        outcome.Some? && outcome.value != NoAudio && !pendingSave && !isProcessing && closeCount == old(closeCount) + 1
      ensures old(pendingSave) && old(audioBlob).Some? ==>
        (outcome.value.SaveNote? <==> SaveConditions(supported, availability, downloadOk, transcription, title))
      ensures old(pendingSave) && old(audioBlob).Some? && outcome.value.SaveNote? ==>
        outcome.value == SaveNote(title.value, TranscriptionContent(transcription.value))
      ensures old(pendingSave) && old(audioBlob).Some? && !supported ==> outcome == Some(NotSupported)
      ensures old(pendingSave) && old(audioBlob).Some? && supported && availability.Unavailable? ==>
        outcome == Some(NotAvailable)
      ensures recording == old(recording) && audioBlob == old(audioBlob)
    {
      if pendingSave && audioBlob.Some? {
        pendingSave := false;
        var o := HandleSaveRecording(supported, availability, downloadOk, lastProgress, transcription, title);
        outcome := Some(o);
      } else {
        outcome := None;
      }
    }
  }

  /** Stopping a recording and receiving its audio saves it exactly once: the
      effect running again afterwards finds no pending save. */
  method StopThenSave(d: RecordingDialog, blob: string, transcription: string, title: string)
    returns (first: Option<SaveOutcome>, second: Option<SaveOutcome>)
    requires d.recording && !d.isProcessing
    modifies d
    ensures first.Some? && second.None?
    ensures !IsBlank(title) && !IsBlank(transcription) ==> first == Some(SaveNote(title, TranscriptionContent(transcription)))
    ensures d.closeCount == old(d.closeCount) + 1
  {
    d.MainButton();
    d.AudioReady(blob);
    first := d.PendingSaveEffect(true, Autocomplete.Available, true, None, Delivered(transcription), Delivered(title));
    second := d.PendingSaveEffect(true, Autocomplete.Available, true, None, Delivered(transcription), Delivered(title));
  }
}

=== FILE: sidebar.dfy ===
/** The note list's sidebar, components/sidebar.tsx: the theme button, the
    redirect after a delete, the active entry, and the form that creates a
    note from a typed title. The theme store, the database and the router
    are replaced by parameters and results. */
module Sidebar {
  import opened Wrappers
  import opened Text

  /** The themes the button cycles through, in order. */
  const Themes: seq<string> := ["light", "dark", "system"]

  /** `indexOf`: the first position of `t` in `Themes`, or -1 when it is not
      there (an unset theme included). */
  function ThemeIndex(t: Option<string>): (r: int)
    ensures -1 <= r < |Themes|
    ensures r >= 0 <==> t.Some? && t.value in Themes
    ensures r >= 0 ==> Themes[r] == t.value
  {
    if t == Some("light") then 0
    else if t == Some("dark") then 1
    else if t == Some("system") then 2
    else -1
  }

  /** `cycleTheme`: the theme after the current one, wrapping round; any
      other value is followed by the first theme. */
  function CycleTheme(t: Option<string>): (r: string)
    ensures r in Themes
  {
    Themes[(ThemeIndex(t) + 1) % |Themes|]
  }

  /** light → dark → system → light, and anything else → light. */
  lemma CycleOrder(t: Option<string>)
    ensures t == Some("light") ==> CycleTheme(t) == "dark"
    ensures t == Some("dark") ==> CycleTheme(t) == "system"
    ensures t == Some("system") ==> CycleTheme(t) == "light"
    ensures !(t.Some? && t.value in Themes) ==> CycleTheme(t) == "light"
  {
  }

  /** Three presses bring any listed theme back, and one press never leaves
      it where it was. */
  lemma ThreeCyclesReturn(t: string)
    requires t in Themes
    ensures CycleTheme(Some(CycleTheme(Some(CycleTheme(Some(t)))))) == t
    ensures CycleTheme(Some(t)) != t
  {
    CycleOrder(Some(t));
    CycleOrder(Some(CycleTheme(Some(t))));
    CycleOrder(Some(CycleTheme(Some(CycleTheme(Some(t))))));
  }

  datatype ThemeIcon = Sun | Moon | Monitor

  /** `getThemeIcon`: the sun for light, the moon for dark, the monitor for
      everything else. */
  function GetThemeIcon(t: Option<string>): (r: ThemeIcon)
    ensures r == Sun <==> t == Some("light")
    ensures r == Moon <==> t == Some("dark")
  {
    if t == Some("light") then Sun else if t == Some("dark") then Moon else Monitor
  }

  /** `pathname.split("/").at(-1)`. */
  function LastSegment(path: string): (r: string)
    ensures '/' !in path ==> r == path
  {
    var parts := Split(path, '/');
    if '/' in path then parts[|parts| - 1]
    else SplitWithoutSeparator(path, '/'); parts[|parts| - 1]
  }

  /** The last segment holds no slash and ends the path. */
  lemma LastSegmentEndsPath(path: string)
    ensures '/' !in LastSegment(path)
    ensures EndsWith(path, LastSegment(path))
  {
    var parts := Split(path, '/');
    SplitJoin(path, '/');
    if |parts| > 1 {
      JoinSnoc(parts[..|parts| - 1], parts[|parts| - 1], "/");
      assert parts[..|parts| - 1] + [parts[|parts| - 1]] == parts;
      EndsWithConcat(Join(parts[..|parts| - 1], "/") + "/", parts[|parts| - 1]);
    } else {
      assert path == parts[0];
    }
  }

  /** A note's page: `/note/` and its id. */
  lemma NotePageSegment(id: string)
    requires '/' !in id
    ensures LastSegment("/note/" + id) == id
  {
    assert "/note/" + id == "" + ['/'] + ("note" + ['/'] + id);
    SplitAfterPiece("", '/', "note" + ['/'] + id);
    SplitAfterPiece("note", '/', id);
    SplitWithoutSeparator(id, '/');
  }

  /** The list entry of note `id` is marked active. */
  predicate IsActive(path: string, id: string)
    ensures IsActive(path, id) ==> '/' !in id && EndsWith(path, id)
  {
    LastSegmentEndsPath(path);
    LastSegment(path) == id
  }

  /** `handleDeleteNote`: after a successful delete, home when the page shown
      is the deleted note's; a failed delete goes nowhere. */
  function DeleteNavigation(path: string, noteId: string, deleted: bool): (r: Option<string>)
    ensures r.Some? <==> deleted && StartsWith(path, "/note/") && IsActive(path, noteId)
    ensures r.Some? ==> r.value == "/"
  {
    var currentNoteId := LastSegment(path);
    var isOnNotePage := StartsWith(path, "/note/");
    if deleted && isOnNotePage && currentNoteId == noteId then Some("/") else None
  }

  /** Deleting the note on show leaves its page; deleting another note stays
      on a note page. */
  lemma DeleteShownNote(id: string, other: string)
    requires '/' !in id && other != id
    ensures DeleteNavigation("/note/" + id, id, true) == Some("/")
    ensures DeleteNavigation("/note/" + id, other, true) == None
  {
    NotePageSegment(id);
    StartsWithConcat("/note/", id);
  }

  /** The new note's page. */
  function NotePath(id: string): string {
    "/note/" + id
  }

  class NoteSidebar {
    var isCreatingNote: bool
    var newNoteTitle: string

    constructor ()
      ensures !isCreatingNote && newNoteTitle == ""
    {
      isCreatingNote := false;
      newNoteTitle := "";
    }

    /** The "New note" button opens the form. */
    method StartCreating()
      modifies this
      ensures isCreatingNote && newNoteTitle == old(newNoteTitle)
    {
      isCreatingNote := true;
    }

    /** Typing in the form. */
    method SetTitle(value: string)
      modifies this
      ensures newNoteTitle == value && isCreatingNote == old(isCreatingNote)
    {
      newNoteTitle := value;
    }

    /** Escape in the field, and the cancel button, close the form and
        forget the title; other keys change nothing. */
    method HandleTitleKeyDown(key: string)
      modifies this
      ensures key == "Escape" ==> !isCreatingNote && newNoteTitle == ""
      ensures key != "Escape" ==> isCreatingNote == old(isCreatingNote) && newNoteTitle == old(newNoteTitle)
    {
      if key == "Escape" {
        isCreatingNote := false;
        newNoteTitle := "";
      }
    }

    /** `handleCreateNote`: `saved` is the new note's id, or a failure. A
        blank title creates nothing; otherwise the trimmed title is saved,
        and on success the form closes and the note's page is shown. A
        failure leaves the form as it was. */
    method HandleCreateNote(saved: Outcome<string>) returns (title: Option<string>, route: Option<string>)
      modifies this
      ensures title.Some? <==> !IsBlank(old(newNoteTitle))
      ensures title.Some? ==> title.value == Trim(old(newNoteTitle)) && !IsBlank(title.value)
      ensures route.Some? <==> title.Some? && saved.Delivered?
      ensures route.Some? ==> route.value == NotePath(saved.value) && !isCreatingNote && newNoteTitle == ""
      ensures route.None? ==> isCreatingNote == old(isCreatingNote) && newNoteTitle == old(newNoteTitle)
    {
      if Trim(newNoteTitle) == "" {
        return None, None;
      }
      title := Some(Trim(newNoteTitle));
      TrimIdempotent(newNoteTitle);
      if saved.Threw? {
        route := None;
      } else {
        route := Some(NotePath(saved.value));
        isCreatingNote := false;
        newNoteTitle := "";
      }
    }
  }
}

=== FILE: slash_command.dfy ===
/** The link checks of the YouTube, Twitter and image entries of the slash
    menu in app/note/components/editor/slash-command.tsx, with the regular
    expressions written out as character tests, and what each entry does
    with the text the user typed into the prompt. */
module SlashCommand {
  import opened Wrappers
  import opened Text

  /** A character of a YouTube video id: `[a-zA-Z0-9_-]`. */
  predicate IsVideoIdChar(c: char) {
    IsUpper(c) || IsLower(c) || IsDigit(c) || c == '_' || c == '-'
  }

  /** A character of an x.com handle: `[a-zA-Z0-9_]`. */
  predicate IsHandleChar(c: char) {
    IsUpper(c) || IsLower(c) || IsDigit(c) || c == '_'
  }

  /** `^https?:\/\/`: what follows the scheme, if the text starts with one. */
  function AfterScheme(url: string): Option<string> {
    if StartsWith(url, "http://") then Some(url[7..])
    else if StartsWith(url, "https://") then Some(url[8..])
    else None
  }

  /** A text with a scheme starts with "http" and has at least seven
      characters before what follows the scheme. */
  lemma AfterSchemeShape(url: string)
    ensures AfterScheme(url).Some? ==> url[..4] == "http" && |AfterScheme(url).value| <= |url| - 7
  {
    if StartsWith(url, "http://") {
      assert url[..4] == url[..7][..4];
    } else if StartsWith(url, "https://") {
      assert url[..4] == url[..8][..4];
    }
  }

  /** `(www\.)?`: a leading "www." is taken when present; no host the
      expressions accept starts with "www.", so not taking it never helps. */
  function AfterWww(s: string): string {
    if StartsWith(s, "www.") then s[4..] else s
  }

  /** `(youtube\.com\/(watch\?v=|embed\/)|youtu\.be\/)`: what follows the
      video path, if the text starts with one of the three. */
  function AfterVideoPath(s: string): Option<string> {
    if StartsWith(s, "youtube.com/watch?v=") then Some(s[20..])
    else if StartsWith(s, "youtube.com/embed/") then Some(s[18..])
    else if StartsWith(s, "youtu.be/") then Some(s[9..])
    else None
  }

  /** Eleven id characters at the start; the expression has no end anchor,
      so anything may follow them. */
  predicate StartsWithVideoId(s: string) {
    |s| >= 11 && forall i :: 0 <= i < 11 ==> IsVideoIdChar(s[i])
  }

  /** The YouTube link test. */
  predicate IsYouTubeUrl(url: string)
    ensures IsYouTubeUrl(url) ==> |url| >= 27 && url[..4] == "http"
  {
    AfterSchemeShape(url);
    AfterScheme(url).Some?
    && AfterVideoPath(AfterWww(AfterScheme(url).value)).Some?
    && StartsWithVideoId(AfterVideoPath(AfterWww(AfterScheme(url).value)).value)
  }

  predicate IsScheme(s: string) {
    s == "http://" || s == "https://"
  }

  predicate IsVideoPath(s: string) {
    s == "youtube.com/watch?v=" || s == "youtube.com/embed/" || s == "youtu.be/"
  }

  lemma AfterSchemeOf(scheme: string, rest: string)
    requires IsScheme(scheme)
    ensures AfterScheme(scheme + rest) == Some(rest)
  {
    assert (scheme + rest)[..|scheme|] == scheme;
    assert (scheme + rest)[|scheme|..] == rest;
    if scheme == "https://" {
      assert (scheme + rest)[4] == 's';
    }
  }

  lemma AfterWwwOf(www: string, rest: string)
    requires www == "" || www == "www."
    requires !StartsWith(rest, "www.")
    ensures AfterWww(www + rest) == rest
  {
    if www == "www." {
      assert (www + rest)[..4] == www;
      assert (www + rest)[4..] == rest;
    } else {
      assert www + rest == rest;
    }
  }

  lemma AfterVideoPathOf(path: string, rest: string)
    requires IsVideoPath(path)
    ensures AfterVideoPath(path + rest) == Some(rest)
  {
    assert (path + rest)[..|path|] == path;
    assert (path + rest)[|path|..] == rest;
    if path == "youtube.com/embed/" {
      assert (path + rest)[12] == 'e';
    } else if path == "youtu.be/" {
      assert (path + rest)[5] == '.';
    }
  }

  /** Every link the expression describes passes the test: either scheme,
      an optional "www.", one of the three paths and eleven id characters,
      followed by anything. */
  lemma YouTubeUrlOfParts(scheme: string, www: string, path: string, id: string, rest: string)
    requires IsScheme(scheme)
    requires www == "" || www == "www."
    requires IsVideoPath(path)
    requires |id| == 11 && forall i :: 0 <= i < 11 ==> IsVideoIdChar(id[i])
    ensures IsYouTubeUrl(scheme + www + path + id + rest)
  {
    var tail := id + rest;
    Regroup(scheme, www, path, tail);
    assert scheme + www + path + id + rest == scheme + www + path + tail;
    AfterSchemeOf(scheme, www + (path + tail));
    AfterHostOf(www, path, tail);
    VideoIdThenRest(id, rest);
  }

  /** Eleven id characters start a text that begins with them. */
  lemma VideoIdThenRest(id: string, rest: string)
    requires |id| == 11 && forall i :: 0 <= i < 11 ==> IsVideoIdChar(id[i])
    ensures StartsWithVideoId(id + rest)
  {
    forall i | 0 <= i < 11 ensures IsVideoIdChar((id + rest)[i]) {
      assert (id + rest)[i] == id[i];
    }
  }

  /** The optional "www." and a video path are taken off together. */
  lemma AfterHostOf(www: string, path: string, tail: string)
    requires www == "" || www == "www."
    requires IsVideoPath(path)
    ensures AfterVideoPath(AfterWww(www + (path + tail))) == Some(tail)
  {
    assert (path + tail)[0] == path[0] == 'y';
    AfterWwwOf(www, path + tail);
    AfterVideoPathOf(path, tail);
  }

  /** Where the scheme ends in a text that starts with one. */
  lemma SchemeCut(url: string) returns (k: nat)
    requires AfterScheme(url).Some?
    ensures k <= |url| && IsScheme(url[..k]) && url[k..] == AfterScheme(url).value
  {
    k := if StartsWith(url, "http://") then 7 else 8;
  }

  /** Where an optional "www." ends. */
  lemma WwwCut(s: string) returns (k: nat)
    ensures k <= |s| && (s[..k] == "" || s[..k] == "www.") && s[k..] == AfterWww(s)
  {
    k := if StartsWith(s, "www.") then 4 else 0;
  }

  /** Where the video path ends in a text that starts with one. */
  lemma VideoPathCut(s: string) returns (k: nat)
    requires AfterVideoPath(s).Some?
    ensures k <= |s| && IsVideoPath(s[..k]) && s[k..] == AfterVideoPath(s).value
  {
    k := if StartsWith(s, "youtube.com/watch?v=") then 20
         else if StartsWith(s, "youtube.com/embed/") then 18
         else 9;
  }

  /** Cutting a suffix at `k` is cutting the whole at `j + k`. */
  lemma SuffixCut(url: string, j: nat, k: nat)
    requires j + k <= |url|
    ensures url[j..][..k] == url[j..j + k] && url[j..][k..] == url[j + k..]
  {
  }

  /** And only those: a link that passes splits into a scheme, an optional
      "www.", one of the three paths and a text starting with eleven id
      characters. */
  lemma YouTubeUrlParts(url: string)
    requires IsYouTubeUrl(url)
    ensures exists k1, k2, k3 ::
      && 0 <= k1 <= k2 <= k3 <= |url|
      && IsScheme(url[..k1])
      && (url[k1..k2] == "" || url[k1..k2] == "www.")
      && IsVideoPath(url[k2..k3])
      && StartsWithVideoId(url[k3..])
  {
    var k1 := SchemeCut(url);
    var afterScheme := url[k1..];
    var w := WwwCut(afterScheme);
    SuffixCut(url, k1, w);
    var k2 := k1 + w;
    var host := url[k2..];
    assert host == AfterWww(afterScheme);
    var v := VideoPathCut(host);
    SuffixCut(url, k2, v);
    var k3 := k2 + v;
    assert url[k1..k2] == afterScheme[..w];
    assert url[k2..k3] == host[..v];
    assert url[k3..] == AfterVideoPath(host).value;
  }

  // ------------------------------------------------------------- x.com links

  /** The length of the run of handle characters at the start of `s`. */
  function HandleRun(s: string): (n: nat)
    ensures n <= |s|
    ensures forall i :: 0 <= i < n ==> IsHandleChar(s[i])
    ensures n < |s| ==> !IsHandleChar(s[n])
  {
    if s != [] && IsHandleChar(s[0]) then 1 + HandleRun(s[1..]) else 0
  }

  /** `(\/\S*)?$`: nothing, or a slash followed by no whitespace. */
  predicate IsSlashRest(s: string) {
    s == [] || (s[0] == '/' && NoWhitespace(s[1..]))
  }

  /** `(\/status\/(\d+))?(\/\S*)?$`: an optional status path with its digits
      (taken greedily, since what follows them must be a slash or the end),
      then an optional slash rest. */
  predicate IsTweetTail(s: string) {
    IsSlashRest(s)
    || (StartsWith(s, "/status/") && DigitRun(s[8..]) >= 1 && IsSlashRest(s[8..][DigitRun(s[8..])..]))
  }

  /** The x.com link test: scheme, optional "www.", the host x.com, a handle
      of 1 to 15 characters and the tail. A handle shorter than the run of
      handle characters would leave a handle character where the tail must
      begin, so the handle is the whole run. */
  predicate IsTweetLink(url: string)
    ensures IsTweetLink(url) ==> |url| >= 14 && url[..4] == "http"
  {
    AfterSchemeShape(url);
    AfterScheme(url).Some?
    && StartsWith(AfterWww(AfterScheme(url).value), "x.com/")
    && IsTweetPath(AfterWww(AfterScheme(url).value)[6..])
  }

  /** What follows "x.com/": the handle, then the tail. */
  predicate IsTweetPath(s: string) {
    1 <= HandleRun(s) <= 15 && IsTweetTail(s[HandleRun(s)..])
  }

  /** The status part adds nothing the slash rest does not already allow:
      the tail is a slash and non-blank characters, or nothing. */
  lemma TweetTailIsSlashRest(s: string)
    ensures IsTweetTail(s) <==> IsSlashRest(s)
  {
    if StartsWith(s, "/status/") && DigitRun(s[8..]) >= 1 && IsSlashRest(s[8..][DigitRun(s[8..])..]) {
      var d := DigitRun(s[8..]);
      var after := s[8..][d..];
      assert s[0] == '/';
      forall i | 0 <= i < |s[1..]| ensures !IsWhitespace(s[1..][i]) {
        if i + 1 < 8 {
          assert s[..8] == "/status/";
          assert s[1..][i] == "/status/"[i + 1];
        } else if i + 1 < 8 + d {
          assert s[1..][i] == s[8..][..d][i + 1 - 8];
        } else {
          assert s[1..][i] == after[i + 1 - 8 - d];
          if i + 1 - 8 - d > 0 {
            assert after[i + 1 - 8 - d] == after[1..][i - 8 - d];
          }
        }
      }
    }
  }

  /** A status link passes: scheme, optional "www.", x.com, a handle of 1 to
      15 characters, "/status/" and digits. */
  lemma StatusLinkOfParts(scheme: string, www: string, handle: string, digits: string)
    requires IsScheme(scheme)
    requires www == "" || www == "www."
    requires 1 <= |handle| <= 15 && forall i :: 0 <= i < |handle| ==> IsHandleChar(handle[i])
    requires digits != [] && AllDigits(digits)
    ensures IsTweetLink(scheme + www + "x.com/" + handle + "/status/" + digits)
  {
    var path := handle + ("/status/" + digits);
    StatusPathOfParts(handle, digits);
    TweetLinkOfPath(scheme, www, path);
    Regroup(scheme + www + "x.com/", handle, "/status/", digits);
  }

  lemma Regroup(a: string, b: string, c: string, d: string)
    ensures a + b + c + d == a + (b + (c + d))
  {
  }

  lemma StatusPathOfParts(handle: string, digits: string)
    requires 1 <= |handle| <= 15 && forall i :: 0 <= i < |handle| ==> IsHandleChar(handle[i])
    requires digits != [] && AllDigits(digits)
    ensures IsTweetPath(handle + ("/status/" + digits))
  {
    var tail := "/status/" + digits;
    StatusTail(digits);
    assert tail[0] == '/';
    TweetPathOfParts(handle, tail);
  }

  lemma StatusTail(digits: string)
    requires digits != [] && AllDigits(digits)
    ensures IsTweetTail("/status/" + digits)
  {
    var tail := "/status/" + digits;
    assert tail[..8] == "/status/";
    assert tail[8..] == digits;
    FullDigitRun(digits);
    assert tail[8..][|digits|..] == [];
  }

  lemma TweetPathOfParts(handle: string, tail: string)
    requires 1 <= |handle| <= 15 && forall i :: 0 <= i < |handle| ==> IsHandleChar(handle[i])
    requires tail == [] || !IsHandleChar(tail[0])
    requires IsTweetTail(tail)
    ensures IsTweetPath(handle + tail)
  {
    HandleRunOf(handle, tail);
    assert (handle + tail)[|handle|..] == tail;
  }

  lemma TweetLinkOfPath(scheme: string, www: string, path: string)
    requires IsScheme(scheme)
    requires www == "" || www == "www."
    requires IsTweetPath(path)
    ensures IsTweetLink(scheme + www + "x.com/" + path)
  {
    var host := "x.com/" + path;
    assert scheme + www + "x.com/" + path == scheme + (www + host);
    AfterSchemeOf(scheme, www + host);
    assert host[0] == 'x';
    AfterWwwOf(www, host);
    assert host[..6] == "x.com/";
    assert host[6..] == path;
  }

  lemma {:induction false} HandleRunOf(handle: string, tail: string)
    requires forall i :: 0 <= i < |handle| ==> IsHandleChar(handle[i])
    requires tail == [] || !IsHandleChar(tail[0])
    ensures HandleRun(handle + tail) == |handle|
  {
    if handle != [] {
      assert (handle + tail)[1..] == handle[1..] + tail;
      HandleRunOf(handle[1..], tail);
    } else {
      assert handle + tail == tail;
    }
  }

  lemma {:induction false} FullDigitRun(digits: string)
    requires AllDigits(digits)
    ensures DigitRun(digits) == |digits|
  {
    if digits != [] {
      FullDigitRun(digits[1..]);
    }
  }

  /** A handle of 16 characters is one too many, whatever follows. */
  lemma LongHandleRejected(url: string)
    requires AfterScheme(url).Some? && StartsWith(AfterWww(AfterScheme(url).value), "x.com/")
    requires var rest := AfterWww(AfterScheme(url).value)[6..];
      |rest| >= 16 && forall i :: 0 <= i < 16 ==> IsHandleChar(rest[i])
    ensures !IsTweetLink(url)
  {
  }

  // --------------------------------------------------------------- commands

  /** What an entry does with the text typed into the browser's prompt. */
  datatype Effect = NoEffect | EmbedYouTube(src: string) | EmbedTweet(src: string) | SetImage(src: string) | Alert(message: string)

  const YouTubeAlert: string := "Please enter a valid YouTube URL"
  const TweetAlert: string := "Please enter a correct Twitter Link"
  const ImageAlert: string := "Please enter a valid image URL"

  /** The YouTube entry: a cancelled or empty answer does nothing, a link
      that passes is embedded, any other answer raises an alert. */
  function YouTubeCommand(answer: Option<string>): (r: Effect)
    ensures r.EmbedYouTube? <==> answer.Some? && IsYouTubeUrl(answer.value)
    ensures r.EmbedYouTube? ==> r.src == answer.value
    ensures r == NoEffect <==> answer.None? || answer.value == ""
    ensures r.Alert? ==> r.message == YouTubeAlert
    ensures r.SetImage? == r.EmbedTweet? == false
  {
    if answer.Some? && answer.value != "" then
      if IsYouTubeUrl(answer.value) then EmbedYouTube(answer.value) else Alert(YouTubeAlert)
    else NoEffect
  }

  /** The Twitter entry tests the answer even when the prompt was cancelled,
      in which case the test sees the text "null" and fails; only a
      cancelled prompt is spared the alert. */
  function TweetCommand(answer: Option<string>): (r: Effect)
    ensures r.EmbedTweet? <==> answer.Some? && IsTweetLink(answer.value)
    ensures r.EmbedTweet? ==> r.src == answer.value
    ensures r == NoEffect <==> answer.None?
    ensures r.Alert? ==> r.message == TweetAlert
    ensures r.SetImage? == r.EmbedYouTube? == false
  {
    var tested := if answer.Some? then answer.value else "null";
    NullIsNoLink();
    if IsTweetLink(tested) then EmbedTweet(answer.value)
    else if answer.Some? then Alert(TweetAlert)
    else NoEffect
  }

  lemma NullIsNoLink()
    ensures !IsTweetLink("null")
  {
    assert !StartsWith("null", "http://");
    assert !StartsWith("null", "https://");
  }

  /** The image entry: a cancelled or empty answer does nothing; otherwise
      `parses` says whether the browser's URL parser accepts the answer. */
  function ImageCommand(answer: Option<string>, parses: bool): (r: Effect)
    ensures r.SetImage? <==> answer.Some? && answer.value != "" && parses
    ensures r.SetImage? ==> r.src == answer.value
    ensures r == NoEffect <==> answer.None? || answer.value == ""
    ensures r.Alert? ==> r.message == ImageAlert
  {
    if answer.Some? && answer.value != "" then
      if parses then SetImage(answer.value) else Alert(ImageAlert)
    else NoEffect
  }
}

=== FILE: text.dfy ===
/** JavaScript string operations used throughout the application, stated over
    `seq<char>`: trimming, splitting and joining, prefix and substring tests,
    decimal rendering of non-negative numbers and ASCII lower-casing. */
module Text {

  /** The ECMAScript WhiteSpace and LineTerminator code points: exactly what
      `String.prototype.trim` removes and what `\s` matches in a regular
      expression. */
  predicate IsWhitespace(c: char) {
    || c == '\t' || c == '\n' || c == '\U{000B}' || c == '\U{000C}' || c == '\r' || c == ' '
    || c == '\U{00A0}' || c == '\U{1680}' || ('\U{2000}' <= c <= '\U{200A}')
    || c == '\U{2028}' || c == '\U{2029}' || c == '\U{202F}' || c == '\U{205F}'
    || c == '\U{3000}' || c == '\U{FEFF}'
  }

  predicate IsDigit(c: char) { '0' <= c <= '9' }

  predicate IsUpper(c: char) { 'A' <= c <= 'Z' }

  predicate IsLower(c: char) { 'a' <= c <= 'z' }

  predicate AllWhitespace(s: string) {
    forall i :: 0 <= i < |s| ==> IsWhitespace(s[i])
  }

  predicate NoWhitespace(s: string) {
    forall i :: 0 <= i < |s| ==> !IsWhitespace(s[i])
  }

  predicate AllDigits(s: string) {
    forall i :: 0 <= i < |s| ==> IsDigit(s[i])
  }

  // ---------------------------------------------------------------- trimming

  /** The number of whitespace characters at the start of `s`. */
  function LeadingWhitespace(s: string): (n: nat)
    ensures n <= |s|
    ensures forall i :: 0 <= i < n ==> IsWhitespace(s[i])
    ensures n < |s| ==> !IsWhitespace(s[n])
  {
    if s != [] && IsWhitespace(s[0]) then 1 + LeadingWhitespace(s[1..]) else 0
  }

  /** The number of whitespace characters at the end of `s`. */
  function TrailingWhitespace(s: string): (n: nat)
    ensures n <= |s|
    ensures forall i :: |s| - n <= i < |s| ==> IsWhitespace(s[i])
    ensures n < |s| ==> !IsWhitespace(s[|s| - n - 1])
  {
    if s != [] && IsWhitespace(s[|s| - 1]) then 1 + TrailingWhitespace(s[..|s| - 1]) else 0
  }

  /** `s.trimStart()`: the longest suffix of `s` that does not begin with
      whitespace, all dropped characters being whitespace. */
  function TrimStart(s: string): (r: string)
    ensures |r| <= |s| && r == s[|s| - |r|..]
    ensures AllWhitespace(s[..|s| - |r|])
    ensures r != [] ==> !IsWhitespace(r[0])
  {
    s[LeadingWhitespace(s)..]
  }

  /** `s.trimEnd()`: the longest prefix of `s` that does not end with
      whitespace, all dropped characters being whitespace. */
  function TrimEnd(s: string): (r: string)
    ensures |r| <= |s| && r == s[..|r|]
    ensures AllWhitespace(s[|r|..])
    ensures r != [] ==> !IsWhitespace(r[|r| - 1])
  {
    s[..|s| - TrailingWhitespace(s)]
  }

  /** `s.trim()`. */
  function Trim(s: string): (r: string)
    ensures |r| <= |s|
    ensures r != [] ==> !IsWhitespace(r[0]) && !IsWhitespace(r[|r| - 1])
  {
    TrimEnd(TrimStart(s))
  }

  /** JavaScript's `!s.trim()`: the string is empty or only whitespace. */
  predicate IsBlank(s: string) {
    Trim(s) == ""
  }

  lemma {:induction false} TrimStartOfNonWhitespace(s: string)
    requires s != [] && !IsWhitespace(s[0])
    ensures TrimStart(s) == s
  {
  }

  lemma {:induction false} TrimEndOfNonWhitespace(s: string)
    requires s != [] && !IsWhitespace(s[|s| - 1])
    ensures TrimEnd(s) == s
  {
  }

  /** A string that neither begins nor ends with whitespace is its own trim. */
  lemma {:induction false} TrimOfTrimmed(s: string)
    requires s == [] || (!IsWhitespace(s[0]) && !IsWhitespace(s[|s| - 1]))
    ensures Trim(s) == s
  {
    if s != [] {
      TrimStartOfNonWhitespace(s);
      TrimEndOfNonWhitespace(s);
    }
  }

  /** Trimming twice is trimming once. */
  lemma TrimIdempotent(s: string)
    ensures Trim(Trim(s)) == Trim(s)
  {
    TrimOfTrimmed(Trim(s));
  }

  /** A string is blank exactly when every character of it is whitespace. */
  lemma {:induction false} BlankIffAllWhitespace(s: string)
    ensures IsBlank(s) <==> AllWhitespace(s)
  {
    var t := TrimStart(s);
    if !AllWhitespace(s) {
      var i :| 0 <= i < |s| && !IsWhitespace(s[i]);
      assert |s| - |t| <= i;
      assert t[i - (|s| - |t|)] == s[i];
    }
  }

  /** Trimming keeps a contiguous part of the string, so it introduces no
      character. */
  lemma TrimInside(s: string)
    ensures forall c :: c in Trim(s) ==> c in s
  {
    var t := TrimStart(s);
    var r := Trim(s);
    forall i | 0 <= i < |r| ensures r[i] in s {
      assert r[i] == t[i] == s[|s| - |t| + i];
    }
  }

  /** The whitespace-free string `s` keeps all of itself under trimming. */
  lemma TrimOfNoWhitespace(s: string)
    requires NoWhitespace(s)
    ensures Trim(s) == s
  {
    TrimOfTrimmed(s);
  }

  // ------------------------------------------------------- splitting, joining

  /** `parts.join(sep)`. */
  function Join(parts: seq<string>, sep: string): string
  {
    if |parts| == 0 then ""
    else if |parts| == 1 then parts[0]
    else parts[0] + sep + Join(parts[1..], sep)
  }

  /** Joining a sequence that grows by one part at the end. */
  lemma {:induction false} JoinSnoc(parts: seq<string>, p: string, sep: string)
    requires parts != []
    ensures Join(parts + [p], sep) == Join(parts, sep) + sep + p
  {
    if |parts| == 1 {
      assert parts + [p] == [parts[0], p];
    } else {
      assert (parts + [p])[1..] == parts[1..] + [p];
      JoinSnoc(parts[1..], p, sep);
    }
  }

  /** `s.split(sep)` for a one-character separator: the pieces between
      consecutive separators, at least one piece, none holding the separator. */
  function Split(s: string, sep: char): (r: seq<string>)
    ensures |r| >= 1
    ensures forall k :: 0 <= k < |r| ==> sep !in r[k]
  {
    if s == [] then [""]
    else
      var rest := Split(s[1..], sep);
      if s[0] == sep then [""] + rest else [[s[0]] + rest[0]] + rest[1..]
  }

  /** Splitting and re-joining with the same separator gives the input back. */
  lemma {:induction false} SplitJoin(s: string, sep: char)
    ensures Join(Split(s, sep), [sep]) == s
  {
    if s != [] {
      var rest := Split(s[1..], sep);
      SplitJoin(s[1..], sep);
      if s[0] == sep {
        assert Join([""] + rest, [sep]) == "" + [sep] + Join(rest, [sep]) by {
          assert ([""] + rest)[1..] == rest;
        }
      } else if |rest| == 1 {
        assert Split(s, sep) == [[s[0]] + rest[0]];
      } else {
        var r := Split(s, sep);
        assert r[1..] == rest[1..];
        assert Join(rest, [sep]) == rest[0] + [sep] + Join(rest[1..], [sep]);
      }
    }
  }

  /** The number of pieces is one more than the number of separators. */
  lemma {:induction false} SplitCount(s: string, sep: char)
    ensures |Split(s, sep)| == Count(s, sep) + 1
  {
    if s != [] {
      SplitCount(s[1..], sep);
    }
  }

  /** A string without the separator splits into itself alone. */
  lemma {:induction false} SplitWithoutSeparator(s: string, sep: char)
    requires sep !in s
    ensures Split(s, sep) == [s]
  {
    if s != [] {
      SplitWithoutSeparator(s[1..], sep);
      assert [s[0]] + s[1..] == s;
    }
  }

  /** Splitting at a separator that follows a separator-free piece yields
      that piece first. */
  lemma {:induction false} SplitAfterPiece(a: string, sep: char, b: string)
    requires sep !in a
    ensures Split(a + [sep] + b, sep) == [a] + Split(b, sep)
  {
    if a == [] {
      assert a + [sep] + b == [sep] + b;
      assert ([sep] + b)[1..] == b;
    } else {
      SplitAfterPiece(a[1..], sep, b);
      assert (a + [sep] + b)[1..] == a[1..] + [sep] + b;
      assert [a[0]] + a[1..] == a;
    }
  }

  /** Joining separator-free pieces and splitting again gives the pieces
      back. */
  lemma {:induction false} JoinSplit(parts: seq<string>, sep: char)
    requires parts != []
    requires forall k :: 0 <= k < |parts| ==> sep !in parts[k]
    ensures Split(Join(parts, [sep]), sep) == parts
  {
    if |parts| == 1 {
      SplitWithoutSeparator(parts[0], sep);
    } else {
      JoinSplit(parts[1..], sep);
      SplitAfterPiece(parts[0], sep, Join(parts[1..], [sep]));
      assert [parts[0]] + parts[1..] == parts;
    }
  }

  function Count(s: string, c: char): nat
  {
    if s == [] then 0 else (if s[0] == c then 1 else 0) + Count(s[1..], c)
  }

  // -------------------------------------------------------- prefix, substring

  predicate StartsWith(s: string, p: string) {
    |p| <= |s| && s[..|p|] == p
  }

  predicate EndsWith(s: string, p: string) {
    |p| <= |s| && s[|s| - |p|..] == p
  }

  lemma StartsWithConcat(a: string, b: string)
    ensures StartsWith(a + b, a)
  {
    assert (a + b)[..|a|] == a;
  }

  lemma EndsWithConcat(a: string, b: string)
    ensures EndsWith(a + b, b)
  {
    assert (a + b)[|a|..] == b;
  }

  /** `t` occurs in `s` starting at position `i`. */
  predicate OccursAt(s: string, t: string, i: int) {
    0 <= i <= |s| - |t| && s[i..i + |t|] == t
  }

  /** Where the three parts of a concatenation sit. */
  lemma ThreeParts(a: string, b: string, c: string)
    ensures StartsWith(a + b + c, a) && OccursAt(a + b + c, b, |a|) && EndsWith(a + b + c, c)
  {
    assert (a + b + c)[..|a|] == a;
    assert (a + b + c)[|a|..|a| + |b|] == b;
    assert (a + b + c)[|a| + |b|..] == c;
  }

  /** `s.includes(t)`, by scanning the start positions left to right. */
  predicate Contains(s: string, t: string)
  {
    StartsWith(s, t) || (s != [] && Contains(s[1..], t))
  }

  /** The scan agrees with the definition "t occurs at some position of s". */
  lemma {:induction false} ContainsIff(s: string, t: string)
    ensures Contains(s, t) <==> exists i :: OccursAt(s, t, i)
  {
    if StartsWith(s, t) {
      assert OccursAt(s, t, 0);
    } else if s == [] {
    } else {
      ContainsIff(s[1..], t);
      if exists i :: OccursAt(s, t, i) {
        var i :| OccursAt(s, t, i);
        assert i != 0;
        assert s[1..][i - 1..i - 1 + |t|] == s[i..i + |t|];
        assert OccursAt(s[1..], t, i - 1);
      }
      if Contains(s[1..], t) {
        var j :| OccursAt(s[1..], t, j);
        assert s[1..][j..j + |t|] == s[j + 1..j + 1 + |t|];
        assert OccursAt(s, t, j + 1);
      }
    }
  }

  // ------------------------------------------------------------------ numbers

  function DigitChar(d: nat): (c: char)
    requires d < 10
    ensures IsDigit(c)
  {
    (48 + d) as char
  }

  function DigitValue(c: char): nat
    requires IsDigit(c)
  {
    (c as int) - 48
  }

  /** `n.toString()` for a non-negative integer: decimal digits, no leading
      zero. */
  function NatToString(n: nat): (r: string)
    ensures |r| >= 1 && AllDigits(r)
    ensures r[0] == '0' ==> n == 0
  {
    if n < 10 then [DigitChar(n)] else NatToString(n / 10) + [DigitChar(n % 10)]
  }

  /** `String(n)` for any integer. */
  function IntToString(n: int): string
  {
    if n >= 0 then NatToString(n) else "-" + NatToString(-n)
  }

  /** The length of the run of decimal digits at the start of `s`. */
  function DigitRun(s: string): (n: nat)
    ensures n <= |s| && AllDigits(s[..n])
    ensures n < |s| ==> !IsDigit(s[n])
  {
    if s != [] && IsDigit(s[0]) then
      assert s[..1 + DigitRun(s[1..])] == [s[0]] + s[1..][..DigitRun(s[1..])];
      1 + DigitRun(s[1..])
    else 0
  }

  /** The value of a string of decimal digits. */
  function DigitsValue(s: string): nat
    requires AllDigits(s)
  {
    if s == [] then 0 else DigitsValue(s[..|s| - 1]) * 10 + DigitValue(s[|s| - 1])
  }

  /** Reading back the decimal rendering gives the number. */
  lemma {:induction false} NatToStringRoundTrip(n: nat)
    ensures DigitsValue(NatToString(n)) == n
  {
    if n >= 10 {
      NatToStringRoundTrip(n / 10);
      var s := NatToString(n);
      assert s[..|s| - 1] == NatToString(n / 10);
    }
  }

  /** Different numbers render differently. */
  lemma NatToStringInjective(m: nat, n: nat)
    requires NatToString(m) == NatToString(n)
    ensures m == n
  {
    NatToStringRoundTrip(m);
    NatToStringRoundTrip(n);
  }

  /** `s.padStart(2, "0")`. */
  function PadStart2(s: string): (r: string)
  {
    if |s| >= 2 then s else seq(2 - |s|, _ => '0') + s
  }

  // ------------------------------------------------------------------ casing

  function LowerChar(c: char): char
  {
    if IsUpper(c) then (c as int + 32) as char else c
  }

  /** `s.toLowerCase()` restricted to ASCII letters. */
  function LowerAscii(s: string): (r: string)
    ensures |r| == |s|
    ensures forall i :: 0 <= i < |s| ==> r[i] == LowerChar(s[i])
  {
    seq(|s|, i requires 0 <= i < |s| => LowerChar(s[i]))
  }
}

=== FILE: wrappers.dfy ===
/** Option and Result values standing in for JavaScript's `null`/`undefined`
    and for thrown errors. */
module Wrappers {

  datatype Option<+T> = None | Some(value: T)

  /** The outcome of a call into code outside the model (a model, a database,
      a file reader) that either delivers a value or throws. */
  datatype Outcome<+T> = Delivered(value: T) | Threw
}
